=== FILE: README.md ===
# A verified model of the student-and-project CRUD application

The application manages projects, the students enrolled in them and
tasks, behind a user login. It has a React client, in two generations
(`client/` and the older `src/`), and two Spring Boot back ends: the newer
`server/` tree and the older `src/main/java` tree. This project models its
small, sequential logic in Dafny and proves what that logic promises.

- **Client session.** It covers the token helpers and both authentication contexts. The newer
  context is a state machine over the React state, local storage and the
  window's pending timeouts, and at most one auto-logout timer is ever
  outstanding. Expiry follows the `exp` NumericDate claim, defined in
  section 4.1.4 of RFC 7519. The clock is a parameter `now`, and token
  decoding is an oracle.
- **Client decisions.** This part covers:
  - the error-message fallback chain;
  - base-URL normalisation, and the rules the axios interceptors apply to the Bearer header and to a 401 (section 2.1 of RFC 6750);
  - the list hooks that refetch after every mutation, `useFetch` and `useCrudOperation`;
  - the local list edits of the tasks page, and the search message and payloads of the students page;
  - the sign-in pages' validators and error classifiers;
  - the form rules.

  Each remote call's outcome is an oracle input.
- **Server services.** These cover the following:
  - the project, student, task and user services of both trees;
  - the admin seeders and the project-owner migration;
  - the current-user lookup.

  Each work over an in-memory database. Each repository is modelled as a
  table of rows kept in insertion order, and saving a row enforces the NOT
  NULL and UNIQUE columns its entity declares. The order is a modelling
  assumption: no repository query carries an `ORDER BY`, so the database may
  return rows in any order. Every list a query or service returns
  (`StudentsOfProject`, `TasksOfProject`, `SearchByName`, `TasksByName`,
  `SearchByNameAndProjectOnePass` and every result stated "in table order")
  matches the source only up to permutation: its contents and length are
  promised, its order is not.
- **Strings and bytes.** This group covers:
  - Bearer-header extraction;
  - the CORS origin list;
  - the access rule;
  - the JWT signing key's zero padding, and expiry arithmetic in Java `long`;
  - the token blacklist over a key-to-expiry store;
  - UTF-8, and the lowercase hex form of a SHA-256 digest (FIPS 180-4). The digest itself is a parameter.
- **Validation and error mapping.** Here the model covers:
  - the bean-validation constraints on every request body, as the set of violations reported (today's date is a parameter);
  - both exception handlers, as status codes (section 15 of RFC 9110) and bodies;
  - the `ApiResponse` factories.

Files:

| file | content |
|---|---|
| `wrappers.dfy` | `Option` and `Result` |
| `text.dfy` | white space kinds, trimming, substrings, UTF-16 length, decimal printing, splitting |
| `bytes.dfy` | UTF-8 and hex |
| `error_message.dfy`, `auth_token.dfy`, `session.dfy`, `legacy_session.dfy`, `api_client.dfy` | client session and HTTP layer |
| `collection_hooks.dfy`, `crud_operation.dfy`, `tasks_page.dfy`, `students_page.dfy`, `home_pages.dfy`, `forms.dfy` | client hooks and pages |
| `domain.dfy` | entities, tables, constraints, repository queries, failures |
| `project_service.dfy`, `student_service.dfy`, `task_service.dfy`, `user_service.dfy`, `current_user.dfy`, `admin.dfy` | server services and start-up jobs |
| `security.dfy` | newer tree's security layer |
| `validation.dfy`, `exceptions.dfy` | request validation and exception handlers |

Where the two trees differ, both are modelled and lemmas relate them: for
example `ProjectService.CreateTreesAgree` and
`HomePages.ClassifiersAgreeOnLogin`.

Four points follow the code rather than its description:

- The older `Project` entity declares no owner. The older tree's
  `ProjectOwnerMigration` nevertheless reads and sets one. The model gives
  projects an optional owner so that the migration can be stated.
- The older `TaskService.searchByName` calls a repository method that
  `TaskRepository` does not declare.
- The client's log-in page reports a missing token as a network failure.
  See "Findings" below.
- The newer `UserService.register` calls `userRepository.existsByUsername`
  (server/src/main/java/com/edis/backendproject/service/UserService.java:40),
  but the newer `UserRepository` declares only `findByUsername`. Spring Data
  would derive the query from the method name once declared, so
  `UserService.RegisterUser` models the call as "a user with that exact name
  is in the table", the same lookup `findByUsername` makes.

## Model

| member | source | states |
|---|---|---|
| ErrorMessage.GetErrorMessage | src/types/errors.ts:14-38 | a falsy error gives the fallback; a string body is returned verbatim even when empty; an object body's message with non-space content wins; an empty result comes only from an empty fallback, an empty string body or an empty `error` field |
| ErrorMessage.GetErrorMessageIsFirstCandidate | src/types/errors.ts:14-38 | the result is the first applicable candidate in the order string body, non-blank body message, string body error, non-empty own message, fallback |
| ErrorMessage.GetErrorMessageIsACandidate | src/types/errors.ts:14-38 | the result is always one of those candidates: the chain is total and never invents a message |
| ErrorMessage.RewrapMessage | src/types/errors.ts:33-37 | normalising `new Error(msg)` again gives `msg` when it is non-empty and the fallback otherwise |
| AuthToken.ExpirationMillis | src/utils/authToken.ts:43-48 | no expiry exactly when the payload is missing or its `exp` is absent or 0; otherwise `exp` times 1000 |
| AuthToken.IsTokenExpired | src/utils/authToken.ts:20-25 | expired exactly when an expiry exists and is at or before `now`, so the boundary instant counts as expired and a token without `exp` never expires |
| AuthToken.ExpiryIsPermanent | src/utils/authToken.ts:20-25 | a token expired at one instant is expired at every later one |
| AuthToken.UsernameFromPayload | src/utils/authToken.ts:27-29 | a non-empty `username` wins, otherwise a non-empty `sub`; the result is empty exactly when neither is a non-empty string |
| AuthToken.PersistToken | src/utils/authToken.ts:3-33 | the "token" key holds the token and every other key is untouched |
| AuthToken.ClearStoredToken | src/utils/authToken.ts:35-37 | the "token" key is gone and every other key is untouched |
| AuthToken.StorageRoundTrip | src/utils/authToken.ts:31-41 | persist then get returns the token; clear then get returns nothing; clearing is idempotent and undoes a persist |
| AuthToken.GetStoredToken | src/utils/authToken.ts:39-41 | a token is returned exactly when the storage key is present, and it is the stored value |
| Session.AtMostOneTimer | client/src/context/AuthContext.tsx:67-93 | in every reachable session at most one auto-logout timer is pending |
| Session.UserOf | client/src/context/AuthContext.tsx:58-107 | the user is present exactly when the derived username is non-empty, and then carries it |
| Session.BuildInitialState | client/src/context/AuthContext.tsx:48-63 | a missing or empty stored token logs out and leaves storage alone; an undecodable or expired one logs out and clears storage; otherwise the token is the stored, decodable, unexpired one and the user comes from its payload; no timer exists |
| Session.ClearLogoutTimer | client/src/context/AuthContext.tsx:69-74 | the pending timer is cancelled and the ref emptied; token, user and storage are unchanged |
| Session.Logout | client/src/context/AuthContext.tsx:76-80 | no timer, no token, no user, the stored token removed and other keys kept; the session is no longer authenticated |
| Session.LogoutIdempotent | client/src/context/AuthContext.tsx:76-80 | logging out twice is logging out once |
| Session.ScheduleLogout | client/src/context/AuthContext.tsx:82-96 | the previous timer is always cancelled; no expiration arms nothing; a reached expiration logs out at once; otherwise exactly one timer is pending, due no later than the expiration, and due at it exactly when the expiration is less than 2^31 ms away |
| Session.TimerDelay | client/src/context/AuthContext.tsx:93 | the delay a window timer waits: a requested delay below 2^31 ms is kept, one from 2^31 to 2^32 ms wraps negative and fires at once, and a positive delay is never lengthened |
| Session.LogoutDue | client/src/context/AuthContext.tsx:88-93 | the armed timer fires between now and the expiry, at the expiry when it is less than 2^31 ms away and at once when it is 2^31 to 2^32 ms away |
| Session.LongLifetimeLogsOutAtOnce | client/src/context/AuthContext.tsx:88-108 | a login with a token that expires 2^31 to 2^32 ms ahead authenticates, and the next tick of the clock, even at the same instant, logs it out |
| Session.Login | client/src/context/AuthContext.tsx:98-115 | it throws "Invalid or expired token" exactly for an undecodable or expired token and then only the stored token is cleared; otherwise the token is persisted and set, the user derived, and one timer is due when the window fires it for the expiry, or none when there is no `exp` |
| Session.TokenEffect | client/src/context/AuthContext.tsx:117-128 | without a token the timer is cancelled; an undecodable or expired token logs out; otherwise token, user and storage are kept, the previous timer is cancelled, and one timer is armed for the expiry (due at `LogoutDue`), or none when the token has no `exp` |
| Session.Tick | client/src/context/AuthContext.tsx:93 | a due pending timer fires and logs out; with no due timer nothing changes |
| Session.LoginThenEffectKeepsOneTimer | client/src/context/AuthContext.tsx:84-128 | a login followed by the effect it triggers still leaves exactly one timer, due when the window fires it for the token's expiry, which is the expiry itself when that is less than 2^31 ms away |
| Session.ExpiredLoginIsLoggedOut | client/src/context/AuthContext.tsx:93-135 | once the logged-in token's expiry instant is reached, the armed timer leaves the session unauthenticated |
| LegacySession.Sync | src/context/AuthContext.tsx:27-34 | after the effect storage holds the token exactly when it is truthy, the key is absent otherwise, and no other key changes |
| LegacySession.LogoutIdempotent | src/context/AuthContext.tsx:40-42 | logging out twice is logging out once |
| LegacySession.EmptyLoginIsNotAuthenticated | src/context/AuthContext.tsx:36-45 | `login("")` leaves the user unauthenticated, and a reload after the effect starts with no token |
| LegacySession.LoginSurvivesReload | src/context/AuthContext.tsx:23-38 | a non-empty token set by login, mirrored by the effect and read back by the initial state is the same token, and authenticates |
| LegacySession.LogoutSurvivesReload | src/context/AuthContext.tsx:23-42 | after logout and the effect, a reload is not authenticated |
| ApiClient.DropTrailingSlash | src/api/axiosInstance.tsx:10-14 | at most one trailing "/" is removed, and the input is unchanged exactly when it does not end in "/" |
| ApiClient.NormalizeBaseUrl | src/api/axiosInstance.tsx:7-15 | the input is trimmed first; an http(s) URL in any letter case loses at most one trailing "/" and gains no leading one; anything else is given a leading "/" and then loses exactly one trailing "/" when it ends in one and nothing otherwise, so "" and "/" both give "" |
| ApiClient.WithLeadingSlash | src/api/axiosInstance.tsx:13 | the result starts with "/" and is the input or the input behind one "/" |
| ApiClient.NormalFormIsFixpoint | src/api/axiosInstance.tsx:7-15 | a URL already trimmed, without trailing "/", absolute or rooted, is left as it is |
| ApiClient.ResolveBaseUrl | src/api/axiosInstance.tsx:17-32 | a configured value with non-space content is normalised; otherwise "/api" in the dev server and "http://localhost:8080/api" in a built bundle |
| ApiClient.DefaultsAreNormal | src/api/axiosInstance.tsx:4-31 | both defaults are fixed points of the normaliser |
| ApiClient.AuthorizationHeader | src/api/axiosInstance.tsx:43-51 | a header is set exactly when a non-empty token is stored, and it is "Bearer " followed by that token |
| ApiClient.OnResponseError | src/api/axiosInstance.tsx:58-77 | a 401 from a URL containing "/auth/login" or "/auth/register" changes nothing; any other 401 clears the token and redirects to "/login"; other errors change nothing |
| ApiClient.UnauthorisedDropsHeader | src/api/axiosInstance.tsx:43-73 | after a 401 outside the auth endpoints the next request carries no Authorization header |
| CollectionHooks.Initial | client/src/hooks/useProjects.ts:19-20 | the list starts empty and loading |
| CollectionHooks.Fetch | client/src/hooks/useProjects.ts:22-32 | one list call; success replaces the list wholesale, null counting as empty; failure rejects with the message normalised against "Failed to load projects" (or "...students") and keeps the list; loading ends either way |
| CollectionHooks.Mutate | client/src/hooks/useProjects.ts:34-59 | a failed mutation makes no refetch, keeps the state and rejects with the normalised create/update/delete fallback; a successful one is followed by exactly one list call and the list becomes the refetched list, never a local edit |
| CollectionHooks.RefetchFailureKeepsLoadMessage | client/src/hooks/useProjects.ts:22-59 | when the refetch after a mutation fails with a usable message, the mutation rejects with the load-failure message, not the mutation fallback |
| CollectionHooks.SearchStudents | src/hooks/useStudents.ts:109-127 | a query with no content makes only a list call and resolves `{found: true, count: 0}` whatever the list holds; any other query is sent untrimmed, replaces the list with the matches and counts them; a failure rejects with the normalised "Failed to search students" and keeps the list; `found` is true on every success and loading ends on every path |
| CollectionHooks.Mount | client/src/hooks/useProjects.ts:61-66 | mounting makes one list call; its failure is caught by the projects hook and escapes from the students hook (src/hooks/useStudents.ts:129-131) |
| CollectionHooks.ListFetchCount | client/src/hooks/useProjects.ts:34-66 | over any sequence of refreshes and mutations the list is fetched once on mount plus once per refresh and once per successful mutation |
| CollectionHooks.EmptyRejectionUsesLoadMessage | client/src/hooks/useProjects.ts:27-28 | a rejection carrying nothing usable is reported with the hook's own load-failure message |
| CrudOperation.ExecuteCrudOperation | client/src/hooks/useCrudOperation.ts:18-44 | on success the operation's result is returned and the effects are exactly the success snackbar (when a non-empty message is given) followed by the callback (when given); a callback that throws is caught, an error snackbar follows, and the result is undefined; on failure it resolves undefined with exactly one error snackbar carrying the normalised message, and no callback |
| CrudOperation.DefaultFailureMessage | client/src/hooks/useCrudOperation.ts:23-40 | without options a failure with nothing usable shows "Operation failed" |
| CrudOperation.FailureMessage | src/hooks/useFetch.ts:33 | an `Error`'s own message, otherwise "An error occurred" |
| CrudOperation.SettleFetch | src/hooks/useFetch.ts:29-35 | success gives exactly `{data: result, loading: false, error: null}`; failure drops the data and stores the failure message; loading ends |
| CrudOperation.ExecuteFetch | src/hooks/useFetch.ts:27-36 | a refetch starts loading with the error cleared and ends with an error exactly when the fetch failed; it never rejects |
| CrudOperation.Mounted | src/hooks/useFetch.ts:21-42 | once mounting settles nothing is loading; with `immediate` the error is set exactly when the fetch failed, the data is the result on success and absent with the failure message on failure; without it there is no data and no error |
| CrudOperation.MountIsRefetchOfIdle | src/hooks/useFetch.ts:21-47 | fetching on mount gives the same state as mounting idle and calling `refetch` once |
| CrudOperation.FailureReportedOnceAndLast | client/src/hooks/useCrudOperation.ts:28-41 | the call resolves undefined exactly when the operation failed or the callback threw, and then an error snackbar is the last effect and the only one; otherwise no error snackbar is shown |
| CrudOperation.CallbackOnlyAfterSuccess | client/src/hooks/useCrudOperation.ts:28-36 | the callback runs exactly when the operation succeeded and one is given, and only the success snackbar precedes it |
| CrudOperation.SettleForgetsHistory | src/hooks/useFetch.ts:28-35 | the settled state does not depend on the state the fetch started from |
| TasksPage.EmptyForm | src/pages/TasksPage.tsx:84-95 | the reset form is blank, "ACTIVE", "MEDIUM", without id, and carries the route's project |
| TasksPage.FetchTasks | src/pages/TasksPage.tsx:54-65 | one list call for the route's project; success replaces the list; failure keeps it and shows the load-failure notice; loading ends |
| TasksPage.AddFailureShown | src/pages/TasksPage.tsx:99 | a non-empty response body is shown as it is (an object body too), anything else gives the create-failure text |
| TasksPage.HandleAdd | src/pages/TasksPage.tsx:75-101 | a first name, last name or code blank after trimming makes no call and keeps the list; success appends exactly the server's task and resets the form; failure keeps list and form |
| TasksPage.ReplaceById | src/pages/TasksPage.tsx:106 | same length and order; exactly the entries with the id become the server's task |
| TasksPage.RemoveById | src/pages/TasksPage.tsx:131 | exactly the entries with the id are removed |
| TasksPage.RemoveByIdAppend | src/pages/TasksPage.tsx:131 | the filter works piece by piece, so the kept entries keep their order |
| TasksPage.ReplaceThenRemove | src/pages/TasksPage.tsx:106-131 | an update followed by a delete of the same id leaves what the delete alone would |
| TasksPage.HandleUpdate | src/pages/TasksPage.tsx:103-125 | one update call; success replaces the entries with the id, closes the editor and resets the form; failure keeps list, form and editor |
| TasksPage.HandleDelete | src/pages/TasksPage.tsx:127-138 | a declined confirmation changes nothing and calls nothing; a confirmed success removes exactly the entries with the id; a failure keeps the list |
| TasksPage.HandleSearch | src/pages/TasksPage.tsx:140-159 | a blank query reloads; otherwise a code match becomes the whole list, on its failure the name matches do, and when both fail the list stays and a notice is shown |
| StudentsPage.BuildStudentDefaults | src/pages/StudentsPage.tsx:33-42 | each present override wins, a present `null` description included; each absent one leaves the default, "" for text and the given project |
| StudentsPage.EditDefaultsAreTheStudent | src/pages/StudentsPage.tsx:83-92 | resetting the edit form from a stored student gives that student's values, a `null` description included, whatever project the route names |
| StudentsPage.PlainDefaults | src/pages/StudentsPage.tsx:33-59 | without overrides all six text fields are "" and the project is the given one |
| StudentsPage.Payload | src/pages/StudentsPage.tsx:95-111 | add and update payloads carry the route's project, and otherwise the form's values unchanged |
| StudentsPage.UpdateTarget | src/pages/StudentsPage.tsx:109-113 | an update happens exactly when a student is being edited and has a truthy id, and targets that id |
| StudentsPage.DeleteTarget | src/pages/StudentsPage.tsx:126-133 | a delete happens exactly when the dialog holds a truthy id, and targets that id |
| StudentsPage.ResultMessage | src/pages/StudentsPage.tsx:156-160 | zero results give "No student found with ID: q" for an all-digit query and "No students found matching: q" otherwise; N results give "Found N student", with "s" exactly when N > 1 |
| StudentsPage.OnSearch | src/pages/StudentsPage.tsx:146-165 | a blank query shows "Enter a search term" and searches nothing; a success activates the search and shows the result message for the trimmed query; a failure shows "Search failed. Please try again." and leaves the active flag alone |
| StudentsPage.PageSearchUsesSearchPath | src/pages/StudentsPage.tsx:147-154 | the page hands the hook a trimmed non-blank query, so the hook always searches (src/hooks/useStudents.ts:117-119) and the count is the number of students now listed |
| StudentsPage.FoundMessageDeterminesCount | src/pages/StudentsPage.tsx:159-160 | two positive counts giving the same "Found ..." message are equal |
| Admin.Bootstrap | server/src/main/java/com/edis/backendproject/config/AdminBootstrapRunner.java:39-64 | skipped unless both settings have text; an existing admin whose password matches is left alone; one whose password does not match gets the newly encoded password and keeps its id, name and role; a missing admin is inserted with role "ADMIN"; consistency is preserved and the run never fails on a consistent table (column lengths aside, see "Left out") |
| Admin.BootstrapEstablishesAdmin | server/src/main/java/com/edis/backendproject/config/AdminBootstrapRunner.java:45-64 | with a sound encoder, after a run that is not skipped a user with the configured name exists whose stored password matches the configured one |
| Admin.BootstrapIdempotent | server/src/main/java/com/edis/backendproject/config/AdminBootstrapRunner.java:45-53 | a second run with the same settings leaves the users unchanged |
| Admin.Initialize | server/src/main/java/com/edis/backendproject/config/AdminUserInitializer.java:37-53 | an existing user of that name is left untouched, password included; otherwise one "ADMIN" user with the encoded password is appended; afterwards the name is taken, and consistency is preserved |
| Admin.InitializeThenBootstrap | server/src/main/java/com/edis/backendproject/config/AdminUserInitializer.java:45-51 | after the initializer has seeded an admin, the bootstrap runner with the same settings and a sound encoder changes nothing |
| Admin.Unowned | src/main/java/com/edis/backendproject/service/ProjectOwnerMigration.java:31 | exactly the projects without an owner are listed |
| Admin.AssignOwner | src/main/java/com/edis/backendproject/service/ProjectOwnerMigration.java:42-44 | every project keeps its id, name and other fields, an unowned one gets the given owner and an owned one keeps its owner |
| Admin.AssignOwnerConsistent | src/main/java/com/edis/backendproject/service/ProjectOwnerMigration.java:43-44 | saving the re-owned projects keeps the project table consistent (ids and unique names unchanged) |
| Admin.Migrate | src/main/java/com/edis/backendproject/service/ProjectOwnerMigration.java:30-46 | nothing changes when no project is unowned or no user is named "admin"; otherwise only the projects change, each unowned one going to that user; consistency is preserved |
| Admin.MigrationLeavesNoUnowned | src/main/java/com/edis/backendproject/service/ProjectOwnerMigration.java:36-44 | once "admin" exists, after the migration no project is unowned and every project's owner is its old owner or else the admin |
| Admin.MigrateIdempotent | src/main/java/com/edis/backendproject/service/ProjectOwnerMigration.java:30-34 | running the migration a second time changes nothing |
| CurrentUser.CurrentUsername | src/main/java/com/edis/backendproject/service/AuthenticatedUserService.java:19-26 | fails with access denied "User is not authenticated" exactly when there is no authentication, it is not authenticated, or its principal is "anonymousUser"; otherwise gives the authentication's name |
| CurrentUser.CurrentUser | src/main/java/com/edis/backendproject/service/AuthenticatedUserService.java:28-32 | an unauthenticated request is denied; a signed-in name with no stored user fails with "User not found: " + name; a success is a stored user with the signed-in name |
| CurrentUser.CurrentUserIsTheStoredOne | src/main/java/com/edis/backendproject/service/AuthenticatedUserService.java:28-32 | with distinct usernames the current user is exactly the stored user carrying the signed-in name |
| Domain.Save | src/main/java/com/edis/backendproject/model/Student.java:21-58 | the database refuses a row exactly when it breaks a NOT NULL or UNIQUE constraint of its entity (a unique key with a null column never clashes), naming the first broken one; otherwise a new row goes last with the next identity, an existing one is overwritten in place, and a consistent table stays consistent |
| Domain.ConstraintError | src/main/java/com/edis/backendproject/model/Student.java:21-23 | a refusal is a data-integrity failure whose message names the unique constraint it broke |
| Domain.ProjectNamesDistinct | src/main/java/com/edis/backendproject/model/Project.java:18-19 | in a consistent table every project has a name and no two projects share one |
| Domain.UsernamesDistinct | src/main/java/com/edis/backendproject/model/User.java:27-28 | in a consistent table no two users share a username |
| Domain.StudentCodesDistinct | src/main/java/com/edis/backendproject/model/Student.java:34-35 | in a consistent table every student has a code and no two students share one |
| Domain.GetProjectId | src/main/java/com/edis/backendproject/model/Student.java:61-64 | the exposed project id is absent exactly when the student has no project |
| Domain.GetProjectName | src/main/java/com/edis/backendproject/model/Student.java:67-70 | no project gives no name; otherwise the name is the referenced project's current name |
| Domain.EnsureRole | src/main/java/com/edis/backendproject/model/User.java:33-42 | username and password are kept; a missing or blank role becomes "USER" and any other role is kept, so the result always has a non-blank role |
| Domain.EnsureRoleIdempotent | src/main/java/com/edis/backendproject/model/User.java:36-42 | running the hook again (on update after insert) changes nothing |
| Domain.StudentsOfProject | server/src/main/java/com/edis/backendproject/repository/StudentRepository.java:31 | exactly the stored students whose project has the given id |
| Domain.TasksOfProject | src/main/java/com/edis/backendproject/repository/TaskRepository.java:11 | exactly the stored tasks whose project has the given id |
| Domain.StudentByCode | server/src/main/java/com/edis/backendproject/repository/StudentRepository.java:34 | a result is a stored student with exactly that code; none exactly when no stored student has it |
| Domain.StudentByCodeUnique | server/src/main/java/com/edis/backendproject/repository/StudentRepository.java:34 | with unique codes the lookup returns the one student holding the code |
| Domain.SearchByName | server/src/main/java/com/edis/backendproject/repository/StudentRepository.java:37-40 | exactly the stored students whose first or last name equals the term ignoring case |
| Domain.NoPartialMatch | server/src/main/java/com/edis/backendproject/repository/StudentRepository.java:37-40 | a term shorter than both names matches neither: the newer search does no partial matching |
| Domain.LegacySearchByName | src/main/java/com/edis/backendproject/repository/StudentRepository.java:25-29 | exactly the stored students whose code, first name or last name equals the term ignoring case |
| Domain.LegacySearchFindsMore | src/main/java/com/edis/backendproject/repository/StudentRepository.java:25-29 | the older search finds every student the newer one finds, and also those whose code equals the term |
| Domain.TaskByCode | src/main/java/com/edis/backendproject/repository/TaskRepository.java:14 | a result is a stored task with exactly that code; none exactly when no stored task has it |
| Domain.TasksByName | src/main/java/com/edis/backendproject/repository/TaskRepository.java:17 | exactly the stored tasks whose first name contains the first argument or whose last name contains the second, ignoring case |
| Domain.TaskPrefixFound | src/main/java/com/edis/backendproject/repository/TaskRepository.java:17 | the task query matches partially: a first name starting with the argument is found whatever the last name |
| Domain.ProjectByName | server/src/main/java/com/edis/backendproject/repository/ProjectRepository.java:16 | a result is a stored project with exactly that name; none exactly when no stored project has it |
| Domain.UserByName | server/src/main/java/com/edis/backendproject/repository/UserRepository.java:15 | a result is a stored user with exactly that name; none exactly when no stored user has it |
| Domain.SaveUser | src/main/java/com/edis/backendproject/model/User.java:27-42 | saving a user fails exactly when another stored user has the same name; a stored user always has its role ensured; consistency is preserved |
| ProjectService.ProjectSaveRefused | server/src/main/java/com/edis/backendproject/model/Project.java:32-33 | the database refuses a project exactly when its name is null or another project already holds the name |
| ProjectService.GetProject | server/src/main/java/com/edis/backendproject/service/ProjectService.java:37-75 | not found ("Project not found") exactly when no project has the id; otherwise the stored project with that id |
| ProjectService.CreateProject | server/src/main/java/com/edis/backendproject/service/ProjectService.java:43-94 | a null name throws "Project name must not be null" before any lookup; a name any project holds is refused with "Project with this name already exists"; a free name always succeeds, appending one project with the request's name and description and changing no other table; consistency is preserved |
| ProjectService.LegacyCreateProject | src/main/java/com/edis/backendproject/service/ProjectService.java:34-45 | a name any project holds is refused; a null name reaches the database and is refused by its NOT NULL column; a success appends one project with the request's name and description and changes nothing else |
| ProjectService.CreateTreesAgree | src/main/java/com/edis/backendproject/service/ProjectService.java:34-45 | for a request with a name the older and newer creates give the same result |
| ProjectService.CreateThenGet | server/src/main/java/com/edis/backendproject/service/ProjectService.java:43-49 | a created project is read back under its new identity |
| ProjectService.StoreUpdate | server/src/main/java/com/edis/backendproject/service/ProjectService.java:60-90 | overwriting a stored project fails exactly when the name is null or held by another project; a success changes only that row's name and description |
| ProjectService.UpdateProject | server/src/main/java/com/edis/backendproject/service/ProjectService.java:53-62 | an unknown id is not found; then a null name throws; a changed name that any project holds is refused; a success keeps the identity, changes only name and description and only that row; consistency is preserved |
| ProjectService.UpdateKeepingName | server/src/main/java/com/edis/backendproject/service/ProjectService.java:56-58 | keeping a project's own name always succeeds on a consistent database |
| ProjectService.UpdateToFreshName | server/src/main/java/com/edis/backendproject/service/ProjectService.java:56-84 | renaming to a name no project holds always succeeds |
| ProjectService.LegacyUpdateProject | src/main/java/com/edis/backendproject/service/ProjectService.java:47-63 | an unknown id is not found; a changed name any project holds is refused; a success changes only that row's name and description |
| ProjectService.UpdateTreesAgree | src/main/java/com/edis/backendproject/service/ProjectService.java:47-63 | for a request with a name the older and newer updates give the same result |
| ProjectService.DeleteProject | server/src/main/java/com/edis/backendproject/service/ProjectService.java:64-69 | not found exactly when no project has the id; otherwise exactly that project and, by the cascade (server/src/main/java/com/edis/backendproject/model/Project.java:41-43), exactly its students are removed, other tables are unchanged, and consistency and student references are preserved |
| ProjectService.DeleteThenGet | server/src/main/java/com/edis/backendproject/service/ProjectService.java:64-75 | after a delete the project is not found |
| ProjectService.LegacyDeleteProject | src/main/java/com/edis/backendproject/service/ProjectService.java:65-70 | an unknown id is not found; the database refuses the delete exactly when students still refer to the project (the entity cascades only to tasks, src/main/java/com/edis/backendproject/model/Project.java:30-32); otherwise exactly the project and its tasks go, and consistency and references are preserved |
| StudentService.StudentSaveRefused | src/main/java/com/edis/backendproject/model/Student.java:21-58 | the database refuses a student exactly when its code, names, title or project is missing, or another row holds its code or its (first name, last name) pair |
| StudentService.GetStudent | server/src/main/java/com/edis/backendproject/service/StudentService.java:39-43 | not found ("Student not found") exactly when no student has the id; otherwise the stored student with that id |
| StudentService.SearchByCode | server/src/main/java/com/edis/backendproject/service/StudentService.java:50-56 | a null or blank code is refused with "Code cannot be empty"; otherwise it succeeds exactly when a stored student has that exact code, returning such a student, and fails with "Student not found" otherwise |
| StudentService.SearchByCodeFindsStored | server/src/main/java/com/edis/backendproject/service/StudentService.java:50-56 | with unique codes, searching a stored student's non-blank code returns exactly that student |
| StudentService.PaddedCodeNotFound | server/src/main/java/com/edis/backendproject/service/StudentService.java:51-54 | the code is trimmed only for the blankness check: a space-padded code is not found when only the unpadded code is stored |
| StudentService.StudentsByProject | server/src/main/java/com/edis/backendproject/service/StudentService.java:45-48 | exactly the stored students of that project |
| StudentService.SearchByNameAndProject | server/src/main/java/com/edis/backendproject/service/StudentService.java:62-68 | exactly the name-search results whose project has the given id |
| StudentService.SearchByNameAndProjectOnePass | server/src/main/java/com/edis/backendproject/service/StudentService.java:62-68 | filtering the name search by project equals one filtered pass over the table, in table order |
| StudentService.LegacySearchByNameAndProject | src/main/java/com/edis/backendproject/service/StudentService.java:53-58 | exactly the older name search's results whose project has the given id |
| StudentService.StoreNewStudent | server/src/main/java/com/edis/backendproject/service/StudentService.java:77-86 | storing a student built from the request fails exactly when the database refuses it; a success appends the request's six fields with the project and changes no other table, keeping consistency and project references |
| StudentService.CreateStudent | server/src/main/java/com/edis/backendproject/service/StudentService.java:72-87 | a null project id throws "Project ID is required", an unknown project is not found, and nothing is stored; otherwise it fails exactly when the database refuses the new student and a success appends exactly that student; consistency and references are preserved |
| StudentService.LegacyCreateStudent | src/main/java/com/edis/backendproject/service/StudentService.java:60-76 | a null project id fails with an unmapped error; any other request behaves as the newer create |
| StudentService.DuplicateCodeRefused | server/src/main/java/com/edis/backendproject/service/StudentService.java:77-86 | a complete student whose code another student holds is refused with the code's unique constraint, even when the names clash too |
| StudentService.CodeClashRefused | src/main/java/com/edis/backendproject/model/Student.java:34-47 | with every required column set, a clashing code is reported as the code's constraint, ahead of the name constraint |
| StudentService.CreateThenSearchByCode | server/src/main/java/com/edis/backendproject/service/StudentService.java:50-87 | a created student with a non-blank code is found by that code |
| StudentService.UpdateStudent | server/src/main/java/com/edis/backendproject/service/StudentService.java:91-103 | an unknown id is not found; otherwise it fails exactly when the database refuses the overwritten student; a success writes the six request fields, keeps the identity, project and creation time, changes only that row, and keeps consistency and references |
| StudentService.DeleteStudent | server/src/main/java/com/edis/backendproject/service/StudentService.java:107-111 | not found exactly when no student has the id; otherwise exactly that student is removed and no other table changes |
| StudentService.DeleteThenGet | server/src/main/java/com/edis/backendproject/service/StudentService.java:39-111 | after a delete the student is not found |
| TaskService.TaskSaveRefused | src/main/java/com/edis/backendproject/model/Task.java:15-48 | the database refuses a task exactly when its title, status or project is missing or another row holds its present code |
| TaskService.GetTask | src/main/java/com/edis/backendproject/service/TaskService.java:33-36 | not found ("Task not found") exactly when no task has the id; otherwise the stored task with that id |
| TaskService.TasksByProject | src/main/java/com/edis/backendproject/service/TaskService.java:39-41 | exactly the stored tasks of that project |
| TaskService.CodeMatches | src/main/java/com/edis/backendproject/repository/TaskRepository.java:14 | exactly the stored tasks whose code equals the argument, a null argument matching the tasks without a code |
| TaskService.FindByCode | src/main/java/com/edis/backendproject/repository/TaskRepository.java:14 | a result exactly when one task matches; not found exactly when none does; several matches fail with an unmapped error |
| TaskService.CodeMatchesAtMostOne | src/main/java/com/edis/backendproject/model/Task.java:15-16 | in a consistent table a present code matches at most one task |
| TaskService.FindByCodeFindsStored | src/main/java/com/edis/backendproject/service/TaskService.java:52-53 | looking up a stored task's present code returns exactly that task |
| TaskService.CodeOrAm | src/main/java/com/edis/backendproject/service/TaskService.java:45-46 | the query is the code when it has text, else the alias when it has text, else none |
| TaskService.SearchByCodeOrAm | src/main/java/com/edis/backendproject/service/TaskService.java:44-54 | with neither parameter having text the request is refused with "Provide ?code= or ?am="; otherwise the chosen parameter is looked up exactly |
| TaskService.BlankCodeFallsBackToAm | src/main/java/com/edis/backendproject/service/TaskService.java:45-46 | a blank code does not hide a usable alias: the task holding the alias is found |
| TaskService.SearchByCode | src/main/java/com/edis/backendproject/service/TaskService.java:57-60 | found exactly when one task matches, and then it is a stored task with exactly the given code; not found exactly when no task matches; several matches give the repository's several-results error |
| TaskService.SearchesAgree | src/main/java/com/edis/backendproject/service/TaskService.java:44-60 | for a code with text the compatibility search and the code-or-alias search agree |
| TaskService.CreateTask | src/main/java/com/edis/backendproject/service/TaskService.java:69-85 | a null project id fails in the repository; an unknown project is not found; otherwise it fails exactly when the database refuses the task, and a success appends the request's seven fields with the project, no priority and no due date; consistency and references are preserved |
| TaskService.CreateThenSearch | src/main/java/com/edis/backendproject/service/TaskService.java:44-85 | a created task with a code is found by that code |
| TaskService.UpdateTask | src/main/java/com/edis/backendproject/service/TaskService.java:89-102 | an unknown id is not found; otherwise it fails exactly when the database refuses the overwritten task; a success writes the seven request fields, keeps identity, project, priority and due date, and changes only that row |
| TaskService.DeleteTask | src/main/java/com/edis/backendproject/service/TaskService.java:106-113 | reports true exactly when the id was stored; then exactly that task is removed, and otherwise nothing changes; consistency and references are preserved |
| TaskService.DeleteTwice | src/main/java/com/edis/backendproject/service/TaskService.java:106-113 | deleting again reports false and changes nothing |
| UserService.FindUser | server/src/main/java/com/edis/backendproject/repository/UserRepository.java:15 | none exactly when no stored user has the name; otherwise a stored user with that name |
| UserService.RegisterUser | server/src/main/java/com/edis/backendproject/service/UserService.java:33-55 | a null request or username throws; the username is trimmed and an empty one is refused with "Username is required", a taken one with "Username is already taken"; only then a null password throws; otherwise exactly one user is appended with the trimmed non-empty name, the encoded password and role "USER"; consistency is preserved |
| UserService.RegisterTwiceRefused | server/src/main/java/com/edis/backendproject/service/UserService.java:36-42 | a name registered once is refused as taken however the second request pads it |
| UserService.DeleteUserByUsername | server/src/main/java/com/edis/backendproject/service/UserService.java:64-73 | a null name throws; an empty trimmed name is refused; an unknown one is not found ("User not found"); a held one succeeds, leaving the table shorter, and on a consistent table exactly the users with other names remain |
| UserService.RegisterThenDelete | server/src/main/java/com/edis/backendproject/service/UserService.java:33-73 | deleting a freshly registered user by the name it was registered under gives back exactly the users that were there before |
| UserService.LoadUserByUsername | server/src/main/java/com/edis/backendproject/service/CustomUserDetailsService.java:30-41 | a null name throws "username is required"; the lookup fails exactly when no user holds the name, with a message naming it; a success carries a stored user's name and password and no authorities |
| UserService.RegisterThenLoad | server/src/main/java/com/edis/backendproject/service/CustomUserDetailsService.java:30-41 | a registered user loads with its trimmed name and encoded password |
| UserService.ConfiguredAdminName | src/main/java/com/edis/backendproject/service/CustomUserDetailsService.java:44-47 | the configured admin name, trimmed; absent exactly when unset or blank after trimming |
| UserService.SeedPassword | src/main/java/com/edis/backendproject/service/CustomUserDetailsService.java:53-55 | the configured password, untrimmed, unless it is unset or blank, in which case "123456" |
| UserService.HashPassword | src/main/java/com/edis/backendproject/service/CustomUserDetailsService.java:67-83 | the digest of the password's UTF-8 bytes written as two hex digits per byte, so the text has twice the digest's length and decodes back to the digest |
| UserService.AdminPassword | src/main/java/com/edis/backendproject/service/CustomUserDetailsService.java:59-61 | the stored admin password is the hex digest of the seed password when SHA-256 passwords are on, the seed password itself otherwise |
| UserService.EnsureDefaultAdmin | src/main/java/com/edis/backendproject/service/CustomUserDetailsService.java:43-65 | with no configured name, or a name some user holds, nothing changes; otherwise one "ADMIN" user with that name and the admin password is appended; afterwards the configured name is held, and consistency is preserved |
| UserService.EnsureDefaultAdminIdempotent | src/main/java/com/edis/backendproject/service/CustomUserDetailsService.java:49-51 | ensuring the admin a second time adds nothing |
| UserService.LegacyLoadUserByUsername | src/main/java/com/edis/backendproject/service/CustomUserDetailsService.java:30-41 | the default admin is ensured first and kept whatever the lookup gives; a null name fails with "User not found with username: null"; otherwise the lookup fails exactly when no user holds the name and a success carries a stored user's name and password |
| UserService.DefaultAdminOnEmptyDatabase | src/main/java/com/edis/backendproject/security/AppProperties.java:12-16 | with the default settings, loading "admin" on an empty database succeeds with the hex digest of "123456" as its password |
| Bytes.EncodeChar | src/main/java/com/edis/backendproject/service/CustomUserDetailsService.java:70 | a character encodes to one to four bytes, one byte exactly for ASCII, which is then the character's own code |
| Bytes.Utf8Append | src/main/java/com/edis/backendproject/service/CustomUserDetailsService.java:70 | the encoding of a concatenation is the concatenation of the encodings |
| Bytes.Utf8OfAscii | src/main/java/com/edis/backendproject/service/CustomUserDetailsService.java:70 | an ASCII string encodes to one byte per character, each its code point |
| Bytes.DecodeEncodeChar | src/main/java/com/edis/backendproject/service/CustomUserDetailsService.java:70 | one character's bytes announce their own length in the lead byte, are followed by continuation bytes, and decode back to the character |
| Bytes.Utf8RoundTrip | src/main/java/com/edis/backendproject/service/CustomUserDetailsService.java:70 | decoding the UTF-8 bytes of any string gives back the string |
| Bytes.Utf8Injective | src/main/java/com/edis/backendproject/service/CustomUserDetailsService.java:70 | different strings have different UTF-8 bytes, so hashing sees distinct passwords as distinct inputs |
| Bytes.ToHexString | src/main/java/com/edis/backendproject/service/CustomUserDetailsService.java:73 | the unsigned byte in lowercase hex without leading zeros: one digit below 16, two otherwise |
| Bytes.HexPair | src/main/java/com/edis/backendproject/service/CustomUserDetailsService.java:73-77 | always two characters, the high nibble's digit and then the low nibble's |
| Bytes.Hex | src/main/java/com/edis/backendproject/service/CustomUserDetailsService.java:71-79 | the hex text has two characters per byte |
| Bytes.HexPairAt | src/main/java/com/edis/backendproject/service/CustomUserDetailsService.java:72-78 | byte i occupies characters 2i and 2i+1 of the text |
| Bytes.HexEncode | src/main/java/com/edis/backendproject/service/CustomUserDetailsService.java:71-79 | the loop that appends one pair per byte produces exactly the hex text, twice as long as the digest |
| Bytes.HexRoundTrip | src/main/java/com/edis/backendproject/service/CustomUserDetailsService.java:71-79 | reading the hex text back gives exactly the digest bytes |
| Bytes.HexIsLowercase | src/main/java/com/edis/backendproject/service/CustomUserDetailsService.java:73 | every character of the hex text is one of the sixteen lowercase hex digits |
| Validation.Check | src/main/java/com/edis/backendproject/dto/StudentRequest.java:22 | a constraint that holds reports nothing and one that fails reports exactly its own violation |
| Validation.TextViolations | src/main/java/com/edis/backendproject/dto/StudentRequest.java:27-30 | for one text field: the not-blank violation exactly when it is null or blank after trimming, the size violation exactly when it is longer than the maximum in UTF-16 units, the pattern violation exactly when it is not letters and white space; every violation names that field |
| Validation.StudentCodeViolations | src/main/java/com/edis/backendproject/dto/StudentRequest.java:21-25 | the code's three violations each appear exactly when their constraint fails, and no other field is named |
| Validation.PlainNameExactly | src/main/java/com/edis/backendproject/dto/StudentRequest.java:27-43 | a letters-pattern field passes all three of its constraints exactly when it is non-null ASCII letters and white space with at least one letter and within the length |
| Validation.CodeExactly | src/main/java/com/edis/backendproject/dto/StudentRequest.java:22-24 | the code passes its three constraints exactly when it is 1 to 20 decimal digits |
| Validation.StudentNameViolations | src/main/java/com/edis/backendproject/dto/StudentRequest.java:27-43 | the first name, last name and title report nothing exactly when each is a plain name within 100, 100 and 200 characters |
| Validation.StudentRequestViolations | src/main/java/com/edis/backendproject/dto/StudentRequest.java:21-49 | a student request has no violation exactly when its code is 1 to 20 digits, its names and title are plain names within their lengths, its birth date is absent or in the past, its description is at most 1000 units and its project id is present |
| Validation.BlankNameFailsOnlyNotBlank | src/main/java/com/edis/backendproject/dto/StudentRequest.java:27-30 | a name of white space alone matches the letters pattern and is rejected only as missing |
| Validation.TaskRequestViolations | src/main/java/com/edis/backendproject/dto/TaskRequest.java:14-41 | a task request has no violation exactly when code, names, title and status are non-blank within 20, 100, 100, 200 and 50 units, the birth date is absent or past, and the project id is present |
| Validation.TaskDescriptionIgnored | src/main/java/com/edis/backendproject/dto/TaskRequest.java:34 | the task description is never checked: changing it changes no violation |
| Validation.TaskCodeIsFreeText | src/main/java/com/edis/backendproject/dto/TaskRequest.java:14-17 | a task code may hold any characters where a student code must be digits: "A-1" passes as a task code and breaks the student code pattern |
| Validation.ProjectRequestViolations | src/main/java/com/edis/backendproject/dto/ProjectRequest.java:19-28 | a project request has no violation exactly when the name is non-blank and 3 to 100 units long, the description at most 500, and the start date present and not in the future; the name's two violations each appear exactly when their constraint fails |
| Validation.BlankProjectNameRejected | src/main/java/com/edis/backendproject/dto/ProjectRequest.java:19-21 | a name of three blanks has a valid length but is rejected as missing |
| Validation.NewLoginRequest | src/main/java/com/edis/backendproject/controller/LoginRequest.java:18-21 | the two-argument constructor keeps both values as given |
| Validation.RegisterRequestViolations | server/src/main/java/com/edis/backendproject/dto/RegisterRequest.java:17-23 | a registration has no violation exactly when the username is non-blank and at most 50 units and the password non-blank and 8 to 128 units |
| Validation.LoginRequestViolations | server/src/main/java/com/edis/backendproject/dto/LoginRequest.java:14-20 | a login has no violation exactly when the username is non-blank and at most 50 units and the password non-blank and at least 4 units (the same in src/main/java/com/edis/backendproject/controller/LoginRequest.java:8-14) |
| Validation.RegisteredCredentialsCanLogIn | server/src/main/java/com/edis/backendproject/dto/RegisterRequest.java:17-23 | whatever registration accepts, login accepts |
| Validation.NoMaximumLoginPassword | server/src/main/java/com/edis/backendproject/dto/LoginRequest.java:18-20 | a valid login stays valid however long the password grows |
| Text.Trim | server/src/main/java/com/edis/backendproject/service/UserService.java:36 | the trimmed string is no longer than the input, has no white space at either end, and is empty exactly when the input is all white space |
| Text.TrimCutsEnds | server/src/main/java/com/edis/backendproject/service/UserService.java:36 | the trimmed string is a slice of the input whose prefix and suffix are all white space, so trimming removes white space from the two ends only |
| Text.TrimIdempotent | server/src/main/java/com/edis/backendproject/service/UserService.java:65 | trimming a trimmed name changes nothing, so a name trimmed at registration is found again by a lookup that trims |
| Text.TrimSurrounded | server/src/main/java/com/edis/backendproject/service/UserService.java:36 | white space around a non-empty unpadded name is removed and the name itself kept |
| Text.NatToStringRoundTrip | src/pages/StudentsPage.tsx:160 | the printed count is digits without a leading zero, and reading them back gives the count |
| Text.SplitJoin | server/src/main/java/com/edis/backendproject/security/SecurityConfig.java:31 | splitting on a separator undoes joining pieces that do not contain it |
| Text.JoinSplit | server/src/main/java/com/edis/backendproject/security/SecurityConfig.java:31 | joining the pieces of a split gives the string back |
| Text.DropTrailingEmpty | server/src/main/java/com/edis/backendproject/security/SecurityConfig.java:31 | Java's split drops exactly the trailing empty pieces: what is kept is a prefix that does not end with an empty piece, and everything dropped is empty |
| Text.Utf16LengthOfBmp | server/src/main/java/com/edis/backendproject/dto/RegisterRequest.java:18 | lengths are counted in UTF-16 units, so a string of Basic Multilingual Plane characters has its own length |
| Forms.Validate | src/components/StudentForm.tsx:47-54 | no message exactly when the value satisfies its rules; an empty required value gets the required message, and any message shown is one of the field's own |
| Forms.ValidateStudent | src/components/StudentForm.tsx:44-131 | the id is accepted exactly when it is at least five digits, each name and the job title exactly when they are letters and white space; the birth date and description are never flagged |
| Forms.ShortIdMessage | src/components/StudentForm.tsx:47-54 | a numeric id shorter than five gets the length message, because the length rule runs before the pattern |
| Forms.BlankNamePasses | src/components/StudentForm.tsx:61-66 | a name of white space alone passes the form's rules |
| Forms.ValidateProjectName | src/components/ProjectForm.tsx:42-45 | an empty name gets the required message, a shorter than three one the length message, and a name is accepted exactly when it has at least three UTF-16 units |
| Forms.NoMaximumName | src/components/ProjectForm.tsx:42-45 | an accepted name stays accepted however much is appended |
| Forms.ProjectHeading | src/components/ProjectForm.tsx:30 | the heading is "Create Project" exactly in create mode and "Edit Project" exactly in edit mode |
| Forms.ProjectSubmitButton | src/components/ProjectForm.tsx:64-83 | the button is disabled exactly while submitting, in both modes; the create label shows the progress and the edit label is fixed |
| HomePages.FormTitle | client/src/pages/HomePage.tsx:76-79 | the title is "Log In" exactly in log-in mode and "Create Account" exactly in register mode |
| HomePages.PrimaryActionLabel | client/src/pages/HomePage.tsx:81-89 | the button shows the title when idle and a different label ending in "..." while submitting |
| HomePages.ToggleMode | client/src/pages/HomePage.tsx:91-96 | choosing the current mode changes nothing; choosing the other one switches to it and clears the server error |
| HomePages.ToggleThereAndBack | client/src/pages/HomePage.tsx:91-96 | switching away and back restores the mode with the server error cleared |
| HomePages.Required | client/src/pages/HomePage.tsx:303 | the required rule reports its message exactly for the empty value |
| HomePages.ConfirmPasswordRule | client/src/pages/HomePage.tsx:361-367 | the confirmation is valid exactly when logging in or when it is non-empty and equal to the password; otherwise the empty and the mismatched cases get their own messages |
| HomePages.ClassifySubmitError | client/src/pages/HomePage.tsx:127-141 | a failure without a response is "Cannot reach the server."; a 401 on log-in and a 409 on registration get their own messages, and only the 409 flags the username field; anything else shows the server's message or the mode's fallback |
| HomePages.Submit | client/src/pages/HomePage.tsx:98-141 | the trimmed username and the password as typed are sent to the mode's endpoint; a successful registration switches to log-in mode, a failed one shows its classification; a log-in navigates exactly when it handed the session a non-empty token the session accepted, and then shows no error; a rejected log-in shows its classification, a reply without a token shows the classification of the "No token" error, and a refused token the classification of "Invalid or expired token" |
| HomePages.MissingTokenReportedAsUnreachable | client/src/pages/HomePage.tsx:98-109 | a log-in reply without a token is shown as "Cannot reach the server.", never as the message thrown for it |
| HomePages.SubmitCorrected | client/src/pages/HomePage.tsx:98-141 | a reply without a usable token shows "No token returned by the server." and one the session refuses shows "Invalid or expired token"; registration and rejected log-ins are as written, and it navigates exactly when the page as written does |
| HomePages.CorrectedNeverBlamesTheNetwork | client/src/pages/HomePage.tsx:131-132 | a log-in the server answered is never reported as unreachable |
| HomePages.LegacyClassify | src/pages/HomePage.tsx:96-106 | a 401 comes first, then a missing response, then the server's message or the log-in fallback |
| HomePages.ClassifiersAgreeOnLogin | src/pages/HomePage.tsx:100-104 | the two pages show the same message for every failed log-in, although they test in opposite orders |
| HomePages.LegacySubmit | src/pages/HomePage.tsx:77-106 | one log-in request with the trimmed username; a reply without a token shows "No token returned by the server." and any other token is handed on and navigates; a rejection shows its classification |
| HomePages.CorrectedMatchesLegacy | src/pages/HomePage.tsx:77-106 | with a session that accepts every token, the corrected newer page shows what the older page shows for every log-in reply |
| HomePages.WasRedirectedFromProtected | src/pages/HomePage.tsx:54-56 | no former location is not a redirect; "/dashboard" is one; any other path is one exactly when it starts with "/students/" |
| HomePages.RedirectSources | src/pages/HomePage.tsx:54-56 | "/students/7" and "/dashboard" count as protected; "/students", "/dashboard/x", "/" and no location do not |
| Security.ExtractBearer | server/src/main/java/com/edis/backendproject/security/BearerTokenExtractor.java:18-24 | a token comes back exactly when the header is present and starts with "Bearer " (case-sensitive); it has no surrounding white space and is no longer than what follows the prefix |
| Security.BearerRoundTrip | server/src/main/java/com/edis/backendproject/security/BearerTokenExtractor.java:18-24 | "Bearer " followed by an unpadded token gives that token back |
| Security.BearerPaddingDropped | server/src/main/java/com/edis/backendproject/security/BearerTokenExtractor.java:22 | white space around the token is dropped |
| Security.BearerOnlySpaces | server/src/main/java/com/edis/backendproject/security/BearerTokenExtractor.java:19-22 | the prefix followed only by white space gives an empty token rather than none |
| Security.BearerCaseSensitive | server/src/main/java/com/edis/backendproject/security/BearerTokenExtractor.java:12-19 | a lower-case "bearer " prefix gives no token |
| Security.TrimAll | server/src/main/java/com/edis/backendproject/security/SecurityConfig.java:32 | one trimmed piece per piece, each without surrounding white space and no longer than before |
| Security.DropEmpty | server/src/main/java/com/edis/backendproject/security/SecurityConfig.java:33 | only non-empty pieces are kept, each one of the input's |
| Security.ParseOrigins | server/src/main/java/com/edis/backendproject/security/SecurityConfig.java:30-35 | every configured origin is non-empty, unpadded and free of commas |
| Security.OriginsRoundTrip | server/src/main/java/com/edis/backendproject/security/SecurityConfig.java:30-35 | a list of non-empty, unpadded, comma-free origins written with commas parses back to the same list |
| Security.Cors | server/src/main/java/com/edis/backendproject/security/SecurityConfig.java:65-83 | the configured origins, or the four local defaults when none are configured; always at least one origin; methods GET, POST, PUT, DELETE and OPTIONS, any header, credentials allowed |
| Security.CorsOrigins | server/src/main/java/com/edis/backendproject/security/SecurityConfig.java:67-74 | a property of commas and white space alone configures the defaults, and a property listing origins configures exactly those |
| Security.Authorize | server/src/main/java/com/edis/backendproject/security/SecurityConfig.java:53-56 | a request is allowed exactly when it is authenticated or its path is "/api/auth" or lies below it |
| Security.AuthSubtreeBySegments | server/src/main/java/com/edis/backendproject/security/SecurityConfig.java:54 | the open paths are exactly those whose first segments are "api" and "auth", so "/api/authx" is not open |
| Security.AuthRuleExamples | server/src/main/java/com/edis/backendproject/security/SecurityConfig.java:53-56 | "/api/auth" and "/api/auth/login" are open, "/api/authx" and "/api/projects" need authentication |
| Security.Long | server/src/main/java/com/edis/backendproject/security/JwtTokenProvider.java:42 | Java long addition: the result is a 64-bit value congruent to the sum, and the sum itself when it fits |
| Security.SigningKey | server/src/main/java/com/edis/backendproject/security/JwtTokenProvider.java:29-36 | a missing secret fails with "JWT secret must not be null"; otherwise the key starts with the secret's UTF-8 bytes and is zero-padded to 32 bytes when shorter |
| Security.SigningKeyInjective | server/src/main/java/com/edis/backendproject/security/JwtTokenProvider.java:29-36 | secrets without NUL characters never share a key |
| Security.SigningKeyIgnoresTrailingNul | server/src/main/java/com/edis/backendproject/security/JwtTokenProvider.java:32-34 | a short secret and the same secret followed by NUL have the same key |
| Security.WholeSeconds | server/src/main/java/com/edis/backendproject/security/JwtTokenProvider.java:46-47 | token dates are whole seconds, at most one second before the instant for non-negative instants |
| Security.GenerateToken | server/src/main/java/com/edis/backendproject/security/JwtTokenProvider.java:39-50 | a missing name fails first, a missing secret next; otherwise the token signs the name, the issue instant and the expiry now plus the expiration in long arithmetic |
| Security.ExpiryIsSum | server/src/main/java/com/edis/backendproject/security/JwtTokenProvider.java:42 | the expiry is the sum when it fits in a long |
| Security.HugeExpirationWraps | server/src/main/java/com/edis/backendproject/security/JwtTokenProvider.java:42 | an expiration of the largest long wraps the expiry before the issue instant |
| Security.ParseClaims | server/src/main/java/com/edis/backendproject/security/JwtTokenProvider.java:71-78 | a missing secret fails as missing; otherwise the library's verdict under the derived key, rejections kept apart from missing values |
| Security.GetUsername | server/src/main/java/com/edis/backendproject/security/JwtTokenProvider.java:52-55 | the subject of a parsed token; a token without one fails with "JWT subject missing" |
| Security.GetExpiration | server/src/main/java/com/edis/backendproject/security/JwtTokenProvider.java:57-60 | the expiry of a parsed token; a token without one fails with "JWT expiration missing" |
| Security.ValidateToken | server/src/main/java/com/edis/backendproject/security/JwtTokenProvider.java:62-69 | true exactly when the token parses; a rejection is false, and only a missing secret still fails |
| Security.GeneratedTokenReadsBack | server/src/main/java/com/edis/backendproject/security/JwtTokenProvider.java:39-78 | a token the provider issued is valid until its expiry and yields the user's name and the expiry in whole seconds |
| Security.BlacklistKey | server/src/main/java/com/edis/backendproject/service/TokenBlacklistService.java:26 | the key is the prefix "auth:blacklist:" followed by the token |
| Security.BlacklistKeyInjective | server/src/main/java/com/edis/backendproject/service/TokenBlacklistService.java:46 | distinct tokens have distinct keys |
| Security.RemainingTtl | server/src/main/java/com/edis/backendproject/service/TokenBlacklistService.java:62-70 | expiry minus now in long arithmetic; a rejected token counts as 0, and a token without an expiry fails |
| Security.BlacklistToken | server/src/main/java/com/edis/backendproject/service/TokenBlacklistService.java:34-50 | a blank token leaves the store alone; otherwise the token is stored until now plus its remaining lifetime exactly when that lifetime is positive and the write succeeds |
| Security.BlankTokenIgnored | server/src/main/java/com/edis/backendproject/service/TokenBlacklistService.java:35-37 | a blank token is never written and never blacklisted |
| Security.IsBlacklisted | server/src/main/java/com/edis/backendproject/service/TokenBlacklistService.java:55-60 | a missing or blank token is not blacklisted; any other is exactly when its prefixed key is in the store and has not expired |
| Security.LogoutBlacklistsUntilExpiry | server/src/main/java/com/edis/backendproject/service/TokenBlacklistService.java:34-60 | logging out with an issued token blacklists it exactly until its expiry and leaves every other token's status unchanged |
| Security.ExpiredOrInvalidNotStored | server/src/main/java/com/edis/backendproject/service/TokenBlacklistService.java:39-42 | a rejected or expired token writes nothing |
| Exceptions.KeyIndex | server/src/main/java/com/edis/backendproject/exception/GlobalExceptionHandler.java:48-52 | the first position holding the field, or the length when the field is absent |
| Exceptions.Assign | server/src/main/java/com/edis/backendproject/exception/GlobalExceptionHandler.java:51-52 | putting into the ordered map keeps keys distinct: an existing field keeps its place and takes the new message, a new field goes last, nothing else changes |
| Exceptions.Collect | server/src/main/java/com/edis/backendproject/exception/GlobalExceptionHandler.java:45-52 | the collected map has one entry per field, for exactly the fields that have errors |
| Exceptions.CollectKeepsLast | server/src/main/java/com/edis/backendproject/exception/GlobalExceptionHandler.java:51 | the last error of each field is the entry kept for it |
| Exceptions.CollectLastWins | server/src/main/java/com/edis/backendproject/exception/GlobalExceptionHandler.java:51 | every kept entry is the last error of its field |
| Exceptions.CollectOrder | server/src/main/java/com/edis/backendproject/exception/GlobalExceptionHandler.java:52 | the fields come in the order of their first errors |
| Exceptions.ToMap | src/main/java/com/edis/backendproject/exception/GlobalExceptionHandler.java:109 | the copied map has exactly the collected fields, each with its collected message |
| Exceptions.Success | server/src/main/java/com/edis/backendproject/dto/ApiResponse.java:32-34 | a success carries its data, no validation map, and reports success |
| Exceptions.SuccessWith | server/src/main/java/com/edis/backendproject/dto/ApiResponse.java:36-38 | a success with the given message and data and no validation map |
| Exceptions.Error | server/src/main/java/com/edis/backendproject/dto/ApiResponse.java:40-42 | a failure with the given message, no data and no validation map |
| Exceptions.ErrorWith | server/src/main/java/com/edis/backendproject/dto/ApiResponse.java:44-46 | a failure with the given message and data and no validation map |
| Exceptions.ValidationError | server/src/main/java/com/edis/backendproject/dto/ApiResponse.java:48-50 | a failure with the given message and validation map and no data |
| Exceptions.SuccessDefaultMessage | server/src/main/java/com/edis/backendproject/dto/ApiResponse.java:32-38 | the one-argument success is the two-argument one with "Success" (the older tree's factories in src/main/java/com/edis/backendproject/dto/ApiResponse.java are the same) |
| Exceptions.HandleServer | server/src/main/java/com/edis/backendproject/exception/GlobalExceptionHandler.java:43-119 | the status is 400 exactly for field errors, constraint violations, illegal arguments and unrecognised integrity violations; 404 exactly for a missing entity; 401 exactly for authentication failures; 409 exactly for a clash on the student-code or project-name key; 500 otherwise; the body never reports success or carries data, and a map appears only for constraint violations or field errors on other than one field |
| Exceptions.OneFieldOneMessage | server/src/main/java/com/edis/backendproject/exception/GlobalExceptionHandler.java:54-59 | errors all on one field are answered with the last of their messages and no map |
| Exceptions.CollectOneField | server/src/main/java/com/edis/backendproject/exception/GlobalExceptionHandler.java:48-52 | errors all on one field collect into a single entry, the last one |
| Exceptions.TwoFieldsGiveMap | server/src/main/java/com/edis/backendproject/exception/GlobalExceptionHandler.java:61-62 | errors on two different fields are answered with "Validation failed" and the collected map |
| Exceptions.OneFieldViolations | server/src/main/java/com/edis/backendproject/exception/GlobalExceptionHandler.java:54-59 | a request whose violations sit on one field gets one of that field's messages, without a map |
| Exceptions.TwoFieldViolations | server/src/main/java/com/edis/backendproject/exception/GlobalExceptionHandler.java:61-62 | violations on two fields give a map keyed by every field that broke a constraint |
| Exceptions.DuplicateStudentCodeConflict | server/src/main/java/com/edis/backendproject/exception/GlobalExceptionHandler.java:101-103 | creating a student whose code is taken ends in 409 "This student ID is already taken" |
| Exceptions.UniqueDetail | server/src/main/java/com/edis/backendproject/exception/GlobalExceptionHandler.java:99 | the database message for a unique key is its fixed wording followed by the key's name in quotes |
| Exceptions.UnrecognisedKey | server/src/main/java/com/edis/backendproject/exception/GlobalExceptionHandler.java:97-112 | a unique key whose name contains neither recognised key name is answered as a 400 integrity violation |
| Exceptions.StudentCodeConflict | server/src/main/java/com/edis/backendproject/exception/GlobalExceptionHandler.java:101-103 | a clash on the student-code key is 409 "This student ID is already taken" |
| Exceptions.ProjectNameConflict | server/src/main/java/com/edis/backendproject/exception/GlobalExceptionHandler.java:105-107 | a clash on the project-name key is 409 "This project name is already taken" |
| Exceptions.NameAndUsernameNotConflicts | server/src/main/java/com/edis/backendproject/exception/GlobalExceptionHandler.java:110-111 | clashes on the student-name and the username keys are 400 "Data integrity constraint violation" |
| Exceptions.Simple | src/main/java/com/edis/backendproject/exception/GlobalExceptionHandler.java:143-145 | status, reason phrase, message and path as given, and an empty map |
| Exceptions.ValidationApiError | src/main/java/com/edis/backendproject/exception/GlobalExceptionHandler.java:136-141 | status, reason phrase, message and path as given, and a map with exactly the collected fields |
| Exceptions.HandleLegacy | src/main/java/com/edis/backendproject/exception/GlobalExceptionHandler.java:24-81 | 400 exactly for field errors, constraint violations and illegal arguments, 404 exactly for a missing entity, 500 with "Unexpected error occurred" otherwise; the body repeats the status with its reason phrase and the request path; only field errors and constraint violations carry a map, keyed by exactly the failing fields |
| Exceptions.LegacyLastMessage | src/main/java/com/edis/backendproject/exception/GlobalExceptionHandler.java:27-34 | every field in the older map carries the message of its last error |
| Exceptions.HandlersCompared | src/main/java/com/edis/backendproject/exception/GlobalExceptionHandler.java:75-81 | the two handlers give the same status except for authentication and integrity failures, which the older one answers with 500; missing entities and illegal arguments keep their own message in both |
| LegacySession.Init | src/context/AuthContext.tsx:23-25 | the first token is whatever storage holds under "token", and storage is untouched |
| LegacySession.Login | src/context/AuthContext.tsx:36-38 | log-in sets exactly the given token, unchecked, and leaves storage to the effect |
| LegacySession.Logout | src/context/AuthContext.tsx:40-42 | log-out clears the token and leaves storage to the effect |
| CrudOperation.InitialFetchState | src/hooks/useFetch.ts:21-25 | before any fetch there is no data and no error, and it is loading exactly when a fetch starts on mount |
| CrudOperation.StartFetch | src/hooks/useFetch.ts:28 | a starting fetch is loading with the error cleared and the data kept |
| ProjectService.StoreNewProject | server/src/main/java/com/edis/backendproject/service/ProjectService.java:47-48 | storing a new project fails exactly when the name is null or held by another project; otherwise the project is inserted with the next identity, the request's name and description and no owner, and the database stays consistent |


## Left out

- Rendering, styling, snackbars' appearance, routing and the five-second timers that clear messages on the pages: they decide no value the model states.
- Timestamps in `ApiResponse` and `ApiError`, and `Instant.now()`: clocks are left out, and every other field is modelled.
- HTTP transport, axios and fetch, Redis, JPA and the database engine: requests are oracle inputs, and repositories are in-memory tables.
- The wording and order of database constraint messages are assumptions. The unique-key message is taken to be PostgreSQL's `duplicate key value violates unique constraint "<name>"`, and constraints are checked in declaration order.
- JWT signing and parsing (jjwt), JSON Web Token decoding on the client and SHA-256: library code, passed in as parameters (`JwtCodec`, `Decoder`, the digest function).
- The password encoder: the newer tree's bean is the application's own `Sha256PasswordEncoder` (server/src/main/java/com/edis/backendproject/security/SecurityConfig.java:99-102), whose class is not part of this model. It is the parameter `Encoder`.
- Security.Faithful and Admin.Sound are assumptions, not proved: the codec reads back what it signs, and the encoder's `matches` accepts every raw password against its own encoding.
- Concurrency: two requests racing on the same unique name are not modelled. Each operation runs alone on the database.
- Caching annotations (`@Cacheable`, `@CacheEvict`) and `@Transactional`: they change no result of a single request.
- `getAllProjects`, `getAllStudents` and `getAllTasks` are not modelled. They return every row of the table, in an order the database chooses; under the model's insertion-order assumption that list is the table itself.
- The older `TaskService.searchByName` is not modelled, because the repository method it calls does not exist.
- Domain.Save: the `length = n` part of `@Column` is not a constraint of the model. Examples are `users.username` with 50 characters (src/main/java/com/edis/backendproject/model/User.java:27), `users.password` with 255, and `students.code_number` with 20. A value longer than its column makes the source's save fail; the model saves it. The request bodies bound these fields with `@Size` under `@Valid` (see `Validation`), so in practice only values that skip validation can be too long, such as the configured admin name and password.
- Admin.Bootstrap: assumes the configured admin name fits the 50-character `username` column and the stored password fits the 255-character one. For longer values the source's save throws and start-up stops; the model returns `Ok`.
- Admin.BootstrapEstablishesAdmin: its `r.Ok?` holds in the source only under the same assumption on the configured name and password.
- Admin.Initialize: under the same assumption; for longer values the source's save throws and the name is not held afterwards.
- UserService.EnsureDefaultAdmin: under the same assumption; for longer values the source's save throws and the name is not held afterwards.
- UserService.LegacyLoadUserByUsername: under the same assumption; for longer values the source throws out of the ensure step before any lookup, where the model returns the lookup's result.
- Session.ScheduleLogout: the delay wrap of window timers is modelled (`Session.TimerDelay`), but not the browser's minimum delay for nested timers, which a single auto-logout timer never reaches.
- Spring's path matcher is modelled only for the one pattern the application uses, `/api/auth/**`.
- Case-insensitive matching (SQL `LOWER`, `IgnoreCase` queries) folds ASCII letters only. Unicode case folding is not modelled.
- `Collectors.toMap` throws when a field error has a null message. The model's messages are always strings, so that failure is not modelled.
- The JWT authentication filter that calls the extractor, the validator and the blacklist on each request is not part of this model. Its pieces are.
- AuthToken.IsTokenExpired: `exp` is taken as a whole number of seconds. RFC 7519 (section 2, NumericDate) also allows a fraction, and a non-numeric `exp` makes `exp * 1000` NaN, so such a token never expires on the client; neither case is modelled, because the server issues whole seconds only.
- CrudOperation.ExecuteCrudOperation: `showSnackbar` is assumed not to throw; a throwing `onSuccess` is modelled.
- The passage of time within a call: the session model takes the clock as an explicit `now`, read once per transition.

## Findings

| source | as written | input that shows it | evidently intended | confidence | as-written member | corrected member |
|---|---|---|---|---|---|---|
| client/src/pages/HomePage.tsx:98-141 | `attemptLogin` throws `new Error("No token returned by the server.")` for a reply without a token. The catch clause first tests for a missing `response`, which such an `Error` never has, so the page shows "Cannot reach the server.". A token the session refuses is reported the same way. | a log-in that the server answers with 200 and a body without `data.token` | show "No token returned by the server." (as the older page does), or the session's "Invalid or expired token" | not executed | HomePages.MissingTokenReportedAsUnreachable | HomePages.SubmitCorrected, HomePages.CorrectedNeverBlamesTheNetwork |

=== FILE: admin.dfy ===
/** The start-up jobs that touch users and projects: the newer tree's two
    admin seeders and the older tree's migration that gives unowned
    projects to the "admin" user. The password encoder is a parameter. */
module Admin {
  import opened Wrappers
  import opened Text
  import opened Domain
  import UserService

  const AdminRole: string := "ADMIN"

  /** A password encoder: `encode` turns a raw password into its stored
      form and `matches` checks a raw password against a stored one. */
  datatype Encoder = Encoder(encode: string -> string, matches: (string, string) -> bool)

  /** The encoder recognises what it encodes. The newer tree's encoder bean
      is the application's own `Sha256PasswordEncoder`, whose source is not
      part of this model, so this is an assumption about it. */
  ghost predicate Sound(enc: Encoder) {
    forall raw :: enc.matches(raw, enc.encode(raw))
  }

  function Find(users: Table<User>, name: string): (r: Option<Row<User>>)
    ensures r.None? <==> !UserService.Taken(users.rows, name)
    ensures r.Some? ==> r.value in users.rows && r.value.value.username == name
  {
    UserService.FindUser(users.rows, name)
  }

  /** The admin user a seeder creates. */
  function NewAdmin(name: string, password: string, enc: Encoder): User {
    User(name, enc.encode(password), Some(AdminRole))
  }

  lemma AdminRoleKept(name: string, password: string, enc: Encoder)
    ensures EnsureRole(NewAdmin(name, password, enc)) == NewAdmin(name, password, enc)
  {
    UserService.RoleKept(NewAdmin(name, password, enc));
  }

  // ---------------------------------------------------------------------
  // AdminBootstrapRunner

  /** The configured name and password both have text. */
  predicate Configured(name: Option<string>, password: Option<string>) {
    HasText(name) && HasText(password)
  }

  /** `AdminBootstrapRunner.run`: skipped unless both settings have text;
      a stored admin whose password does not match gets the encoded
      password (and keeps its name and role); a missing admin is created
      with role "ADMIN". The name is used as configured, untrimmed. */
  function Bootstrap(users: Table<User>, name: Option<string>, password: Option<string>, enc: Encoder)
    : (r: Result<Table<User>, Failure>)
    ensures !Configured(name, password) ==> r == Ok(users)
    ensures (Configured(name, password) && Find(users, name.value).Some?
             && enc.matches(password.value, Find(users, name.value).value.value.password)) ==> r == Ok(users)
    ensures (Configured(name, password) && Find(users, name.value).Some?
             && !enc.matches(password.value, Find(users, name.value).value.value.password)
             && Consistent(users, UserConstraints)) ==>
              var prev := Find(users, name.value).value;
              r == Ok(Table(Put(users.rows, Row(prev.id, EnsureRole(prev.value.(password := enc.encode(password.value))))),
                            users.nextId))
    ensures Configured(name, password) && Find(users, name.value).None? ==>
              r == Ok(Insert(users, NewAdmin(name.value, password.value, enc)).0)
    ensures r.Ok? && Consistent(users, UserConstraints) ==> Consistent(r.value, UserConstraints)
    ensures Consistent(users, UserConstraints) ==> r.Ok?
  {
    if !Configured(name, password) then Ok(users)
    else match Find(users, name.value)
      case Some(prev) =>
        if enc.matches(password.value, prev.value.password) then Ok(users)
        else
          assert Consistent(users, UserConstraints) ==>
                   forall x :: x in users.rows && x.id != prev.id ==> x.value.username != name.value by {
            if Consistent(users, UserConstraints) {
              forall x | x in users.rows && x.id != prev.id
                ensures x.value.username != name.value
              {
                UsernamesDistinct(users, x, prev);
              }
            }
          }
          assert HasId(users.rows, prev.id) by {
            var i :| 0 <= i < |users.rows| && users.rows[i] == prev;
          }
          (match SaveUser(users, Some(prev.id), prev.value.(password := enc.encode(password.value)))
           case Err(e) => Err(e)
           case Ok(saved) => Ok(saved.0))
      case None =>
        AdminRoleKept(name.value, password.value, enc);
        match SaveUser(users, None, NewAdmin(name.value, password.value, enc))
        case Err(e) => Err(e)
        case Ok(saved) => Ok(saved.0)
  }

  /** After a run that is not skipped the admin exists and its stored
      password matches the configured one. */
  lemma BootstrapEstablishesAdmin(users: Table<User>, name: string, password: string, enc: Encoder)
    requires Configured(Some(name), Some(password)) && Sound(enc) && Consistent(users, UserConstraints)
    ensures var r := Bootstrap(users, Some(name), Some(password), enc);
            r.Ok? && exists x :: x in r.value.rows && x.value.username == name && enc.matches(password, x.value.password)
  {
    var r := Bootstrap(users, Some(name), Some(password), enc).value;
    match Find(users, name)
    case Some(prev) =>
      if !enc.matches(password, prev.value.password) {
        var row := Row(prev.id, EnsureRole(prev.value.(password := enc.encode(password))));
        PutMembers(users.rows, row);
        assert HasId(users.rows, prev.id) by {
          var i :| 0 <= i < |users.rows| && users.rows[i] == prev;
        }
        assert row in r.rows;
      }
    case None =>
      assert r.rows[|r.rows| - 1].value == NewAdmin(name, password, enc);
  }

  /** A second run with the same settings changes nothing. */
  lemma BootstrapIdempotent(users: Table<User>, name: string, password: string, enc: Encoder)
    requires Configured(Some(name), Some(password)) && Sound(enc) && Consistent(users, UserConstraints)
    ensures var r := Bootstrap(users, Some(name), Some(password), enc).value;
            Bootstrap(r, Some(name), Some(password), enc) == Ok(r)
  {
    var r := Bootstrap(users, Some(name), Some(password), enc).value;
    BootstrapEstablishesAdmin(users, name, password, enc);
    var x :| x in r.rows && x.value.username == name && enc.matches(password, x.value.password);
    var found := Find(r, name).value;
    if found.id != x.id {
      UsernamesDistinct(r, found, x);
    }
    FindByIdUnique(r, found);
    FindByIdUnique(r, x);
  }

  // ---------------------------------------------------------------------
  // AdminUserInitializer

  /** `AdminUserInitializer.run`: a stored admin is left as it is, password
      included; otherwise one "ADMIN" user is created. The settings are not
      checked for blankness, so an empty name is seeded too. */
  function Initialize(users: Table<User>, name: string, password: string, enc: Encoder): (r: Table<User>)
    ensures Find(users, name).Some? ==> r == users
    ensures Find(users, name).None? ==> r == Insert(users, NewAdmin(name, password, enc)).0
    ensures UserService.Taken(r.rows, name)
    ensures Consistent(users, UserConstraints) ==> Consistent(r, UserConstraints)
  {
    match Find(users, name)
    case Some(_) => users
    case None =>
      AdminRoleKept(name, password, enc);
      match SaveUser(users, None, NewAdmin(name, password, enc))
      case Err(_) => users
      case Ok(saved) =>
        assert saved.0.rows[|saved.0.rows| - 1].value.username == name;
        saved.0
  }

  /** Once the initializer has run, the bootstrap runner with the same
      credentials and a sound encoder finds a matching admin and does
      nothing. */
  lemma InitializeThenBootstrap(users: Table<User>, name: string, password: string, enc: Encoder)
    requires Configured(Some(name), Some(password)) && Sound(enc) && Consistent(users, UserConstraints)
    requires Find(users, name).None?
    ensures var r := Initialize(users, name, password, enc);
            Bootstrap(r, Some(name), Some(password), enc) == Ok(r)
  {
    var r := Initialize(users, name, password, enc);
    var admin := r.rows[|r.rows| - 1];
    assert admin in r.rows && admin.value == NewAdmin(name, password, enc);
    var found := Find(r, name).value;
    if found.id != admin.id {
      UsernamesDistinct(r, found, admin);
    }
    FindByIdUnique(r, found);
    FindByIdUnique(r, admin);
  }

  // ---------------------------------------------------------------------
  // ProjectOwnerMigration

  const DefaultAdminUsername: string := "admin"

  /** `findByOwnerIsNull`. */
  function Unowned(rows: seq<Row<Project>>): (r: seq<Row<Project>>)
    ensures forall x :: x in r <==> x in rows && x.value.owner.None?
  {
    Keep(rows, (x: Row<Project>) => x.value.owner.None?)
  }

  /** Every unowned project gets `owner`; the others are kept. */
  function AssignOwner(rows: seq<Row<Project>>, owner: nat): (r: seq<Row<Project>>)
    ensures |r| == |rows|
    ensures forall i :: 0 <= i < |rows| ==>
              r[i].id == rows[i].id && r[i].value.name == rows[i].value.name
              && r[i].value.owner == Some(rows[i].value.owner.GetOr(owner))
              && r[i].value == rows[i].value.(owner := r[i].value.owner)
  {
    if rows == [] then []
    else
      var p := rows[0].value;
      [Row(rows[0].id, p.(owner := Some(p.owner.GetOr(owner))))] + AssignOwner(rows[1..], owner)
  }

  /** Giving owners changes neither identities nor names, so the projects
      stay consistent. */
  lemma AssignOwnerConsistent(t: Table<Project>, owner: nat)
    requires Consistent(t, ProjectConstraints)
    ensures Consistent(Table(AssignOwner(t.rows, owner), t.nextId), ProjectConstraints)
  {
    var r := AssignOwner(t.rows, owner);
    forall k | 0 <= k < |ProjectConstraints|
      ensures Holds(r, ProjectConstraints[k])
    {
      assert Holds(t.rows, ProjectConstraints[k]);
      SameShapeHolds(t.rows, r, ProjectConstraints[k]);
    }
  }

  /** `ProjectOwnerMigration.run`: with no unowned project, or no user
      "admin", nothing changes; otherwise every unowned project is given
      to that user and all are saved in one batch. */
  function Migrate(db: Db): (r: Db)
    ensures Unowned(db.projects.rows) == [] ==> r == db
    ensures Find(db.users, DefaultAdminUsername).None? ==> r == db
    ensures Unowned(db.projects.rows) != [] && Find(db.users, DefaultAdminUsername).Some? ==>
              r == db.(projects := Table(AssignOwner(db.projects.rows, Find(db.users, DefaultAdminUsername).value.id),
                                         db.projects.nextId))
    ensures r.students == db.students && r.tasks == db.tasks && r.users == db.users
    ensures DbConsistent(db) ==> DbConsistent(r)
  {
    if Unowned(db.projects.rows) == [] then db
    else match Find(db.users, DefaultAdminUsername)
      case None => db
      case Some(admin) =>
        var r := db.(projects := Table(AssignOwner(db.projects.rows, admin.id), db.projects.nextId));
        assert DbConsistent(db) ==> DbConsistent(r) by {
          if DbConsistent(db) {
            AssignOwnerConsistent(db.projects, admin.id);
          }
        }
        r
  }

  /** After a migration that found the admin no project is unowned, and
      each previously unowned project belongs to the admin. */
  lemma MigrationLeavesNoUnowned(db: Db)
    requires Find(db.users, DefaultAdminUsername).Some?
    ensures var admin := Find(db.users, DefaultAdminUsername).value;
            var r := Migrate(db).projects.rows;
            Unowned(r) == []
            && forall i :: 0 <= i < |r| ==>
                 r[i].value.owner == (if db.projects.rows[i].value.owner.None? then Some(admin.id)
                                      else db.projects.rows[i].value.owner)
  {
    var r := Migrate(db).projects.rows;
    if Unowned(db.projects.rows) == [] {
      forall i | 0 <= i < |r|
        ensures r[i].value.owner.Some?
      {
        assert r[i] !in Unowned(db.projects.rows);
      }
    }
    KeepNone(r, (x: Row<Project>) => x.value.owner.None?);
  }

  /** Running the migration twice is running it once. */
  lemma MigrateIdempotent(db: Db)
    ensures Migrate(Migrate(db)) == Migrate(db)
  {
    if Find(db.users, DefaultAdminUsername).Some? {
      MigrationLeavesNoUnowned(db);
    }
  }
}

=== FILE: api_client.dfy ===
/** The client's HTTP instance (src/api/axiosInstance.tsx): how the base URL
    is chosen and normalised, which header the request interceptor adds and
    what the response interceptor does on an error. */
module ApiClient {
  import opened Wrappers
  import opened Text
  import opened AuthToken

  const RelativeDefaultBase: string := "/api"
  const FallbackAbsoluteBase: string := "http://localhost:8080"
  const RequestTimeoutMillis: nat := 15000
  const LoginPath: string := "/login"

  /** The regular expression `/^https?:\/\//i`. Without the `u` flag,
      JavaScript folds case only where the upper-case form is ASCII, so the
      test is an ASCII case-insensitive prefix test. */
  predicate HasHttpScheme(s: string) {
    "http://" <= AsciiLower(s) || "https://" <= AsciiLower(s)
  }

  predicate EndsWithSlash(s: string) {
    |s| > 0 && s[|s| - 1] == '/'
  }

  /** `s.replace(/\/$/, "")`: one trailing slash removed, if there is one. */
  function DropTrailingSlash(s: string): (r: string)
    ensures r <= s && |s| - 1 <= |r|
    ensures r == s <==> !EndsWithSlash(s)
    ensures r != s ==> s == r + "/"
  {
    if EndsWithSlash(s) then s[..|s| - 1] else s
  }

  /** `normalizeBaseUrl(value)`. */
  function NormalizeBaseUrl(value: string): (r: string)
    // an absolute URL keeps its scheme and loses at most one trailing "/"
    ensures HasHttpScheme(Trim(EcmaSpace, value)) ==>
              r == DropTrailingSlash(Trim(EcmaSpace, value))
              && r <= Trim(EcmaSpace, value)
    // anything else becomes a path that starts with "/", or "" for "" and "/"
    ensures !HasHttpScheme(Trim(EcmaSpace, value)) ==>
              (r == "" <==> Trim(EcmaSpace, value) in {"", "/"})
              && (r != "" ==> r[0] == '/')
              // exactly one trailing "/" goes, and only when there is one
              && (EndsWithSlash(WithLeadingSlash(Trim(EcmaSpace, value))) ==>
                    r + "/" == WithLeadingSlash(Trim(EcmaSpace, value)))
              && (!EndsWithSlash(WithLeadingSlash(Trim(EcmaSpace, value))) ==>
                    r == WithLeadingSlash(Trim(EcmaSpace, value)))
  {
    var trimmed := Trim(EcmaSpace, value);
    if HasHttpScheme(trimmed) then DropTrailingSlash(trimmed)
    else DropTrailingSlash(WithLeadingSlash(trimmed))
  }

  function WithLeadingSlash(s: string): (r: string)
    ensures |r| > 0 && r[0] == '/'
    ensures r == s || r == "/" + s
  {
    if |s| > 0 && s[0] == '/' then s else "/" + s
  }

  /** A URL already in normal form (no surrounding space, no trailing
      slash, and either absolute or rooted at "/") is left as it is. */
  lemma NormalFormIsFixpoint(v: string)
    requires Unpadded(EcmaSpace, v) && !EndsWithSlash(v)
    requires HasHttpScheme(v) || (|v| > 0 && v[0] == '/')
    ensures NormalizeBaseUrl(v) == v
  {
    TrimUnpadded(EcmaSpace, v);
  }

  /** `resolveBaseUrl`: the configured `VITE_API_URL` when it has content,
      else the dev-server proxy path, else the backend on port 8080. */
  function ResolveBaseUrl(env: Option<string>, dev: bool): (r: string)
    ensures env.Some? && !AllSpace(EcmaSpace, env.value) ==> r == NormalizeBaseUrl(env.value)
    ensures (env.None? || AllSpace(EcmaSpace, env.value)) && dev ==> r == "/api"
    ensures (env.None? || AllSpace(EcmaSpace, env.value)) && !dev
            ==> r == "http://localhost:8080/api"
  {
    if env.Some? && env.value != "" && Trim(EcmaSpace, env.value) != "" then
      NormalizeBaseUrl(env.value)
    else if dev then RelativeDefaultBase
    else FallbackAbsoluteBase + RelativeDefaultBase
  }

  /** Both defaults are already in normal form. */
  lemma DefaultsAreNormal(dev: bool)
    ensures NormalizeBaseUrl(ResolveBaseUrl(None, dev)) == ResolveBaseUrl(None, dev)
  {
    var r := ResolveBaseUrl(None, dev);
    assert r[0] == '/' || "http://" <= AsciiLower(r);
    NormalFormIsFixpoint(r);
  }

  /** The request interceptor: the `Authorization` header it sets, if any,
      in the form `Bearer <token>` of section 2.1 of RFC 6750. */
  function AuthorizationHeader(st: Storage): (h: Option<string>)
    ensures h.Some? <==> GetStoredToken(st).Some? && GetStoredToken(st).value != ""
    ensures h.Some? ==> |h.value| > 7 && h.value[..7] == "Bearer "
                        && h.value[7..] == GetStoredToken(st).value
  {
    var token := GetStoredToken(st);
    if token.Some? && token.value != "" then Some("Bearer " + token.value) else None
  }

  /** What the response interceptor does with a failed request before
      rejecting it again: possibly clear the stored token and send the
      browser to another page. */
  datatype ErrorEffect = ErrorEffect(storage: Storage, redirect: Option<string>)

  predicate IsAuthEndpoint(url: string) {
    Contains(url, "/auth/login") || Contains(url, "/auth/register")
  }

  /** The response interceptor's error branch. Every error is rejected
      again afterwards, so callers always see the original error. */
  function OnResponseError(st: Storage, status: Option<int>, url: Option<string>): (e: ErrorEffect)
    // a failed login or registration is left to the page to report
    ensures status == Some(401) && IsAuthEndpoint(url.GetOr(""))
            ==> e.storage == st && e.redirect.None?
    // any other 401 ends the session and sends the user to the login page
    ensures status == Some(401) && !IsAuthEndpoint(url.GetOr(""))
            ==> e.storage == ClearStoredToken(st) && e.redirect == Some(LoginPath)
    // other errors change nothing
    ensures status != Some(401) ==> e.storage == st && e.redirect.None?
  {
    var reqUrl := url.GetOr("");
    if status == Some(401) && IsAuthEndpoint(reqUrl) then ErrorEffect(st, None)
    else if status == Some(401) then ErrorEffect(ClearStoredToken(st), Some(LoginPath))
    else ErrorEffect(st, None)
  }

  /** After an unauthorised response outside the auth endpoints, the next
      request carries no `Authorization` header. */
  lemma UnauthorisedDropsHeader(st: Storage, url: string)
    requires !IsAuthEndpoint(url)
    ensures AuthorizationHeader(OnResponseError(st, Some(401), Some(url)).storage).None?
  {
  }
}

=== FILE: auth_token.dfy ===
/** Token helpers of the client (src/utils/authToken.ts): reading the
    claims of a decoded JSON Web Token and keeping the raw token in the
    browser's local storage.

    Decoding is done by a library and is not modelled: a `Decoder` is any
    total function from the raw token to its claims, `None` standing for a
    token the library cannot decode (`decodeToken` catches the library's
    exception and returns `null`, so it never throws). */
module AuthToken {
  import opened Wrappers

  /** The claims the client reads. `exp` is the NumericDate of section
      4.1.4 of RFC 7519: seconds since the epoch. */
  datatype Payload = Payload(sub: Option<string>, username: Option<string>, exp: Option<int>)

  type Decoder = string -> Option<Payload>

  /** The browser's `localStorage`: string keys to string values. */
  type Storage = map<string, string>

  const TokenKey: string := "token"

  /** `payload?.exp` is truthy: present and not zero. */
  predicate HasExpiry(p: Option<Payload>) {
    p.Some? && p.value.exp.Some? && p.value.exp.value != 0
  }

  /** `getExpirationMillis`: the expiry instant in milliseconds, undefined
      when the payload carries no (truthy) `exp`. */
  function ExpirationMillis(p: Option<Payload>): (r: Option<int>)
    ensures r.None? <==> !HasExpiry(p)
    ensures r.Some? ==> r.value == p.value.exp.value * 1000
  {
    if !HasExpiry(p) then None else Some(p.value.exp.value * 1000)
  }

  /** `isTokenExpired(payload)` at the instant `now` (milliseconds). */
  function IsTokenExpired(p: Option<Payload>, now: int): (r: bool)
    ensures r <==> (ExpirationMillis(p).Some? && ExpirationMillis(p).value <= now)
  {
    if !HasExpiry(p) then false else p.value.exp.value * 1000 <= now
  }

  /** Once expired, a token stays expired. */
  lemma ExpiryIsPermanent(p: Option<Payload>, now: int, later: int)
    requires now <= later && IsTokenExpired(p, now)
    ensures IsTokenExpired(p, later)
  {
  }

  /** `getUsernameFromPayload`: `username || sub || ""`. */
  function UsernameFromPayload(p: Option<Payload>): (r: string)
    ensures p.Some? && p.value.username.Some? && p.value.username.value != ""
            ==> r == p.value.username.value
    ensures r != "" && p.Some? && !(p.value.username.Some? && p.value.username.value != "")
            ==> p.value.sub == Some(r)
    ensures r == "" <==> p.None? || ((p.value.username.None? || p.value.username.value == "")
                                     && (p.value.sub.None? || p.value.sub.value == ""))
  {
    if p.None? then ""
    else if p.value.username.Some? && p.value.username.value != "" then p.value.username.value
    else if p.value.sub.Some? && p.value.sub.value != "" then p.value.sub.value
    else ""
  }

  /** `persistToken`. */
  function PersistToken(st: Storage, token: string): (r: Storage)
    ensures TokenKey in r && r[TokenKey] == token
    ensures forall k :: k != TokenKey ==> (k in r <==> k in st)
    ensures forall k :: k in st && k != TokenKey ==> r[k] == st[k]
  {
    st[TokenKey := token]
  }

  /** `clearStoredToken`. */
  function ClearStoredToken(st: Storage): (r: Storage)
    ensures TokenKey !in r
    ensures forall k :: k != TokenKey ==> (k in r <==> k in st)
    ensures forall k :: k in r ==> r[k] == st[k]
  {
    st - {TokenKey}
  }

  /** `getStoredToken`: `null` when the key is absent. */
  function GetStoredToken(st: Storage): (r: Option<string>)
    ensures r.Some? <==> TokenKey in st
    ensures r.Some? ==> r.value == st[TokenKey]
  {
    if TokenKey in st then Some(st[TokenKey]) else None
  }

  /** Persisting then reading gives the token back; clearing then reading
      gives nothing; clearing twice is clearing once. */
  lemma StorageRoundTrip(st: Storage, token: string)
    ensures GetStoredToken(PersistToken(st, token)) == Some(token)
    ensures GetStoredToken(ClearStoredToken(st)) == None
    ensures ClearStoredToken(ClearStoredToken(st)) == ClearStoredToken(st)
    ensures ClearStoredToken(PersistToken(st, token)) == ClearStoredToken(st)
  {
  }
}

=== FILE: bytes.dfy ===
/** Bytes and the two encodings the back ends apply to them: UTF-8, as
    `String.getBytes(StandardCharsets.UTF_8)` produces it, and the
    lowercase two-digit hexadecimal form that `hashPassword` builds. */
module Bytes {
  import opened Wrappers

  newtype byte = x: int | 0 <= x < 256

  // ---------------------------------------------------------------------
  // UTF-8

  /** The bytes of one scalar value: one byte below U+0080, two below
      U+0800, three below U+10000 and four above. */
  function EncodeChar(c: char): (r: seq<byte>)
    ensures 1 <= |r| <= 4
    ensures (c as int < 0x80) <==> |r| == 1
    ensures |r| == 1 ==> r[0] as int == c as int
  {
    var n := c as int;
    if n < 0x80 then [n as byte]
    else if n < 0x800 then [(0xC0 + n / 0x40) as byte, (0x80 + n % 0x40) as byte]
    else if n < 0x1_0000 then
      [(0xE0 + n / 0x1000) as byte, (0x80 + (n / 0x40) % 0x40) as byte, (0x80 + n % 0x40) as byte]
    else
      [(0xF0 + n / 0x4_0000) as byte, (0x80 + (n / 0x1000) % 0x40) as byte,
       (0x80 + (n / 0x40) % 0x40) as byte, (0x80 + n % 0x40) as byte]
  }

  function Utf8(s: string): (r: seq<byte>)
    ensures |s| <= |r| <= 4 * |s|
  {
    if s == [] then [] else EncodeChar(s[0]) + Utf8(s[1..])
  }

  lemma {:induction false} Utf8Append(a: string, b: string)
    ensures Utf8(a + b) == Utf8(a) + Utf8(b)
    decreases |a|
  {
    if a == [] {
      assert a + b == b;
    } else {
      assert (a + b)[0] == a[0];
      assert (a + b)[1..] == a[1..] + b;
      Utf8Append(a[1..], b);
    }
  }

  /** An ASCII string encodes to its own code points, one byte each. */
  lemma {:induction false} Utf8OfAscii(s: string)
    requires forall i :: 0 <= i < |s| ==> s[i] as int < 0x80
    ensures |Utf8(s)| == |s|
    ensures forall i :: 0 <= i < |s| ==> Utf8(s)[i] as int == s[i] as int
    decreases |s|
  {
    if s != [] {
      Utf8OfAscii(s[1..]);
    }
  }

  /** The number of bytes a sequence starting with `lead` occupies. */
  function SequenceLength(lead: byte): nat {
    if lead < 0x80 then 1 else if lead < 0xE0 then 2 else if lead < 0xF0 then 3 else 4
  }

  predicate IsContinuation(b: byte) {
    0x80 <= b < 0xC0
  }

  /** The scalar value one sequence of bytes stands for, if any. */
  function DecodeChar(bs: seq<byte>): (r: Option<char>)
    requires 1 <= |bs| <= 4
  {
    var n :=
      if |bs| == 1 then bs[0] as int
      else if |bs| == 2 then (bs[0] as int - 0xC0) * 0x40 + (bs[1] as int - 0x80)
      else if |bs| == 3 then (bs[0] as int - 0xE0) * 0x1000 + (bs[1] as int - 0x80) * 0x40 + (bs[2] as int - 0x80)
      else (bs[0] as int - 0xF0) * 0x4_0000 + (bs[1] as int - 0x80) * 0x1000
           + (bs[2] as int - 0x80) * 0x40 + (bs[3] as int - 0x80);
    if 0 <= n < 0xD800 || 0xE000 <= n < 0x11_0000 then Some(n as char) else None
  }

  lemma SplitSix(n: int)
    requires 0 <= n
    ensures n == (n / 0x40) * 0x40 + n % 0x40
    ensures n / 0x1000 == (n / 0x40) / 0x40
    ensures n / 0x4_0000 == (n / 0x1000) / 0x40
  {
  }

  lemma DecodeEncodeChar(c: char)
    ensures SequenceLength(EncodeChar(c)[0]) == |EncodeChar(c)|
    ensures DecodeChar(EncodeChar(c)) == Some(c)
    ensures forall i :: 1 <= i < |EncodeChar(c)| ==> IsContinuation(EncodeChar(c)[i])
  {
    var n := c as int;
    SplitSix(n);
    SplitSix(n / 0x40);
    SplitSix(n / 0x1000);
  }

  /** A UTF-8 reader used as the inverse of `Utf8`: it follows the lead
      byte's length and refuses surrogates and truncated input, but it does
      not check continuation bytes or overlong forms. */
  function Utf8Decode(bs: seq<byte>): (r: Option<string>)
    decreases |bs|
  {
    if bs == [] then Some([])
    else
      var k := SequenceLength(bs[0]);
      if |bs| < k then None
      else match DecodeChar(bs[..k])
        case None => None
        case Some(c) =>
          match Utf8Decode(bs[k..])
          case None => None
          case Some(rest) => Some([c] + rest)
  }

  /** Decoding undoes encoding. */
  lemma {:induction false} Utf8RoundTrip(s: string)
    ensures Utf8Decode(Utf8(s)) == Some(s)
    decreases |s|
  {
    if s != [] {
      var e := EncodeChar(s[0]);
      DecodeEncodeChar(s[0]);
      var bs := Utf8(s);
      assert bs == e + Utf8(s[1..]);
      assert bs[0] == e[0];
      assert bs[..|e|] == e;
      assert bs[|e|..] == Utf8(s[1..]);
      Utf8RoundTrip(s[1..]);
      assert [s[0]] + s[1..] == s;
    }
  }

  /** Different strings have different encodings. */
  lemma Utf8Injective(a: string, b: string)
    requires Utf8(a) == Utf8(b)
    ensures a == b
  {
    Utf8RoundTrip(a);
    Utf8RoundTrip(b);
  }

  // ---------------------------------------------------------------------
  // Lowercase hexadecimal

  function HexDigit(d: nat): (c: char)
    requires d < 16
  {
    if d < 10 then ('0' as int + d) as char else ('a' as int + d - 10) as char
  }

  function HexValue(c: char): (d: Option<nat>)
    ensures d.Some? ==> d.value < 16
  {
    if '0' <= c <= '9' then Some(c as int - '0' as int)
    else if 'a' <= c <= 'f' then Some(c as int - 'a' as int + 10)
    else None
  }

  lemma HexValueOfDigit(d: nat)
    requires d < 16
    ensures HexValue(HexDigit(d)) == Some(d)
  {
  }

  /** `Integer.toHexString(0xff & b)`: lowercase digits without leading
      zeros (the byte is read unsigned). */
  function ToHexString(b: byte): (r: string)
    ensures |r| == (if b < 16 then 1 else 2)
  {
    var n := b as nat;
    if n < 16 then [HexDigit(n)] else [HexDigit(n / 16), HexDigit(n % 16)]
  }

  /** The two characters `hashPassword` appends for one byte: a "0" is
      prepended when `toHexString` gives a single digit. */
  function HexPair(b: byte): (r: string)
    ensures |r| == 2
    ensures HexValue(r[0]) == Some(b as nat / 16) && HexValue(r[1]) == Some(b as nat % 16)
  {
    var h := ToHexString(b);
    HexValueOfDigit(b as nat / 16);
    HexValueOfDigit(b as nat % 16);
    if |h| == 1 then "0" + h else h
  }

  /** The hexadecimal form of a byte sequence. */
  function Hex(bs: seq<byte>): (r: string)
    ensures |r| == 2 * |bs|
  {
    if bs == [] then [] else HexPair(bs[0]) + Hex(bs[1..])
  }

  lemma {:induction false} HexAppend(a: seq<byte>, b: seq<byte>)
    ensures Hex(a + b) == Hex(a) + Hex(b)
    decreases |a|
  {
    if a == [] {
      assert a + b == b;
    } else {
      assert (a + b)[0] == a[0];
      assert (a + b)[1..] == a[1..] + b;
      HexAppend(a[1..], b);
    }
  }

  /** Byte `i` occupies characters `2i` and `2i + 1`, high nibble first. */
  lemma {:induction false} HexPairAt(bs: seq<byte>, i: nat)
    requires i < |bs|
    ensures Hex(bs)[2 * i..2 * i + 2] == HexPair(bs[i])
    decreases i
  {
    if i > 0 {
      HexPairAt(bs[1..], i - 1);
      assert Hex(bs) == HexPair(bs[0]) + Hex(bs[1..]);
      assert Hex(bs)[2 * i..2 * i + 2] == Hex(bs[1..])[2 * (i - 1)..2 * (i - 1) + 2];
    }
  }

  /** The loop of `hashPassword`: one `HexPair` per byte, appended in
      order. */
  method HexEncode(bs: seq<byte>) returns (s: string)
    ensures |s| == 2 * |bs|
    ensures s == Hex(bs)
  {
    s := [];
    var i := 0;
    while i < |bs|
      invariant 0 <= i <= |bs|
      invariant s == Hex(bs[..i])
    {
      HexAppend(bs[..i], [bs[i]]);
      assert bs[..i + 1] == bs[..i] + [bs[i]];
      s := s + HexPair(bs[i]);
      i := i + 1;
    }
    assert bs[..i] == bs;
  }

  /** Reads pairs of lowercase hexadecimal digits back into bytes. */
  function HexDecode(s: string): (r: Option<seq<byte>>)
    ensures r.Some? ==> 2 * |r.value| == |s|
    decreases |s|
  {
    if s == [] then Some([])
    else if |s| == 1 then None
    else match (HexValue(s[0]), HexValue(s[1]))
      case (Some(hi), Some(lo)) =>
        (match HexDecode(s[2..])
         case None => None
         case Some(rest) => Some([(hi * 16 + lo) as byte] + rest))
      case _ => None
  }

  lemma {:induction false} HexRoundTrip(bs: seq<byte>)
    ensures HexDecode(Hex(bs)) == Some(bs)
    decreases |bs|
  {
    if bs != [] {
      var s := Hex(bs);
      var p := HexPair(bs[0]);
      assert s == p + Hex(bs[1..]);
      assert s[0] == p[0] && s[1] == p[1];
      assert s[2..] == Hex(bs[1..]);
      HexRoundTrip(bs[1..]);
      assert [bs[0]] + bs[1..] == bs;
    }
  }

  /** The form only uses the sixteen lowercase digits. */
  lemma {:induction false} HexIsLowercase(bs: seq<byte>)
    ensures forall i :: 0 <= i < |Hex(bs)| ==> HexValue(Hex(bs)[i]).Some?
    decreases |bs|
  {
    if bs != [] {
      HexIsLowercase(bs[1..]);
      var p := HexPair(bs[0]);
      forall i | 0 <= i < |Hex(bs)|
        ensures HexValue(Hex(bs)[i]).Some?
      {
        if i >= 2 {
          assert Hex(bs)[i] == Hex(bs[1..])[i - 2];
        }
      }
    }
  }
}

=== FILE: collection_hooks.dfy ===
/** The list hooks of the client: `useProjects`
    (client/src/hooks/useProjects.ts) and `useStudents`
    (src/hooks/useStudents.ts). Both keep a list and a loading flag, fetch
    the list from the server, and after every successful mutation fetch it
    again instead of patching it locally.

    Each remote call is an oracle input: a `Remote` says how the awaited
    promise settled. Every operation also returns the remote calls it made,
    in order, so that call counts can be stated. */
module CollectionHooks {
  import opened Wrappers
  import opened Text
  import opened ErrorMessage

  /** How an awaited remote call settled. */
  datatype Remote<T> = Resolved(value: T) | Rejected(error: Caught)

  /** The hook's React state. */
  datatype HookState<T> = HookState(items: seq<T>, loading: bool)

  datatype MutationKind = Create | Update | Delete

  /** A remote call made by a hook. `List` is `getProjects()` or
      `getStudentsByProject(projectId)`; `Search` is
      `searchStudents(query, projectId)`. */
  datatype Call = List | Mutation(kind: MutationKind) | Search(query: string)

  /** The fallback messages of one hook, and whether it catches a failure
      of the fetch it starts on mount. */
  datatype Config = Config(
    loadFailed: string,
    createFailed: string,
    updateFailed: string,
    deleteFailed: string,
    catchesMountFailure: bool)

  const ProjectsConfig: Config := Config(
    "Failed to load projects", "Failed to create project",
    "Failed to update project", "Failed to delete project", true)

  const StudentsConfig: Config := Config(
    "Failed to load students", "Failed to create student",
    "Failed to update student", "Failed to delete student", false)

  const SearchFailed: string := "Failed to search students"

  function MutationFailed(cfg: Config, k: MutationKind): string {
    match k
    case Create => cfg.createFailed
    case Update => cfg.updateFailed
    case Delete => cfg.deleteFailed
  }

  /** What an operation left behind: the new state, its own outcome (the
      resolved value, or the message of the `Error` it rejects with) and the
      remote calls it made. */
  datatype Outcome<T, R> = Outcome(state: HookState<T>, result: Result<R, string>, calls: seq<Call>)

  /** The state right after mounting, before the first fetch settles. */
  function Initial<T>(): (s: HookState<T>)
    ensures s.items == [] && s.loading
  {
    HookState([], true)
  }

  /** `fetchProjects` / `fetchStudents`: one list call; the list is replaced
      as a whole (`null` counts as empty), or left alone on failure, and
      loading ends either way. */
  function Fetch<T>(cfg: Config, s: HookState<T>, list: Remote<Option<seq<T>>>): (o: Outcome<T, ()>)
    ensures o.calls == [List]
    ensures !o.state.loading
    ensures list.Resolved? ==> o.result.Ok? && o.state.items == list.value.GetOr([])
    ensures list.Rejected? ==>
              o.result == Err(GetErrorMessage(list.error, cfg.loadFailed))
              && o.state.items == s.items
  {
    match list
    case Resolved(data) => Outcome(HookState(data.GetOr([]), false), Ok(()), [List])
    case Rejected(e) => Outcome(s.(loading := false), Err(GetErrorMessage(e, cfg.loadFailed)), [List])
  }

  /** A rejection with the message of an `Error` the catch clause of a
      mutation receives from a failed refetch: non-empty messages pass
      through, an empty one is replaced by `fallback`. */
  function Rewrap(msg: string, fallback: string): (r: string)
    ensures r == GetErrorMessage(NewError(msg), fallback)
  {
    RewrapMessage(msg, fallback);
    if msg == "" then fallback else msg
  }

  /** `handleCreate…` / `handleUpdate…` / `handleDelete…`: the remote
      mutation, then a refetch. A failed mutation makes no refetch. */
  function Mutate<T>(cfg: Config, k: MutationKind, s: HookState<T>,
                     op: Remote<()>, refetch: Remote<Option<seq<T>>>): (o: Outcome<T, ()>)
    ensures op.Rejected? ==>
              o.state == s && o.calls == [Mutation(k)]
              && o.result == Err(GetErrorMessage(op.error, MutationFailed(cfg, k)))
    ensures op.Resolved? ==> o.calls == [Mutation(k), List] && !o.state.loading
    // the list is the server's list after the mutation, never a local edit
    ensures op.Resolved? && refetch.Resolved? ==>
              o.result.Ok? && o.state.items == refetch.value.GetOr([])
    ensures op.Resolved? && refetch.Rejected? ==>
              o.state.items == s.items
              && o.result == Err(Rewrap(GetErrorMessage(refetch.error, cfg.loadFailed),
                                        MutationFailed(cfg, k)))
  {
    match op
    case Rejected(e) => Outcome(s, Err(GetErrorMessage(e, MutationFailed(cfg, k))), [Mutation(k)])
    case Resolved(_) =>
      var f := Fetch(cfg, s, refetch);
      var result := if f.result.Ok? then Ok(()) else Err(Rewrap(f.result.error, MutationFailed(cfg, k)));
      Outcome(f.state, result, [Mutation(k)] + f.calls)
  }

  /** A failed refetch after a successful mutation reports the load
      failure, not the mutation fallback: its message is never empty, so
      the mutation fallback is never used. */
  lemma RefetchFailureKeepsLoadMessage<T>(cfg: Config, k: MutationKind, s: HookState<T>,
                                          refetch: Remote<Option<seq<T>>>)
    requires cfg == ProjectsConfig || cfg == StudentsConfig
    requires refetch.Rejected? && ExtractableNonEmpty(refetch.error)
    ensures Mutate(cfg, k, s, Resolved(()), refetch).result
            == Err(GetErrorMessage(refetch.error, cfg.loadFailed))
  {
  }

  /** Every message `getErrorMessage` may pick from `e` is non-empty. */
  predicate ExtractableNonEmpty(e: Caught) {
    BodyOf(e) != TextBody("") && !(BodyOf(e).ObjectBody? && BodyOf(e).error == Str(""))
  }

  /** What a search resolves with. */
  datatype SearchResult = SearchResult(found: bool, count: nat)

  /** `handleSearchStudents(query)`. A query with no content refetches the
      project's list and reports a count of zero; any other query is sent
      as typed, untrimmed, and replaces the list with the matches. */
  function SearchStudents<T>(s: HookState<T>, query: string,
                             search: Remote<Option<seq<T>>>, refetch: Remote<Option<seq<T>>>)
    : (o: Outcome<T, SearchResult>)
    ensures !o.state.loading
    ensures o.result.Ok? ==> o.result.value.found
    ensures AllSpace(EcmaSpace, query) ==>
              o.calls == [List]
              && (refetch.Resolved? ==>
                    o.result == Ok(SearchResult(true, 0)) && o.state.items == refetch.value.GetOr([]))
              && (refetch.Rejected? ==>
                    o.state.items == s.items
                    && o.result == Err(Rewrap(GetErrorMessage(refetch.error, StudentsConfig.loadFailed),
                                              SearchFailed)))
    ensures !AllSpace(EcmaSpace, query) ==>
              o.calls == [Search(query)]
              && (search.Resolved? ==>
                    o.state.items == search.value.GetOr([])
                    && o.result == Ok(SearchResult(true, |o.state.items|)))
              && (search.Rejected? ==>
                    o.state.items == s.items
                    && o.result == Err(GetErrorMessage(search.error, SearchFailed)))
  {
    var started := s.(loading := true);
    if Trim(EcmaSpace, query) == "" then
      var f := Fetch(StudentsConfig, started, refetch);
      if f.result.Ok? then Outcome(f.state, Ok(SearchResult(true, 0)), f.calls)
      else Outcome(f.state, Err(Rewrap(f.result.error, SearchFailed)), f.calls)
    else
      match search
      case Resolved(data) =>
        var count := if data.Some? then |data.value| else 0;
        Outcome(HookState(data.GetOr([]), false), Ok(SearchResult(true, count)), [Search(query)])
      case Rejected(e) =>
        Outcome(s.(loading := false), Err(GetErrorMessage(e, SearchFailed)), [Search(query)])
  }

  /** The fetch started on mount. `useProjects` catches its failure;
      `useStudents` does not, so the rejection goes unhandled: `escaped`
      holds the message of a rejection nobody handles. */
  datatype MountOutcome<T> = MountOutcome(state: HookState<T>, escaped: Option<string>, calls: seq<Call>)

  function Mount<T>(cfg: Config, list: Remote<Option<seq<T>>>): (m: MountOutcome<T>)
    ensures m.calls == [List] && !m.state.loading
    ensures m.escaped.Some? <==> list.Rejected? && !cfg.catchesMountFailure
    ensures list.Resolved? ==> m.state.items == list.value.GetOr([])
    ensures list.Rejected? ==> m.state.items == []
  {
    var f := Fetch(cfg, Initial(), list);
    MountOutcome(f.state, if f.result.Err? && !cfg.catchesMountFailure then Some(f.result.error) else None,
                 f.calls)
  }

  /** One user action against a mounted hook, with the outcomes of the
      remote calls it makes. */
  datatype Step<T> =
    | Refresh(list: Remote<Option<seq<T>>>)
    | Change(kind: MutationKind, op: Remote<()>, refetch: Remote<Option<seq<T>>>)

  /** Runs the steps in order from `s`, collecting the state and every
      remote call. */
  function Run<T>(cfg: Config, s: HookState<T>, steps: seq<Step<T>>): (r: (HookState<T>, seq<Call>))
    decreases |steps|
  {
    if steps == [] then (s, [])
    else
      var o := match steps[0]
               case Refresh(l) => Fetch(cfg, s, l)
               case Change(k, op, rf) => Mutate(cfg, k, s, op, rf);
      var rest := Run(cfg, o.state, steps[1..]);
      (rest.0, o.calls + rest.1)
  }

  function CountLists(calls: seq<Call>): (n: nat)
    ensures n <= |calls|
    decreases |calls|
  {
    if calls == [] then 0 else (if calls[0] == List then 1 else 0) + CountLists(calls[1..])
  }

  lemma {:induction false} CountListsAppend(a: seq<Call>, b: seq<Call>)
    ensures CountLists(a + b) == CountLists(a) + CountLists(b)
    decreases |a|
  {
    if a == [] {
      assert a + b == b;
    } else {
      assert (a + b)[1..] == a[1..] + b;
      CountListsAppend(a[1..], b);
    }
  }

  /** Number of refreshes plus mutations whose remote call succeeded. */
  function ExpectedLists<T>(steps: seq<Step<T>>): nat
    decreases |steps|
  {
    if steps == [] then 0
    else
      (match steps[0]
       case Refresh(_) => 1
       case Change(_, op, _) => if op.Resolved? then 1 else 0)
      + ExpectedLists(steps[1..])
  }

  /** The list is fetched once on mount, once per explicit refresh and
      once per successful mutation, whatever the refetches return. */
  lemma {:induction false} ListFetchCount<T>(cfg: Config, first: Remote<Option<seq<T>>>, steps: seq<Step<T>>)
    ensures var m := Mount(cfg, first);
            CountLists(m.calls + Run(cfg, m.state, steps).1) == 1 + ExpectedLists(steps)
  {
    var m := Mount(cfg, first);
    CountListsAppend(m.calls, Run(cfg, m.state, steps).1);
    assert CountLists(m.calls) == 1;
    RunListCount(cfg, m.state, steps);
  }

  lemma {:induction false} RunListCount<T>(cfg: Config, s: HookState<T>, steps: seq<Step<T>>)
    ensures CountLists(Run(cfg, s, steps).1) == ExpectedLists(steps)
    decreases |steps|
  {
    if steps != [] {
      var o := match steps[0]
               case Refresh(l) => Fetch(cfg, s, l)
               case Change(k, op, rf) => Mutate(cfg, k, s, op, rf);
      RunListCount(cfg, o.state, steps[1..]);
      CountListsAppend(o.calls, Run(cfg, o.state, steps[1..]).1);
      match steps[0]
      case Refresh(_) =>
        assert CountLists(o.calls) == 1;
      case Change(k, op, _) =>
        assert o.calls[0] == Mutation(k);
        if op.Resolved? {
          assert o.calls[1..] == [List];
        }
    }
  }

  /** A load failure whose error carries nothing usable (for instance a
      rejection with `{}`) is reported with the hook's own message. */
  lemma EmptyRejectionUsesLoadMessage<T>(cfg: Config, s: HookState<T>)
    ensures Fetch(cfg, s, Rejected(Thrown(false, None, None))).result == Err(cfg.loadFailed)
  {
  }
}

=== FILE: crud_operation.dfy ===
/** Two generic hooks of the client: `executeCrudOperation`
    (client/src/hooks/useCrudOperation.ts), which runs an operation and
    reports its outcome in a snackbar, and `useFetch`
    (src/hooks/useFetch.ts), which keeps `{data, loading, error}` for one
    fetch function. */
module CrudOperation {
  import opened Wrappers
  import opened ErrorMessage
  import opened CollectionHooks

  const DefaultErrorMessage: string := "Operation failed"

  datatype Severity = Success | Error

  /** A visible side effect of `executeCrudOperation`, in order. */
  datatype Effect = Snackbar(message: string, severity: Severity) | OnSuccessCalled

  /** The `onSuccess` option: absent, a callback that returns, or one that
      throws. A throw lands in the same `catch` as a failed operation. */
  datatype Callback = NoCallback | Returns | Throws(thrown: Caught)

  /** The options object; absent properties are `None`. */
  datatype CrudOptions = CrudOptions(onSuccess: Callback, successMessage: Option<string>,
                                     errorMessage: Option<string>)

  /** What `executeCrudOperation` resolves with (`None` is `undefined`) and
      the effects it produced. It never rejects. */
  datatype CrudOutcome<T> = CrudOutcome(value: Option<T>, effects: seq<Effect>)

  /** The success snackbar shown for the options: one exactly when a
      non-empty message is given. */
  function SuccessShown(opts: CrudOptions): (e: seq<Effect>)
    ensures |e| <= 1
    ensures |e| == 1 <==> opts.successMessage.Some? && opts.successMessage.value != ""
    ensures |e| == 1 ==> e[0] == Snackbar(opts.successMessage.value, Success)
  {
    if opts.successMessage.Some? && opts.successMessage.value != ""
    then [Snackbar(opts.successMessage.value, Success)] else []
  }

  /** The error snackbar for something caught. */
  function FailureShown(e: Caught, opts: CrudOptions): (s: Effect)
    ensures s.Snackbar? && s.severity == Error
    ensures opts.errorMessage.None? ==> s.message == GetErrorMessage(e, DefaultErrorMessage)
  {
    Snackbar(GetErrorMessage(e, opts.errorMessage.GetOr(DefaultErrorMessage)), Error)
  }

  function ExecuteCrudOperation<T>(op: Remote<T>, opts: CrudOptions): (o: CrudOutcome<T>)
    // success with a callback that does not throw (or none): the operation's
    // own result; the success snackbar, if any, then the callback, if any
    ensures op.Resolved? && !opts.onSuccess.Throws? ==>
              o.value == Some(op.value)
              && o.effects == SuccessShown(opts)
                              + (if opts.onSuccess.Returns? then [OnSuccessCalled] else [])
    // success but the callback throws: the success snackbar has already been
    // shown; the throw is reported like a failure and the result is undefined
    ensures op.Resolved? && opts.onSuccess.Throws? ==>
              o.value.None?
              && o.effects == SuccessShown(opts)
                              + [OnSuccessCalled, FailureShown(opts.onSuccess.thrown, opts)]
    // failure: exactly one error snackbar with the normalised message,
    // no callback, and the result is undefined
    ensures op.Rejected? ==>
              o.value.None?
              && o.effects == [Snackbar(GetErrorMessage(op.error, opts.errorMessage.GetOr(DefaultErrorMessage)),
                                        Error)]
  {
    match op
    case Resolved(v) =>
      var shown := SuccessShown(opts);
      (match opts.onSuccess
       case NoCallback => CrudOutcome(Some(v), shown)
       case Returns => CrudOutcome(Some(v), shown + [OnSuccessCalled])
       case Throws(e) => CrudOutcome(None, shown + [OnSuccessCalled, FailureShown(e, opts)]))
    case Rejected(e) =>
      CrudOutcome(None, [FailureShown(e, opts)])
  }

  /** An error is reported exactly when the call resolves with `undefined`
      for a failure, and then it is the last effect and the only error
      snackbar: nothing runs after the `catch`. */
  predicate ReportsFailureLast(effects: seq<Effect>)
  {
    |effects| > 0 && effects[|effects| - 1].Snackbar? && effects[|effects| - 1].severity == Error
    && forall i :: 0 <= i < |effects| - 1 ==>
         !(effects[i].Snackbar? && effects[i].severity == Error)
  }

  predicate ReportsNoFailure(effects: seq<Effect>)
  {
    forall i :: 0 <= i < |effects| ==> !(effects[i].Snackbar? && effects[i].severity == Error)
  }

  lemma FailureReportedOnceAndLast<T>(op: Remote<T>, opts: CrudOptions)
    ensures var o := ExecuteCrudOperation(op, opts);
            (o.value.None? ==> ReportsFailureLast(o.effects))
            && (o.value.Some? ==> ReportsNoFailure(o.effects))
            && (o.value.Some? <==> op.Resolved? && !opts.onSuccess.Throws?)
  {
  }

  /** The callback runs only after a successful operation, and runs at most
      once, after the success snackbar. */
  lemma CallbackOnlyAfterSuccess<T>(op: Remote<T>, opts: CrudOptions)
    ensures var o := ExecuteCrudOperation(op, opts);
            (OnSuccessCalled in o.effects <==> op.Resolved? && !opts.onSuccess.NoCallback?)
            && forall i, j :: 0 <= i < j < |o.effects| && o.effects[j] == OnSuccessCalled ==>
                 o.effects[i] == Snackbar(opts.successMessage.GetOr(""), Success)
  {
  }

  /** With no options, a failure with nothing usable in it is reported as
      "Operation failed". */
  lemma DefaultFailureMessage<T>(e: Caught)
    requires e.Falsy?
    ensures ExecuteCrudOperation<T>(Rejected(e), CrudOptions(NoCallback, None, None)).effects
            == [Snackbar("Operation failed", Error)]
  {
  }

  /** `useFetch` state. */
  datatype FetchState<T> = FetchState(data: Option<T>, loading: bool, error: Option<string>)

  /** The state before the first fetch: no data, no error, and loading
      exactly when a fetch starts on mount. */
  function InitialFetchState<T>(immediate: bool): (s: FetchState<T>)
    ensures s.data.None? && s.error.None? && s.loading == immediate
  {
    FetchState(None, immediate, None)
  }

  /** The first update of `executeFetch`: loading, no error, data kept. */
  function StartFetch<T>(s: FetchState<T>): (r: FetchState<T>)
    ensures r.loading && r.error.None? && r.data == s.data
  {
    s.(loading := true, error := None)
  }

  /** The message stored on failure: an `Error`'s own message, otherwise
      "An error occurred". */
  function FailureMessage(e: Caught): (m: string)
    ensures e.Thrown? && e.isError ==> m == e.message.GetOr("")
    ensures !(e.Thrown? && e.isError) ==> m == DefaultFallback
  {
    if e.Thrown? && e.isError then e.message.GetOr("") else DefaultFallback
  }

  /** `executeFetch` settling: the whole state is replaced. It never
      rejects. */
  function SettleFetch<T>(s: FetchState<T>, r: Remote<T>): (n: FetchState<T>)
    ensures !n.loading
    ensures r.Resolved? ==> n == FetchState(Some(r.value), false, None)
    ensures r.Rejected? ==> n.data.None? && n.error == Some(FailureMessage(r.error))
  {
    match r
    case Resolved(v) => FetchState(Some(v), false, None)
    case Rejected(e) => FetchState(None, false, Some(FailureMessage(e)))
  }

  /** `refetch()` as a whole. */
  function ExecuteFetch<T>(s: FetchState<T>, r: Remote<T>): (n: FetchState<T>)
    ensures n == SettleFetch(StartFetch(s), r)
    ensures n.error.None? <==> r.Resolved?
  {
    SettleFetch(StartFetch(s), r)
  }

  /** What the hook holds once mounting has settled: a fetch ran exactly
      when `immediate` is set. */
  function Mounted<T>(immediate: bool, r: Remote<T>): (s: FetchState<T>)
    // settled either way
    ensures !s.loading
    // with a fetch on mount: the error is set exactly when it failed, the
    // data on success and the failure message otherwise
    ensures immediate ==> (s.error.None? <==> r.Resolved?)
    ensures immediate && r.Resolved? ==> s.data == Some(r.value)
    ensures immediate && r.Rejected? ==> s.data.None? && s.error == Some(FailureMessage(r.error))
    // without: nothing has happened
    ensures !immediate ==> s.data.None? && s.error.None?
  {
    if immediate then ExecuteFetch(InitialFetchState(immediate), r) else InitialFetchState(immediate)
  }

  /** Fetching on mount is the same as mounting idle and calling
      `refetch()` once: whatever the idle hook would have fetched, the state
      is the one the fetch produces. */
  lemma MountIsRefetchOfIdle<T>(r: Remote<T>, unused: Remote<T>)
    ensures Mounted(true, r) == ExecuteFetch(Mounted(false, unused), r)
  {
  }

  /** The outcome of a fetch does not depend on the state it started from:
      data left over from an earlier fetch is never shown next to a new
      error. */
  lemma SettleForgetsHistory<T>(s1: FetchState<T>, s2: FetchState<T>, r: Remote<T>)
    ensures ExecuteFetch(s1, r) == ExecuteFetch(s2, r)
  {
  }
}

=== FILE: current_user.dfy ===
/** The older tree's `AuthenticatedUserService`: the name of the signed-in
    user, and that user's record. The security context is a parameter. */
module CurrentUser {
  import opened Wrappers
  import opened Domain
  import UserService

  const AnonymousUser: string := "anonymousUser"
  const NotAuthenticated: string := "User is not authenticated"
  const UserNotFoundPrefix: string := "User not found: "

  /** A principal is either a plain string (anonymous access uses the
      string "anonymousUser") or a user object. */
  datatype Principal = TextPrincipal(text: string) | UserPrincipal(username: string)

  datatype Authentication = Authentication(authenticated: bool, principal: Principal, name: string)

  /** A request counts as signed in when it carries an authentication that
      is marked authenticated and whose principal is not the anonymous
      string. */
  predicate SignedIn(auth: Option<Authentication>) {
    auth.Some? && auth.value.authenticated && auth.value.principal != TextPrincipal(AnonymousUser)
  }

  /** `getCurrentUsername`. */
  function CurrentUsername(auth: Option<Authentication>): (r: Result<string, Failure>)
    ensures r.Err? <==> !SignedIn(auth)
    ensures r.Err? ==> r.error == AccessDenied(NotAuthenticated)
    ensures r.Ok? ==> r.value == auth.value.name
  {
    if auth.None? || !auth.value.authenticated || auth.value.principal == TextPrincipal(AnonymousUser) then
      Err(AccessDenied(NotAuthenticated))
    else Ok(auth.value.name)
  }

  /** `getCurrentUser`: the signed-in user's stored record. */
  function CurrentUser(users: Table<User>, auth: Option<Authentication>): (r: Result<Row<User>, Failure>)
    ensures !SignedIn(auth) ==> r == Err(AccessDenied(NotAuthenticated))
    ensures SignedIn(auth) && !UserService.Taken(users.rows, auth.value.name)
            ==> r == Err(UsernameNotFound(UserNotFoundPrefix + auth.value.name))
    ensures r.Ok? ==> SignedIn(auth) && r.value in users.rows && r.value.value.username == auth.value.name
  {
    match CurrentUsername(auth)
    case Err(e) => Err(e)
    case Ok(name) =>
      match UserService.FindUser(users.rows, name)
      case None => Err(UsernameNotFound(UserNotFoundPrefix + name))
      case Some(row) => Ok(row)
  }

  /** With distinct usernames the current user is the one stored under the
      signed-in name. */
  lemma CurrentUserIsTheStoredOne(users: Table<User>, auth: Option<Authentication>, x: Row<User>)
    requires Consistent(users, UserConstraints) && SignedIn(auth)
    requires x in users.rows && x.value.username == auth.value.name
    ensures CurrentUser(users, auth) == Ok(x)
  {
    var r := CurrentUser(users, auth).value;
    if r.id != x.id {
      UsernamesDistinct(users, r, x);
    }
    FindByIdUnique(users, r);
    FindByIdUnique(users, x);
  }
}

=== FILE: domain.dfy ===
/** The persistent entities of both back ends, their repositories as
    in-memory tables, and the exceptions the services raise.

    A table keeps its rows in insertion order, each with the identity the
    database generated for it; queries return rows in that order. Saving a
    row enforces the NOT NULL and UNIQUE columns its entity declares, as the
    database does. */
module Domain {
  import opened Wrappers
  import opened Text

  // ---------------------------------------------------------------------
  // Exceptions

  /** The exceptions the services and the framework raise. A
      `DataIntegrity` carries the database's message, which names the
      violated constraint. */
  datatype Failure =
    | NotFound(message: string)
    | IllegalArgument(message: string)
    | NullPointer(message: string)
    | DataIntegrity(detail: Option<string>)
    | UsernameNotFound(message: string)
    | AccessDenied(message: string)
    | BadCredentials
    | MethodArgumentNotValid(fieldErrors: seq<(string, string)>)
    | ConstraintViolations(violations: seq<(string, string)>)
    | Other

  // ---------------------------------------------------------------------
  // Tables

  /** A stored entity with its generated identity. */
  datatype Row<E> = Row(id: nat, value: E)

  /** A repository: rows in insertion order and the next identity. */
  datatype Table<E> = Table(rows: seq<Row<E>>, nextId: nat)

  /** Identities are distinct and below the next one to be issued. */
  predicate ValidTable<E>(t: Table<E>) {
    (forall i :: 0 <= i < |t.rows| ==> t.rows[i].id < t.nextId)
    && (forall i, j :: 0 <= i < j < |t.rows| ==> t.rows[i].id != t.rows[j].id)
  }

  predicate HasId<E>(rows: seq<Row<E>>, id: int) {
    exists i :: 0 <= i < |rows| && rows[i].id == id
  }

  /** `findById`. */
  function FindById<E>(rows: seq<Row<E>>, id: int): (r: Option<Row<E>>)
    ensures r.Some? <==> HasId(rows, id)
    ensures r.Some? ==> r.value in rows && r.value.id == id
  {
    if rows == [] then None
    else if rows[0].id == id then Some(rows[0])
    else
      var r := FindById(rows[1..], id);
      assert HasId(rows[1..], id) ==> HasId(rows, id);
      r
  }

  /** With distinct identities the row found is the only one with that
      identity. */
  lemma FindByIdUnique<E>(t: Table<E>, x: Row<E>)
    requires ValidTable(t) && x in t.rows
    ensures FindById(t.rows, x.id) == Some(x)
  {
    var r := FindById(t.rows, x.id).value;
    var i :| 0 <= i < |t.rows| && t.rows[i] == r;
    var j :| 0 <= j < |t.rows| && t.rows[j] == x;
    assert t.rows[i].id == t.rows[j].id;
    assert i == j;
  }

  /** The first row whose entity satisfies `p`, as an `Optional` query
      returns it. */
  function FindFirst<E>(rows: seq<Row<E>>, p: E -> bool): (r: Option<Row<E>>)
    ensures r.Some? <==> exists i :: 0 <= i < |rows| && p(rows[i].value)
    ensures r.Some? ==> r.value in rows && p(r.value.value)
  {
    if rows == [] then None
    else if p(rows[0].value) then Some(rows[0])
    else FindFirst(rows[1..], p)
  }

  /** The rows satisfying `p`, in table order: a query's result list, and a
      bulk delete's survivors. */
  function Keep<E(!new)>(rows: seq<Row<E>>, p: Row<E> -> bool): (r: seq<Row<E>>)
    ensures |r| <= |rows|
    ensures forall x :: x in r <==> x in rows && p(x)
  {
    if rows == [] then []
    else (if p(rows[0]) then [rows[0]] else []) + Keep(rows[1..], p)
  }

  lemma {:induction false} KeepAppend<E(!new)>(a: seq<Row<E>>, b: seq<Row<E>>, p: Row<E> -> bool)
    ensures Keep(a + b, p) == Keep(a, p) + Keep(b, p)
    decreases |a|
  {
    if a == [] {
      assert a + b == b;
    } else {
      assert (a + b)[1..] == a[1..] + b;
      KeepAppend(a[1..], b, p);
    }
  }

  /** A filter every row passes keeps the rows as they are. */
  lemma {:induction false} KeepAll<E(!new)>(rows: seq<Row<E>>, p: Row<E> -> bool)
    requires forall i :: 0 <= i < |rows| ==> p(rows[i])
    ensures Keep(rows, p) == rows
    decreases |rows|
  {
    if rows != [] {
      KeepAll(rows[1..], p);
      assert [rows[0]] + rows[1..] == rows;
    }
  }

  /** A filter no row passes keeps nothing. */
  lemma {:induction false} KeepNone<E(!new)>(rows: seq<Row<E>>, p: Row<E> -> bool)
    requires forall i :: 0 <= i < |rows| ==> !p(rows[i])
    ensures Keep(rows, p) == []
    decreases |rows|
  {
    if rows != [] {
      KeepNone(rows[1..], p);
    }
  }

  /** Filtering twice keeps what filtering once by both conditions keeps,
      in the same order. */
  lemma {:induction false} KeepKeep<E(!new)>(rows: seq<Row<E>>, p: Row<E> -> bool, q: Row<E> -> bool, both: Row<E> -> bool)
    requires forall x :: both(x) == (p(x) && q(x))
    ensures Keep(Keep(rows, p), q) == Keep(rows, both)
    decreases |rows|
  {
    if rows != [] {
      KeepKeep(rows[1..], p, q, both);
      var head := if p(rows[0]) then [rows[0]] else [];
      KeepAppend(head, Keep(rows[1..], p), q);
    }
  }

  /** Filtering keeps identities distinct. */
  lemma {:induction false} KeepKeepsValid<E(!new)>(t: Table<E>, p: Row<E> -> bool)
    requires ValidTable(t)
    ensures ValidTable(Table(Keep(t.rows, p), t.nextId))
    decreases |t.rows|
  {
    if t.rows != [] {
      var rest := Table(t.rows[1..], t.nextId);
      KeepKeepsValid(rest, p);
      var r := Keep(t.rows, p);
      if p(t.rows[0]) {
        assert r == [t.rows[0]] + Keep(rest.rows, p);
        forall j | 1 <= j < |r|
          ensures r[0].id != r[j].id
        {
          assert r[j] in rest.rows;
        }
      } else {
        assert r == Keep(rest.rows, p);
      }
    }
  }

  /** Deleting the row with identity `id`. */
  function Remove<E(!new)>(rows: seq<Row<E>>, id: nat): (r: seq<Row<E>>)
    ensures forall x :: x in r <==> x in rows && x.id != id
    ensures !HasId(r, id)
  {
    var r := Keep(rows, (x: Row<E>) => x.id != id);
    assert forall i :: 0 <= i < |r| ==> r[i] in r;
    r
  }

  /** Inserting a row: it gets the next identity and goes last. */
  function Insert<E>(t: Table<E>, v: E): (r: (Table<E>, Row<E>))
    ensures r.1 == Row(t.nextId, v)
    ensures r.0.rows == t.rows + [r.1] && r.0.nextId == t.nextId + 1
    ensures ValidTable(t) ==> ValidTable(r.0)
  {
    var row := Row(t.nextId, v);
    (Table(t.rows + [row], t.nextId + 1), row)
  }

  /** Overwriting the row with the same identity; every other row stays
      where it was. */
  function Put<E>(rows: seq<Row<E>>, row: Row<E>): (r: seq<Row<E>>)
    ensures |r| == |rows|
    ensures forall i :: 0 <= i < |rows| ==> r[i] == (if rows[i].id == row.id then row else rows[i])
  {
    if rows == [] then []
    else [if rows[0].id == row.id then row else rows[0]] + Put(rows[1..], row)
  }

  lemma PutMembers<E>(rows: seq<Row<E>>, row: Row<E>)
    ensures forall x :: x in Put(rows, row) ==> x == row || (x in rows && x.id != row.id)
    ensures HasId(rows, row.id) ==> row in Put(rows, row)
  {
    var r := Put(rows, row);
    forall x | x in r
      ensures x == row || (x in rows && x.id != row.id)
    {
      var i :| 0 <= i < |r| && r[i] == x;
    }
    if HasId(rows, row.id) {
      var i :| 0 <= i < |rows| && rows[i].id == row.id;
      assert r[i] == row;
    }
  }

  // ---------------------------------------------------------------------
  // Column constraints

  /** A column constraint of an entity: a NOT NULL column (`present` says
      whether the value is set) or a UNIQUE column set (`key` lists the
      columns' values). */
  datatype Constraint<!E> =
    | NotNull(column: string, present: E -> bool)
    | Unique(name: string, key: E -> seq<Option<string>>)

  /** SQL compares a unique key only when none of its columns is null. */
  predicate Keyed(k: seq<Option<string>>) {
    forall i :: 0 <= i < |k| ==> k[i].Some?
  }

  /** Storing `v` under identity `self` would violate `c`. */
  predicate Breaks<E(!new)>(rows: seq<Row<E>>, self: nat, v: E, c: Constraint<E>) {
    match c
    case NotNull(_, present) => !present(v)
    case Unique(_, key) =>
      Keyed(key(v)) && exists i :: 0 <= i < |rows| && rows[i].id != self && key(rows[i].value) == key(v)
  }

  /** The stored rows satisfy `c`. */
  ghost predicate Holds<E(!new)>(rows: seq<Row<E>>, c: Constraint<E>) {
    match c
    case NotNull(_, present) => forall x :: x in rows ==> present(x.value)
    case Unique(_, key) =>
      forall x, y :: x in rows && y in rows && x.id != y.id && Keyed(key(x.value)) ==> key(x.value) != key(y.value)
  }

  ghost predicate AllHold<E(!new)>(rows: seq<Row<E>>, cs: seq<Constraint<E>>) {
    forall k :: 0 <= k < |cs| ==> Holds(rows, cs[k])
  }

  /** How the database's message for a broken unique key begins
      ("duplicate key value violates unique constraint" and a quote),
      spelt in three pieces so that proofs about its characters can go
      piece by piece. */
  const UniqueKeyWording: string := "duplicate key " + "value violates " + "unique constraint \""

  /** The database's message for a violated constraint, which names the
      column or the constraint. */
  function ConstraintError<E>(c: Constraint<E>): (f: Failure)
    ensures f.DataIntegrity? && f.detail.Some?
    ensures c.Unique? ==> Contains(f.detail.value, c.name)
  {
    match c
    case NotNull(column, _) =>
      DataIntegrity(Some("null value in column \"" + column + "\" violates not-null constraint"))
    case Unique(name, _) =>
      var m := UniqueKeyWording + name + "\"";
      assert m == UniqueKeyWording + (name + "\"");
      ContainsPrefix(name + "\"", name);
      ContainsInConcat(UniqueKeyWording, name + "\"", name);
      DataIntegrity(Some(m))
  }

  /** The index of the first constraint that storing `v` would violate. */
  function FirstBroken<E(!new)>(rows: seq<Row<E>>, self: nat, v: E, cs: seq<Constraint<E>>): (r: Option<nat>)
    ensures r.None? <==> forall k :: 0 <= k < |cs| ==> !Breaks(rows, self, v, cs[k])
    ensures r.Some? ==> r.value < |cs| && Breaks(rows, self, v, cs[r.value])
                        && forall k :: 0 <= k < r.value ==> !Breaks(rows, self, v, cs[k])
    decreases |cs|
  {
    if cs == [] then None
    else if Breaks(rows, self, v, cs[0]) then Some(0)
    else match FirstBroken(rows, self, v, cs[1..])
      case None => None
      case Some(k) => Some(k + 1)
  }

  /** A new entity is refused with the first constraint it breaks. */
  lemma SaveRefusedWith<E(!new)>(t: Table<E>, v: E, cs: seq<Constraint<E>>, k: nat)
    requires k < |cs| && Breaks(t.rows, t.nextId, v, cs[k])
    requires forall j :: 0 <= j < k ==> !Breaks(t.rows, t.nextId, v, cs[j])
    ensures Save(t, None, v, cs) == Err(ConstraintError(cs[k]))
  {
    var r := FirstBroken(t.rows, t.nextId, v, cs);
    assert r.Some?;
    assert !(r.value < k) && !(k < r.value);
  }

  /** An insert that breaks nothing keeps a constraint. */
  lemma InsertHolds<E(!new)>(t: Table<E>, v: E, c: Constraint<E>)
    requires ValidTable(t) && Holds(t.rows, c) && !Breaks(t.rows, t.nextId, v, c)
    ensures Holds(Insert(t, v).0.rows, c)
  {
    var rows := Insert(t, v).0.rows;
    assert forall x :: x in rows ==> x in t.rows || x == Row(t.nextId, v);
    forall x | x in t.rows
      ensures x.id != t.nextId
    {
      var i :| 0 <= i < |t.rows| && t.rows[i] == x;
    }
  }

  /** Overwriting a row with a value that breaks nothing keeps a
      constraint. */
  lemma PutHolds<E(!new)>(t: Table<E>, row: Row<E>, c: Constraint<E>)
    requires Holds(t.rows, c) && !Breaks(t.rows, row.id, row.value, c)
    ensures Holds(Put(t.rows, row), c)
  {
    PutMembers(t.rows, row);
  }

  /** Filtering keeps every constraint. */
  lemma KeepHolds<E(!new)>(rows: seq<Row<E>>, p: Row<E> -> bool, cs: seq<Constraint<E>>)
    requires AllHold(rows, cs)
    ensures AllHold(Keep(rows, p), cs)
  {
    forall k | 0 <= k < |cs|
      ensures Holds(Keep(rows, p), cs[k])
    {
      assert Holds(rows, cs[k]);
    }
  }

  /** Filtering a consistent table leaves it consistent. */
  lemma KeepConsistent<E(!new)>(t: Table<E>, p: Row<E> -> bool, cs: seq<Constraint<E>>)
    requires Consistent(t, cs)
    ensures Consistent(Table(Keep(t.rows, p), t.nextId), cs)
  {
    KeepKeepsValid(t, p);
    KeepHolds(t.rows, p, cs);
  }

  /** Deleting a row leaves a consistent table consistent. */
  lemma RemoveConsistent<E(!new)>(t: Table<E>, id: nat, cs: seq<Constraint<E>>)
    requires Consistent(t, cs)
    ensures Consistent(Table(Remove(t.rows, id), t.nextId), cs)
  {
    KeepConsistent(t, (x: Row<E>) => x.id != id, cs);
  }

  /** Deleting a row keeps every other identity. */
  lemma RemoveKeepsOthers<E(!new)>(rows: seq<Row<E>>, id: nat, other: int)
    requires HasId(rows, other) && other != id
    ensures HasId(Remove(rows, id), other)
  {
    var i :| 0 <= i < |rows| && rows[i].id == other;
    var r := Remove(rows, id);
    assert rows[i] in r;
    var j :| 0 <= j < |r| && r[j] == rows[i];
  }

  /** `a` and `b` look the same to `c`: both present or both missing, or
      the same key. */
  predicate SameUnder<E>(c: Constraint<E>, a: E, b: E) {
    match c
    case NotNull(_, present) => present(a) == present(b)
    case Unique(_, key) => key(a) == key(b)
  }

  /** Rewriting every row in place, keeping its identity and what each
      constraint looks at, keeps the constraint. */
  lemma SameShapeHolds<E(!new)>(rows: seq<Row<E>>, r: seq<Row<E>>, c: Constraint<E>)
    requires Holds(rows, c) && |r| == |rows|
    requires forall i :: 0 <= i < |r| ==> r[i].id == rows[i].id && SameUnder(c, r[i].value, rows[i].value)
    ensures Holds(r, c)
  {
    forall x | x in r
      ensures exists i :: 0 <= i < |rows| && x.id == rows[i].id && SameUnder(c, x.value, rows[i].value)
    {
      var i :| 0 <= i < |r| && r[i] == x;
    }
    assert forall i :: 0 <= i < |rows| ==> rows[i] in rows;
  }

  /** The rows are a valid table satisfying `cs`. */
  ghost predicate Consistent<E(!new)>(t: Table<E>, cs: seq<Constraint<E>>) {
    ValidTable(t) && AllHold(t.rows, cs)
  }

  /** `save`: storing a new entity (`id` is `None`) or overwriting a stored
      one. The database refuses it, naming the first violated constraint,
      exactly when it would break one; otherwise the new row is last, or
      the old row is overwritten in place, and the table stays consistent. */
  function Save<E(!new)>(t: Table<E>, id: Option<nat>, v: E, cs: seq<Constraint<E>>): (r: Result<(Table<E>, Row<E>), Failure>)
    requires id.Some? ==> HasId(t.rows, id.value)
    ensures r.Err? <==> exists k :: 0 <= k < |cs| && Breaks(t.rows, id.GetOr(t.nextId), v, cs[k])
    ensures r.Err? ==> exists k :: 0 <= k < |cs| && Breaks(t.rows, id.GetOr(t.nextId), v, cs[k])
                                    && (forall j :: 0 <= j < k ==> !Breaks(t.rows, id.GetOr(t.nextId), v, cs[j]))
                                    && r.error == ConstraintError(cs[k])
    ensures r.Ok? && id.None? ==> r.value == Insert(t, v)
    ensures r.Ok? && id.Some? ==> r.value == (Table(Put(t.rows, Row(id.value, v)), t.nextId), Row(id.value, v))
    ensures r.Ok? && Consistent(t, cs) ==> Consistent(r.value.0, cs)
  {
    var self := id.GetOr(t.nextId);
    match FirstBroken(t.rows, self, v, cs)
    case Some(k) => Err(ConstraintError(cs[k]))
    case None =>
      if id.None? then
        var r := Insert(t, v);
        assert Consistent(t, cs) ==> Consistent(r.0, cs) by {
          if Consistent(t, cs) {
            forall k | 0 <= k < |cs|
              ensures Holds(r.0.rows, cs[k])
            {
              InsertHolds(t, v, cs[k]);
            }
          }
        }
        Ok(r)
      else
        var row := Row(id.value, v);
        var t' := Table(Put(t.rows, row), t.nextId);
        assert Consistent(t, cs) ==> Consistent(t', cs) by {
          if Consistent(t, cs) {
            forall k | 0 <= k < |cs|
              ensures Holds(t'.rows, cs[k])
            {
              PutHolds(t, row, cs[k]);
            }
          }
        }
        Ok((t', row))
  }

  // ---------------------------------------------------------------------
  // Entities

  /** A project. `owner` (a user identity) exists only in the older tree's
      migration; the services never set it. */
  datatype Project = Project(name: Option<string>, description: Option<string>, startDate: Option<int>,
                             owner: Option<nat>)

  /** A student; `projectId` refers to a project row and `createdAt` is set
      when the row is first stored. */
  datatype Student = Student(
    codeNumber: Option<string>,
    firstName: Option<string>,
    lastName: Option<string>,
    dateOfBirth: Option<int>,
    title: Option<string>,
    description: Option<string>,
    projectId: Option<nat>,
    createdAt: Option<int>)

  /** A task of the older tree. */
  datatype Task = Task(
    codeNumber: Option<string>,
    firstName: Option<string>,
    lastName: Option<string>,
    dateOfBirth: Option<int>,
    title: Option<string>,
    description: Option<string>,
    status: Option<string>,
    priority: Option<string>,
    dueDate: Option<int>,
    projectId: Option<nat>)

  datatype User = User(username: string, password: string, role: Option<string>)

  const ProjectConstraints: seq<Constraint<Project>> := [
    NotNull("name", (p: Project) => p.name.Some?),
    Unique("projects_name_key", (p: Project) => [p.name])]

  const StudentConstraints: seq<Constraint<Student>> := [
    NotNull("code_number", (s: Student) => s.codeNumber.Some?),
    NotNull("first_name", (s: Student) => s.firstName.Some?),
    NotNull("last_name", (s: Student) => s.lastName.Some?),
    NotNull("title", (s: Student) => s.title.Some?),
    NotNull("project_id", (s: Student) => s.projectId.Some?),
    Unique("students_code_number_key", (s: Student) => [s.codeNumber]),
    Unique("uk_student_name", (s: Student) => [s.firstName, s.lastName])]

  const TaskConstraints: seq<Constraint<Task>> := [
    NotNull("title", (t: Task) => t.title.Some?),
    NotNull("status", (t: Task) => t.status.Some?),
    NotNull("project_id", (t: Task) => t.projectId.Some?),
    Unique("tasks_code_number_key", (t: Task) => [t.codeNumber])]

  const UserConstraints: seq<Constraint<User>> := [
    Unique("users_username_key", (u: User) => [Some(u.username)])]

  /** Names of stored projects are present and distinct. */
  lemma ProjectNamesDistinct(t: Table<Project>, x: Row<Project>, y: Row<Project>)
    requires Consistent(t, ProjectConstraints)
    requires x in t.rows && y in t.rows && x.id != y.id
    ensures x.value.name.Some? && x.value.name != y.value.name
  {
    assert Holds(t.rows, ProjectConstraints[0]);
    assert Holds(t.rows, ProjectConstraints[1]);
    assert ProjectConstraints[1].key(x.value) == [x.value.name];
    assert ProjectConstraints[1].key(y.value) == [y.value.name];
  }

  /** Usernames of stored users are distinct. */
  lemma UsernamesDistinct(t: Table<User>, x: Row<User>, y: Row<User>)
    requires Consistent(t, UserConstraints)
    requires x in t.rows && y in t.rows && x.id != y.id
    ensures x.value.username != y.value.username
  {
    assert Holds(t.rows, UserConstraints[0]);
    assert UserConstraints[0].key(x.value) == [Some(x.value.username)];
    assert UserConstraints[0].key(y.value) == [Some(y.value.username)];
  }

  /** Codes of stored students are present and distinct. */
  lemma StudentCodesDistinct(t: Table<Student>, x: Row<Student>, y: Row<Student>)
    requires Consistent(t, StudentConstraints)
    requires x in t.rows && y in t.rows && x.id != y.id
    ensures x.value.codeNumber.Some? && x.value.codeNumber != y.value.codeNumber
  {
    assert Holds(t.rows, StudentConstraints[0]);
    assert Holds(t.rows, StudentConstraints[5]);
    assert StudentConstraints[5].key(x.value) == [x.value.codeNumber];
    assert StudentConstraints[5].key(y.value) == [y.value.codeNumber];
  }

  /** `Student.getProjectId`: absent exactly when the student has no
      project. */
  function GetProjectId(s: Student): (r: Option<nat>)
    ensures r.None? <==> s.projectId.None?
  {
    s.projectId
  }

  /** `Student.getProjectName`: the current name of the student's project,
      read through the reference. */
  function GetProjectName(s: Student, projects: seq<Row<Project>>): (r: Option<string>)
    ensures s.projectId.None? ==> r.None?
    ensures s.projectId.Some? && FindById(projects, s.projectId.value).Some?
            ==> r == FindById(projects, s.projectId.value).value.value.name
  {
    if s.projectId.None? then None
    else match FindById(projects, s.projectId.value)
      case None => None
      case Some(p) => p.value.name
  }

  /** A user's role before any is assigned. */
  const DefaultRole: string := "USER"

  /** `ensureRole`, run before every insert and update: a missing or blank
      role becomes "USER", any other is kept. */
  function EnsureRole(u: User): (r: User)
    ensures r.username == u.username && r.password == u.password
    ensures r.role.Some? && !IsBlank(r.role.value)
    ensures u.role.Some? && !IsBlank(u.role.value) ==> r == u
    ensures u.role.None? || IsBlank(u.role.value) ==> r.role == Some(DefaultRole)
  {
    if u.role.None? || IsBlank(u.role.value) then
      assert !IsSpace(JavaWhitespace, DefaultRole[0]);
      u.(role := Some(DefaultRole))
    else u
  }

  lemma EnsureRoleIdempotent(u: User)
    ensures EnsureRole(EnsureRole(u)) == EnsureRole(u)
  {
  }

  // ---------------------------------------------------------------------
  // The database

  /** Every table of both trees. */
  datatype Db = Db(projects: Table<Project>, students: Table<Student>, tasks: Table<Task>,
                   users: Table<User>)

  /** Every table is valid and satisfies its constraints. */
  ghost predicate DbConsistent(db: Db) {
    Consistent(db.projects, ProjectConstraints)
    && Consistent(db.students, StudentConstraints)
    && Consistent(db.tasks, TaskConstraints)
    && Consistent(db.users, UserConstraints)
  }

  /** Every student refers to a stored project (the foreign key). */
  ghost predicate StudentsReferenced(db: Db) {
    forall x :: x in db.students.rows && x.value.projectId.Some?
                ==> HasId(db.projects.rows, x.value.projectId.value)
  }

  /** Every task refers to a stored project (the foreign key). */
  ghost predicate TasksReferenced(db: Db) {
    forall x :: x in db.tasks.rows && x.value.projectId.Some?
                ==> HasId(db.projects.rows, x.value.projectId.value)
  }

  // ---------------------------------------------------------------------
  // Repository queries

  predicate InProject(projectId: Option<nat>, id: int) {
    projectId.Some? && projectId.value == id
  }

  /** `findByProject_Id` / `findByProjectId`. */
  function StudentsOfProject(rows: seq<Row<Student>>, projectId: int): (r: seq<Row<Student>>)
    ensures forall x :: x in r <==> x in rows && InProject(x.value.projectId, projectId)
  {
    Keep(rows, (x: Row<Student>) => InProject(x.value.projectId, projectId))
  }

  function TasksOfProject(rows: seq<Row<Task>>, projectId: int): (r: seq<Row<Task>>)
    ensures forall x :: x in r <==> x in rows && InProject(x.value.projectId, projectId)
  {
    Keep(rows, (x: Row<Task>) => InProject(x.value.projectId, projectId))
  }

  /** `findByCodeNumber`: the student with exactly this code. */
  function StudentByCode(rows: seq<Row<Student>>, code: string): (r: Option<Row<Student>>)
    ensures r.Some? ==> r.value in rows && r.value.value.codeNumber == Some(code)
    ensures r.None? <==> forall x :: x in rows ==> x.value.codeNumber != Some(code)
  {
    FindFirst(rows, (s: Student) => s.codeNumber == Some(code))
  }

  /** With unique codes the lookup finds the only student holding the
      code. */
  lemma StudentByCodeUnique(t: Table<Student>, code: string, x: Row<Student>)
    requires Consistent(t, StudentConstraints)
    requires x in t.rows && x.value.codeNumber == Some(code)
    ensures StudentByCode(t.rows, code) == Some(x)
  {
    var r := StudentByCode(t.rows, code).value;
    if r.id != x.id {
      StudentCodesDistinct(t, r, x);
    }
    FindByIdUnique(t, x);
    FindByIdUnique(t, r);
  }

  /** SQL `LOWER(column) = LOWER(term)`; a null column matches nothing. */
  predicate LowerEquals(column: Option<string>, term: string) {
    column.Some? && EqualsIgnoreCase(column.value, term)
  }

  /** The newer `searchByName`: first or last name equal to the term,
      ignoring case; no partial matching. */
  predicate NameMatches(s: Student, term: string) {
    LowerEquals(s.firstName, term) || LowerEquals(s.lastName, term)
  }

  /** The older `searchByName` also matches the code. */
  predicate LegacyNameMatches(s: Student, term: string) {
    LowerEquals(s.codeNumber, term) || NameMatches(s, term)
  }

  function SearchByName(rows: seq<Row<Student>>, term: string): (r: seq<Row<Student>>)
    ensures forall x :: x in r <==> x in rows && NameMatches(x.value, term)
  {
    Keep(rows, (x: Row<Student>) => NameMatches(x.value, term))
  }

  function LegacySearchByName(rows: seq<Row<Student>>, term: string): (r: seq<Row<Student>>)
    ensures forall x :: x in r <==> x in rows && LegacyNameMatches(x.value, term)
  {
    Keep(rows, (x: Row<Student>) => LegacyNameMatches(x.value, term))
  }

  /** A term shorter than both names matches neither: there is no partial
      matching. */
  lemma NoPartialMatch(s: Student, term: string)
    requires s.firstName.Some? && s.lastName.Some?
    requires |term| < |s.firstName.value| && |term| < |s.lastName.value|
    ensures !NameMatches(s, term)
  {
    assert |AsciiLower(term)| != |AsciiLower(s.firstName.value)|;
    assert |AsciiLower(term)| != |AsciiLower(s.lastName.value)|;
  }

  /** The older search finds everything the newer one finds, and also
      students whose code equals the term. */
  lemma LegacySearchFindsMore(rows: seq<Row<Student>>, term: string, x: Row<Student>)
    requires x in rows
    ensures x in SearchByName(rows, term) ==> x in LegacySearchByName(rows, term)
    ensures x.value.codeNumber == Some(term) ==> x in LegacySearchByName(rows, term)
  {
  }

  /** `findByCodeNumber` on tasks. */
  function TaskByCode(rows: seq<Row<Task>>, code: string): (r: Option<Row<Task>>)
    ensures r.Some? ==> r.value in rows && r.value.value.codeNumber == Some(code)
    ensures r.None? <==> forall x :: x in rows ==> x.value.codeNumber != Some(code)
  {
    FindFirst(rows, (t: Task) => t.codeNumber == Some(code))
  }

  /** The derived task query on first and last name: the first name
      contains the first argument or the last name contains the second,
      ignoring case; a missing name matches nothing. */
  predicate TaskNameMatches(t: Task, first: string, last: string) {
    (t.firstName.Some? && ContainsIgnoreCase(t.firstName.value, first))
    || (t.lastName.Some? && ContainsIgnoreCase(t.lastName.value, last))
  }

  function TasksByName(rows: seq<Row<Task>>, first: string, last: string): (r: seq<Row<Task>>)
    ensures forall x :: x in r <==> x in rows && TaskNameMatches(x.value, first, last)
  {
    Keep(rows, (x: Row<Task>) => TaskNameMatches(x.value, first, last))
  }

  /** Containment is partial matching: a task whose first name starts with
      the first argument is found, whatever its last name. */
  lemma TaskPrefixFound(rows: seq<Row<Task>>, x: Row<Task>, first: string, last: string)
    requires x in rows && x.value.firstName.Some?
    requires AsciiLower(first) <= AsciiLower(x.value.firstName.value)
    ensures x in TasksByName(rows, first, last)
  {
    ContainsPrefix(AsciiLower(x.value.firstName.value), AsciiLower(first));
  }

  /** `findByName` on projects. */
  function ProjectByName(rows: seq<Row<Project>>, name: Option<string>): (r: Option<Row<Project>>)
    ensures r.Some? ==> r.value in rows && r.value.value.name == name
    ensures r.None? <==> forall x :: x in rows ==> x.value.name != name
  {
    FindFirst(rows, (p: Project) => p.name == name)
  }

  /** `findByUsername` / `existsByUsername`. */
  function UserByName(rows: seq<Row<User>>, username: string): (r: Option<Row<User>>)
    ensures r.Some? ==> r.value in rows && r.value.value.username == username
    ensures r.None? <==> forall x :: x in rows ==> x.value.username != username
  {
    FindFirst(rows, (u: User) => u.username == username)
  }

  /** Saving a user runs `ensureRole` first; the username column is
      unique. */
  function SaveUser(t: Table<User>, id: Option<nat>, u: User): (r: Result<(Table<User>, Row<User>), Failure>)
    requires id.Some? ==> HasId(t.rows, id.value)
    ensures r.Err? <==> exists x :: x in t.rows && x.id != id.GetOr(t.nextId) && x.value.username == u.username
    ensures r.Err? ==> r.error == ConstraintError(UserConstraints[0])
    ensures r.Ok? ==> r.value.1.value == EnsureRole(u)
    ensures r.Ok? && id.None? ==> r.value == Insert(t, EnsureRole(u))
    ensures r.Ok? && id.Some? ==> r.value.0 == Table(Put(t.rows, Row(id.value, EnsureRole(u))), t.nextId)
    ensures r.Ok? && Consistent(t, UserConstraints) ==> Consistent(r.value.0, UserConstraints)
  {
    var v := EnsureRole(u);
    assert forall x: Row<User> :: UserConstraints[0].key(x.value) == [Some(x.value.username)];
    assert Keyed(UserConstraints[0].key(v));
    Save(t, id, v, UserConstraints)
  }
}

=== FILE: error_message.dfy ===
/** The client's error-message fallback chain (`getErrorMessage` in
    src/types/errors.ts) and the shape of the values a rejected request or a
    `throw` can carry. */
module ErrorMessage {
  import opened Wrappers
  import opened Text

  /** A property of the response body that may hold a string. */
  datatype Field = Absent | Str(s: string) | NonString

  /** `error.response.data`: nothing (or a falsy / non-string, non-object
      value), a plain string body, or a JSON object with `message` and
      `error` properties. */
  datatype Body = NoBody | TextBody(text: string) | ObjectBody(message: Field, error: Field)

  /** `error.response`: the HTTP status, when known, and the body. */
  datatype Response = Response(status: Option<int>, data: Body)

  /** Anything a JavaScript `catch` can receive. `Falsy` is `null`,
      `undefined`, `false`, `0` or `""`. Every other value is `Thrown`:
      `isError` says whether it is an `Error` instance, `response` is its
      `response` property and `message` its `message` property. A truthy
      primitive is a `Thrown` with neither. */
  datatype Caught =
    | Falsy
    | Thrown(isError: bool, response: Option<Response>, message: Option<string>)

  const DefaultFallback: string := "An error occurred"

  /** A fresh `new Error(msg)`, which has a message and no response. */
  function NewError(msg: string): (e: Caught)
    ensures e.Thrown? && e.isError && e.response.None? && e.message == Some(msg)
  {
    Thrown(true, None, Some(msg))
  }

  /** The response body carried by `e`, if any. */
  function BodyOf(e: Caught): Body {
    if e.Thrown? && e.response.Some? then e.response.value.data else NoBody
  }

  /** The error's own message when it is a non-empty string. */
  function OwnMessage(e: Caught): Option<string> {
    if e.Thrown? && e.message.Some? && e.message.value != "" then e.message else None
  }

  /** `getErrorMessage(error, fallback)`. */
  function GetErrorMessage(e: Caught, fallback: string): (r: string)
    // a falsy value always gives the fallback
    ensures e.Falsy? ==> r == fallback
    // a string body is returned as it is, even when it is empty
    ensures BodyOf(e).TextBody? ==> r == BodyOf(e).text
    // an object body's message wins when it has non-space content
    ensures BodyOf(e).ObjectBody? && BodyOf(e).message.Str?
            && !AllSpace(EcmaSpace, BodyOf(e).message.s)
            ==> r == BodyOf(e).message.s
    // the result is empty only if the fallback or an empty string body or
    // an empty `error` field was chosen: a blank `message` and an empty
    // own message are skipped
    ensures r == "" ==>
              (fallback == "" || BodyOf(e) == TextBody("")
               || (BodyOf(e).ObjectBody? && BodyOf(e).error == Str("")))
  {
    if e.Falsy? then fallback
    else
      match BodyOf(e)
      case TextBody(t) => t
      case ObjectBody(m, err) =>
        if m.Str? && Trim(EcmaSpace, m.s) != "" then m.s
        else if err.Str? then err.s
        else OwnMessage(e).GetOr(fallback)
      case NoBody => OwnMessage(e).GetOr(fallback)
  }

  /** The candidates `getErrorMessage` considers, in the order it considers
      them; each is present only if its own test passes. */
  function Candidates(e: Caught, fallback: string): seq<Option<string>> {
    if e.Falsy? then [Some(fallback)]
    else
      var b := BodyOf(e);
      [ if b.TextBody? then Some(b.text) else None,
        if b.ObjectBody? && b.message.Str? && !AllSpace(EcmaSpace, b.message.s)
        then Some(b.message.s) else None,
        if b.ObjectBody? && b.error.Str? then Some(b.error.s) else None,
        OwnMessage(e),
        Some(fallback) ]
  }

  /** The first present candidate. */
  function FirstPresent(cs: seq<Option<string>>, otherwise: string): string
    decreases |cs|
  {
    if cs == [] then otherwise
    else if cs[0].Some? then cs[0].value
    else FirstPresent(cs[1..], otherwise)
  }

  /** `getErrorMessage` returns the first applicable candidate of the chain
      string body, body message, body error, own message, fallback. */
  lemma GetErrorMessageIsFirstCandidate(e: Caught, fallback: string)
    ensures GetErrorMessage(e, fallback) == FirstPresent(Candidates(e, fallback), fallback)
  {
    var b := BodyOf(e);
    if b.ObjectBody? && b.message.Str? {
      assert Trim(EcmaSpace, b.message.s) == [] <==> AllSpace(EcmaSpace, b.message.s);
    }
    var cs := Candidates(e, fallback);
    if e.Thrown? {
      var c1 := cs[1..];
      var c2 := c1[1..];
      var c3 := c2[1..];
      var c4 := c3[1..];
      assert c4 == [Some(fallback)];
      assert FirstPresent(c3, fallback) == OwnMessage(e).GetOr(fallback);
      assert FirstPresent(c2, fallback)
          == (if b.ObjectBody? && b.error.Str? then b.error.s else OwnMessage(e).GetOr(fallback));
    }
  }

  /** The result is always one of the candidates, so the chain is total and
      never invents a message. */
  lemma GetErrorMessageIsACandidate(e: Caught, fallback: string)
    ensures Some(GetErrorMessage(e, fallback)) in Candidates(e, fallback)
  {
    GetErrorMessageIsFirstCandidate(e, fallback);
    FirstPresentIn(Candidates(e, fallback), fallback);
  }

  lemma {:induction false} FirstPresentIn(cs: seq<Option<string>>, otherwise: string)
    requires |cs| > 0 && cs[|cs| - 1] == Some(otherwise)
    ensures Some(FirstPresent(cs, otherwise)) in cs
    decreases |cs|
  {
    if cs[0].None? {
      FirstPresentIn(cs[1..], otherwise);
    }
  }

  /** Re-wrapping a message into `new Error(msg)` and normalising it again
      keeps a non-empty message and replaces an empty one by the fallback. */
  lemma RewrapMessage(msg: string, fallback: string)
    ensures GetErrorMessage(NewError(msg), fallback) == (if msg == "" then fallback else msg)
  {
  }
}

=== FILE: exceptions.dfy ===
/** How the two back ends turn a failed request into an HTTP response: the
    newer tree's `GlobalExceptionHandler`, which answers with an
    `ApiResponse`, and the older tree's, which answers with an `ApiError`.
    Timestamps are left out. */
module Exceptions {
  import opened Wrappers
  import opened Text
  import opened Domain
  import Validation
  import StudentService

  // ---------------------------------------------------------------------
  // Field errors collected into an insertion-ordered map

  /** A `LinkedHashMap<String, String>` as its entries in iteration order. */
  type Entries = seq<(string, string)>

  predicate DistinctKeys(es: Entries) {
    forall i, j :: 0 <= i < j < |es| ==> es[i].0 != es[j].0
  }

  predicate HasKey(es: Entries, k: string) {
    exists i :: 0 <= i < |es| && es[i].0 == k
  }

  /** The position of the first entry with key `k`, or `|es|`. */
  function KeyIndex(es: Entries, k: string): (p: nat)
    ensures p <= |es|
    ensures p < |es| <==> HasKey(es, k)
    ensures p < |es| ==> es[p].0 == k
    ensures forall j :: 0 <= j < p ==> es[j].0 != k
    decreases |es|
  {
    if es == [] then 0
    else if es[0].0 == k then 0
    else
      var p := KeyIndex(es[1..], k);
      assert HasKey(es, k) ==> HasKey(es[1..], k) by {
        if HasKey(es, k) {
          var i :| 0 <= i < |es| && es[i].0 == k;
          assert es[1..][i - 1].0 == k;
        }
      }
      1 + p
  }

  /** `put` with the merge function `(existing, replacement) ->
      replacement`: an existing key keeps its place and takes the new
      value; a new key goes last. */
  function Assign(m: Entries, k: string, v: string): (r: Entries)
    requires DistinctKeys(m)
    ensures DistinctKeys(r)
    ensures HasKey(m, k) ==> |r| == |m|
    ensures !HasKey(m, k) ==> |r| == |m| + 1 && r[|m|] == (k, v)
    ensures forall i :: 0 <= i < |m| ==> r[i].0 == m[i].0 && r[i].1 == (if m[i].0 == k then v else m[i].1)
    ensures forall x :: HasKey(r, x) <==> HasKey(m, x) || x == k
  {
    var p := KeyIndex(m, k);
    if p < |m| then
      var r := m[p := (k, v)];
      assert forall x :: HasKey(r, x) ==> HasKey(m, x) by {
        forall x | HasKey(r, x)
          ensures HasKey(m, x)
        {
          var i :| 0 <= i < |r| && r[i].0 == x;
          assert m[i].0 == x;
        }
      }
      r
    else
      var r := m + [(k, v)];
      assert HasKey(r, k) by {
        assert r[|m|].0 == k;
      }
      assert forall x :: HasKey(m, x) ==> HasKey(r, x) by {
        forall x | HasKey(m, x)
          ensures HasKey(r, x)
        {
          var i :| 0 <= i < |m| && m[i].0 == x;
          assert r[i].0 == x;
        }
      }
      r
  }

  /** The keys of a non-empty sequence are those before its last entry
      and the last entry's. */
  lemma HasKeySnoc(es: Entries, k: string)
    requires es != []
    ensures HasKey(es, k) <==> HasKey(es[..|es| - 1], k) || k == es[|es| - 1].0
  {
    var init := es[..|es| - 1];
    if HasKey(es, k) && k != es[|es| - 1].0 {
      var i :| 0 <= i < |es| && es[i].0 == k;
      assert init[i].0 == k;
    }
    if HasKey(init, k) {
      var i :| 0 <= i < |init| && init[i].0 == k;
      assert es[i].0 == k;
    }
    assert es[|es| - 1].0 == es[|es| - 1].0;
  }

  /** `Collectors.toMap(key, value, (existing, replacement) -> replacement,
      LinkedHashMap::new)`: one entry per field, exactly the fields that
      have errors. */
  function Collect(pairs: Entries): (r: Entries)
    ensures DistinctKeys(r)
    ensures forall k :: HasKey(r, k) <==> HasKey(pairs, k)
    decreases |pairs|
  {
    if pairs == [] then []
    else
      var init := pairs[..|pairs| - 1];
      var last := pairs[|pairs| - 1];
      forall k
        ensures HasKey(pairs, k) <==> HasKey(init, k) || k == last.0
      {
        HasKeySnoc(pairs, k);
      }
      Assign(Collect(init), last.0, last.1)
  }

  /** Entry `i` is the last one for its field. */
  predicate LastFor(pairs: Entries, i: nat)
    requires i < |pairs|
  {
    forall j :: i < j < |pairs| ==> pairs[j].0 != pairs[i].0
  }

  /** An entry that is the last for its field, and not for the last
      entry's field, is the last for its field before that entry too. */
  lemma LastForInit(pairs: Entries, i: nat)
    requires i < |pairs| - 1 && LastFor(pairs, i)
    ensures LastFor(pairs[..|pairs| - 1], i) && pairs[i].0 != pairs[|pairs| - 1].0
  {
    var init := pairs[..|pairs| - 1];
    forall j | i < j < |init|
      ensures init[j].0 != init[i].0
    {
      assert init[j] == pairs[j];
    }
  }

  /** The converse step. */
  lemma LastForSnoc(pairs: Entries, i: nat)
    requires i < |pairs| - 1 && LastFor(pairs[..|pairs| - 1], i) && pairs[i].0 != pairs[|pairs| - 1].0
    ensures LastFor(pairs, i)
  {
    var init := pairs[..|pairs| - 1];
    forall j | i < j < |pairs|
      ensures pairs[j].0 != pairs[i].0
    {
      if j < |pairs| - 1 {
        assert init[j] == pairs[j] && init[i] == pairs[i];
      }
    }
  }

  /** The last error of each field is what the map keeps for it. */
  lemma {:induction false} CollectKeepsLast(pairs: Entries, i: nat)
    requires i < |pairs| && LastFor(pairs, i)
    ensures exists a :: 0 <= a < |Collect(pairs)| && Collect(pairs)[a] == pairs[i]
    decreases |pairs|
  {
    var n := |pairs|;
    var init := pairs[..n - 1];
    var last := pairs[n - 1];
    var m := Collect(init);
    var r := Collect(pairs);
    assert r == Assign(m, last.0, last.1);
    if i == n - 1 {
      AssignedEntry(m, last.0, last.1);
    } else {
      LastForInit(pairs, i);
      CollectKeepsLast(init, i);
      var a :| 0 <= a < |m| && m[a] == init[i];
      assert r[a] == pairs[i];
    }
  }

  /** The assigned entry is in the result. */
  lemma AssignedEntry(m: Entries, k: string, v: string)
    requires DistinctKeys(m)
    ensures exists a :: 0 <= a < |Assign(m, k, v)| && Assign(m, k, v)[a] == (k, v)
  {
    var r := Assign(m, k, v);
    if HasKey(m, k) {
      var a :| 0 <= a < |m| && m[a].0 == k;
      assert r[a] == (k, v);
    } else {
      assert r[|m|] == (k, v);
    }
  }

  /** Nothing but the last error of a field is kept. */
  lemma {:induction false} CollectLastWins(pairs: Entries, a: nat)
    requires a < |Collect(pairs)|
    ensures exists i :: 0 <= i < |pairs| && pairs[i] == Collect(pairs)[a] && LastFor(pairs, i)
    decreases |pairs|
  {
    var n := |pairs|;
    var init := pairs[..n - 1];
    var last := pairs[n - 1];
    var m := Collect(init);
    var r := Collect(pairs);
    assert r == Assign(m, last.0, last.1);
    if a < |m| && m[a].0 != last.0 {
      CollectLastWins(init, a);
      var i :| 0 <= i < |init| && init[i] == m[a] && LastFor(init, i);
      LastForSnoc(pairs, i);
      assert pairs[i] == r[a];
    } else {
      assert r[a] == last;
      assert LastFor(pairs, n - 1);
    }
  }

  /** A field seen before the last entry is found there. */
  lemma KeyIndexInit(pairs: Entries, k: string)
    requires pairs != [] && HasKey(pairs[..|pairs| - 1], k)
    ensures KeyIndex(pairs, k) == KeyIndex(pairs[..|pairs| - 1], k) < |pairs| - 1
  {
    var init := pairs[..|pairs| - 1];
    var p := KeyIndex(init, k);
    assert pairs[p].0 == k;
    forall j | 0 <= j < p
      ensures pairs[j].0 != k
    {
      assert init[j] == pairs[j];
    }
  }

  /** A field first seen in the last entry is found there. */
  lemma KeyIndexLast(pairs: Entries)
    requires pairs != [] && !HasKey(pairs[..|pairs| - 1], pairs[|pairs| - 1].0)
    ensures KeyIndex(pairs, pairs[|pairs| - 1].0) == |pairs| - 1
  {
    var init := pairs[..|pairs| - 1];
    var k := pairs[|pairs| - 1].0;
    forall j | 0 <= j < |pairs| - 1
      ensures pairs[j].0 != k
    {
      assert init[j] == pairs[j];
    }
  }

  /** The fields come in the order of their first errors. */
  lemma {:induction false} CollectOrder(pairs: Entries, a: nat, b: nat)
    requires a < b < |Collect(pairs)|
    ensures KeyIndex(pairs, Collect(pairs)[a].0) < KeyIndex(pairs, Collect(pairs)[b].0)
    decreases |pairs|
  {
    var n := |pairs|;
    var init := pairs[..n - 1];
    var last := pairs[n - 1];
    var m := Collect(init);
    var r := Collect(pairs);
    assert r == Assign(m, last.0, last.1);
    assert a < |m| && r[a].0 == m[a].0;
    assert HasKey(m, m[a].0);
    KeyIndexInit(pairs, m[a].0);
    if b < |m| {
      assert r[b].0 == m[b].0 && HasKey(m, m[b].0);
      KeyIndexInit(pairs, m[b].0);
      CollectOrder(init, a, b);
    } else {
      assert r[b].0 == last.0 && !HasKey(init, last.0);
      KeyIndexLast(pairs);
    }
  }

  /** `Map.copyOf` of the collected entries: the order is lost. */
  function ToMap(es: Entries): (r: map<string, string>)
    requires DistinctKeys(es)
    ensures forall k :: k in r <==> HasKey(es, k)
    ensures forall i :: 0 <= i < |es| ==> es[i].0 in r && r[es[i].0] == es[i].1
    decreases |es|
  {
    if es == [] then map[]
    else
      var init := es[..|es| - 1];
      var last := es[|es| - 1];
      forall k
        ensures HasKey(es, k) <==> HasKey(init, k) || k == last.0
      {
        HasKeySnoc(es, k);
      }
      ToMap(init)[last.0 := last.1]
  }

  // ---------------------------------------------------------------------
  // Response bodies

  datatype Response<T> = Response(status: nat, body: T)

  /** The newer tree's `ApiResponse` (both trees declare the same
      factories). */
  datatype ApiResponse<T> = ApiResponse(
    success: bool,
    message: string,
    data: Option<T>,
    validationErrors: Option<Entries>)

  function Success<T>(data: T): (r: ApiResponse<T>)
    ensures r.success && r.data == Some(data) && r.validationErrors.None?
  {
    ApiResponse(true, "Success", Some(data), None)
  }

  function SuccessWith<T>(message: string, data: T): (r: ApiResponse<T>)
    ensures r.success && r.message == message && r.data == Some(data) && r.validationErrors.None?
  {
    ApiResponse(true, message, Some(data), None)
  }

  function Error<T>(message: string): (r: ApiResponse<T>)
    ensures !r.success && r.message == message && r.data.None? && r.validationErrors.None?
  {
    ApiResponse(false, message, None, None)
  }

  function ErrorWith<T>(message: string, data: T): (r: ApiResponse<T>)
    ensures !r.success && r.message == message && r.data == Some(data) && r.validationErrors.None?
  {
    ApiResponse(false, message, Some(data), None)
  }

  function ValidationError<T>(message: string, errors: Entries): (r: ApiResponse<T>)
    ensures !r.success && r.message == message && r.data.None? && r.validationErrors == Some(errors)
  {
    ApiResponse(false, message, None, Some(errors))
  }

  /** The one-argument success is the two-argument one with "Success". */
  lemma SuccessDefaultMessage<T>(data: T)
    ensures Success(data) == SuccessWith("Success", data)
  {
  }

  // ---------------------------------------------------------------------
  // The newer tree's handler

  const ValidationFailed: string := "Validation failed"
  const ConstraintViolation: string := "Constraint violation"
  const CodeNumberTaken: string := "This student ID is already taken"
  const ProjectNameTaken: string := "This project name is already taken"
  const DataIntegrityError: string := "Data integrity constraint violation"
  const InvalidCredentials: string := "Invalid username or password"
  const UnexpectedError: string := "Unexpected error occurred"
  const StudentsCodeKey: string := "students_code_number_key"
  const ProjectsNameKey: string := "projects_name_key"

  /** The failures Spring Security reports as an `AuthenticationException`. */
  predicate IsAuthentication(f: Failure) {
    f.UsernameNotFound? || f.BadCredentials?
  }

  /** A data-integrity failure whose message names one of the two unique
      keys the handler recognises. */
  predicate IsKnownConflict(f: Failure) {
    f.DataIntegrity? && f.detail.Some?
    && (Contains(f.detail.value, StudentsCodeKey) || Contains(f.detail.value, ProjectsNameKey))
  }

  /** The newer `GlobalExceptionHandler`: each failure's status, and a
      body that never reports success or carries data. Field errors with
      exactly one field are answered with that field's message alone. */
  function HandleServer(f: Failure): (r: Response<ApiResponse<()>>)
    ensures !r.body.success && r.body.data.None?
    ensures r.status == 400 <==> f.MethodArgumentNotValid? || f.ConstraintViolations? || f.IllegalArgument?
                                 || (f.DataIntegrity? && !IsKnownConflict(f))
    ensures r.status == 404 <==> f.NotFound?
    ensures r.status == 401 <==> IsAuthentication(f)
    ensures r.status == 409 <==> IsKnownConflict(f)
    ensures r.status == 500 <==> f.NullPointer? || f.AccessDenied? || f.Other?
    ensures r.body.validationErrors.Some? ==>
              (f.MethodArgumentNotValid? && |Collect(f.fieldErrors)| != 1) || f.ConstraintViolations?
    ensures f.NotFound? || f.IllegalArgument? ==> r.body.message == f.message
  {
    match f
    case MethodArgumentNotValid(errors) =>
      var m := Collect(errors);
      if |m| == 1 then Response(400, Error(m[0].1))
      else Response(400, ValidationError(ValidationFailed, m))
    case ConstraintViolations(violations) =>
      Response(400, ValidationError(ConstraintViolation, Collect(violations)))
    case NotFound(message) => Response(404, Error(message))
    case IllegalArgument(message) => Response(400, Error(message))
    case UsernameNotFound(_) => Response(401, Error(InvalidCredentials))
    case BadCredentials => Response(401, Error(InvalidCredentials))
    case DataIntegrity(detail) =>
      if detail.Some? && Contains(detail.value, StudentsCodeKey) then Response(409, Error(CodeNumberTaken))
      else if detail.Some? && Contains(detail.value, ProjectsNameKey) then Response(409, Error(ProjectNameTaken))
      else Response(400, Error(DataIntegrityError))
    case NullPointer(_) => Response(500, Error(UnexpectedError))
    case AccessDenied(_) => Response(500, Error(UnexpectedError))
    case Other => Response(500, Error(UnexpectedError))
  }

  /** Errors all on one field are answered with the message of the last
      of them and no map. */
  lemma OneFieldOneMessage(errors: Entries)
    requires |errors| >= 1
    requires forall i :: 0 <= i < |errors| ==> errors[i].0 == errors[0].0
    ensures HandleServer(MethodArgumentNotValid(errors)) == Response(400, Error(errors[|errors| - 1].1))
  {
    CollectOneField(errors);
  }

  /** Errors all on one field collect into the last of them. */
  lemma {:induction false} CollectOneField(errors: Entries)
    requires |errors| >= 1
    requires forall i :: 0 <= i < |errors| ==> errors[i].0 == errors[0].0
    ensures Collect(errors) == [errors[|errors| - 1]]
    decreases |errors|
  {
    var n := |errors|;
    var init := errors[..n - 1];
    var last := errors[n - 1];
    if n > 1 {
      CollectOneField(init);
      assert HasKey(Collect(init), last.0) by {
        assert Collect(init)[0].0 == init[n - 2].0 == last.0;
      }
    }
  }

  /** Errors on two different fields are answered with the map. */
  lemma TwoFieldsGiveMap(errors: Entries, i: nat, j: nat)
    requires i < |errors| && j < |errors| && errors[i].0 != errors[j].0
    ensures |Collect(errors)| >= 2
    ensures HandleServer(MethodArgumentNotValid(errors)) == Response(400, ValidationError(ValidationFailed, Collect(errors)))
  {
    var m := Collect(errors);
    assert HasKey(errors, errors[i].0) && HasKey(errors, errors[j].0);
    var a :| 0 <= a < |m| && m[a].0 == errors[i].0;
    var b :| 0 <= b < |m| && m[b].0 == errors[j].0;
    assert a != b;
  }

  /** The JSON property a request field binds to. */
  function FieldName(f: Validation.Field): string {
    match f
    case CodeNumber => "codeNumber"
    case FirstName => "firstName"
    case LastName => "lastName"
    case DateOfBirth => "dateOfBirth"
    case Title => "title"
    case Description => "description"
    case Status => "status"
    case ProjectId => "projectId"
    case Name => "name"
    case StartDate => "startDate"
    case Username => "username"
    case Password => "password"
  }

  /** The binding result lists each violation once, in some order. */
  predicate Lists(errors: Entries, vs: set<Validation.Violation>) {
    (forall v :: v in vs ==> (FieldName(v.field), v.message) in errors)
    && (forall i :: 0 <= i < |errors| ==> exists v :: v in vs && errors[i] == (FieldName(v.field), v.message))
  }

  /** A request whose violations all sit on one field gets one of that
      field's messages alone, with no map; which one depends on the order
      the validator reports them. */
  lemma OneFieldViolations(errors: Entries, vs: set<Validation.Violation>, f: Validation.Field)
    requires Lists(errors, vs) && vs != {}
    requires forall v :: v in vs ==> v.field == f
    ensures var r := HandleServer(MethodArgumentNotValid(errors));
            r.status == 400 && r.body.validationErrors.None?
            && exists v :: v in vs && r.body.message == v.message
  {
    var v0 :| v0 in vs;
    assert (FieldName(v0.field), v0.message) in errors;
    forall i | 0 <= i < |errors|
      ensures errors[i].0 == FieldName(f)
    {
      var v :| v in vs && errors[i] == (FieldName(v.field), v.message);
    }
    OneFieldOneMessage(errors);
    var last := |errors| - 1;
    var v :| v in vs && errors[last] == (FieldName(v.field), v.message);
  }

  /** Violations on two fields give the map, keyed by every field that
      broke a constraint. */
  lemma TwoFieldViolations(errors: Entries, vs: set<Validation.Violation>, v: Validation.Violation, w: Validation.Violation)
    requires Lists(errors, vs) && v in vs && w in vs && FieldName(v.field) != FieldName(w.field)
    ensures var r := HandleServer(MethodArgumentNotValid(errors));
            r.status == 400 && r.body.validationErrors.Some?
            && forall u :: u in vs ==> HasKey(r.body.validationErrors.value, FieldName(u.field))
  {
    var i :| 0 <= i < |errors| && errors[i] == (FieldName(v.field), v.message);
    var j :| 0 <= j < |errors| && errors[j] == (FieldName(w.field), w.message);
    TwoFieldsGiveMap(errors, i, j);
    forall u | u in vs
      ensures HasKey(Collect(errors), FieldName(u.field))
    {
      var k :| 0 <= k < |errors| && errors[k] == (FieldName(u.field), u.message);
      assert HasKey(errors, FieldName(u.field));
    }
  }

  /** Creating a student with a code that is already stored ends in 409
      with the dedicated message. */
  lemma DuplicateStudentCodeConflict(db: Db, req: Validation.StudentRequest, now: int, other: Row<Student>)
    requires req.projectId.Some? && HasId(db.projects.rows, req.projectId.value)
    requires req.codeNumber.Some? && req.firstName.Some? && req.lastName.Some? && req.title.Some?
    requires other in db.students.rows && other.value.codeNumber == req.codeNumber
    requires ValidTable(db.students)
    ensures var r := StudentService.CreateStudent(db, req, now);
            r.Err? && HandleServer(r.error) == Response(409, Error(CodeNumberTaken))
  {
    StudentService.DuplicateCodeRefused(db, req, now, other);
  }

  // ---------------------------------------------------------------------
  // Telling database messages apart

  /** The message the database gives for a unique key, less a
      character that neither its wording nor the key's name uses. */
  lemma UniqueMessageLacks(name: string, c: char)
    requires c == 'b' || c == 'j'
    requires Lacks(name, c)
    ensures Lacks(UniqueKeyWording + name + "\"", c)
  {
    var w := UniqueKeyWording;
    WordingLacks(c);
    assert Lacks("\"", c);
    LacksConcat(w, name, c);
    LacksConcat(w + name, "\"", c);
  }

  /** The wording of that message uses neither 'b' nor 'j'. */
  lemma WordingLacks(c: char)
    requires c == 'b' || c == 'j'
    ensures Lacks(UniqueKeyWording, c)
  {
    var p1, p2, p3 := "duplicate key ", "value violates ", "unique constraint \"";
    assert Lacks(p1, c) && Lacks(p2, c) && Lacks(p3, c);
    LacksConcat(p1, p2, c);
    LacksConcat(p1 + p2, p3, c);
  }

  /** The database's message for a unique key. */
  lemma UniqueDetail<E>(c: Constraint<E>)
    requires c.Unique?
    ensures ConstraintError(c).detail.value == UniqueKeyWording + c.name + "\""
  {
  }

  /** A unique key whose name lacks a character of both recognised key
      names is answered as a plain integrity violation. */
  lemma UnrecognisedKey<E>(c: Constraint<E>)
    requires c.Unique? && Lacks(c.name, 'b') && Lacks(c.name, 'j')
    ensures HandleServer(ConstraintError(c)) == Response(400, Error(DataIntegrityError))
  {
    var d := ConstraintError(c).detail.value;
    UniqueDetail(c);
    UniqueMessageLacks(c.name, 'b');
    UniqueMessageLacks(c.name, 'j');
    assert StudentsCodeKey[17] == 'b' && ProjectsNameKey[3] == 'j';
    ContainedCharOrNot(d, StudentsCodeKey, 17);
    ContainedCharOrNot(d, ProjectsNameKey, 3);
  }

  /** A second student with a taken code is a conflict with its own
      message. */
  lemma StudentCodeConflict()
    ensures HandleServer(ConstraintError(StudentConstraints[5])) == Response(409, Error(CodeNumberTaken))
  {
    assert StudentConstraints[5].name == StudentsCodeKey;
  }

  /** A second project with a taken name is a conflict with its own
      message; the student-code key is not mistaken for it. */
  lemma ProjectNameConflict()
    ensures HandleServer(ConstraintError(ProjectConstraints[1])) == Response(409, Error(ProjectNameTaken))
  {
    var c := ProjectConstraints[1];
    assert c.name == ProjectsNameKey;
    var d := ConstraintError(c).detail.value;
    UniqueDetail(c);
    assert Lacks(ProjectsNameKey, 'b');
    UniqueMessageLacks(ProjectsNameKey, 'b');
    assert StudentsCodeKey[17] == 'b';
    ContainedCharOrNot(d, StudentsCodeKey, 17);
  }

  /** The student-name and username keys are not recognised: a clash on
      either is a 400. */
  lemma NameAndUsernameNotConflicts()
    ensures HandleServer(ConstraintError(StudentConstraints[6])) == Response(400, Error(DataIntegrityError))
    ensures HandleServer(ConstraintError(UserConstraints[0])) == Response(400, Error(DataIntegrityError))
  {
    StudentNameNotConflict(StudentConstraints[6]);
    UsernameNotConflict(UserConstraints[0]);
  }

  lemma StudentNameNotConflict(c: Constraint<Student>)
    requires c == StudentConstraints[6]
    ensures HandleServer(ConstraintError(c)) == Response(400, Error(DataIntegrityError))
  {
    assert c.name == "uk_student_name";
    assert Lacks("uk_student_name", 'b') && Lacks("uk_student_name", 'j');
    UnrecognisedKey(c);
  }

  lemma UsernameNotConflict(c: Constraint<User>)
    requires c == UserConstraints[0]
    ensures HandleServer(ConstraintError(c)) == Response(400, Error(DataIntegrityError))
  {
    assert c.name == "users_username_key";
    assert Lacks("users_username_key", 'b') && Lacks("users_username_key", 'j');
    UnrecognisedKey(c);
  }

  // ---------------------------------------------------------------------
  // The older tree's handler

  /** The older tree's `ApiError`: the status, its reason phrase, the
      message, the request path and the validation errors (never null). */
  datatype ApiError = ApiError(
    status: nat,
    error: string,
    message: string,
    path: string,
    validationErrors: map<string, string>)

  /** The reason phrases of the statuses in use (section 15 of RFC 9110). */
  function ReasonPhrase(status: nat): string {
    if status == 400 then "Bad Request"
    else if status == 404 then "Not Found"
    else if status == 500 then "Internal Server Error"
    else ""
  }

  function Simple(status: nat, message: string, path: string): (e: ApiError)
    ensures e.status == status && e.error == ReasonPhrase(status) && e.message == message
            && e.path == path && e.validationErrors == map[]
  {
    ApiError(status, ReasonPhrase(status), message, path, map[])
  }

  function ValidationApiError(status: nat, message: string, path: string, errors: Entries): (e: ApiError)
    requires DistinctKeys(errors)
    ensures e.status == status && e.error == ReasonPhrase(status) && e.message == message && e.path == path
    ensures forall k :: k in e.validationErrors <==> HasKey(errors, k)
  {
    ApiError(status, ReasonPhrase(status), message, path, ToMap(errors))
  }

  /** The older `GlobalExceptionHandler`: field errors and constraint
      violations are 400 with every field's last message, an
      `EntityNotFoundException` 404 and an `IllegalArgumentException` 400
      with their own message; everything else is 500. */
  function HandleLegacy(f: Failure, path: string): (r: Response<ApiError>)
    ensures r.status == r.body.status && r.body.error == ReasonPhrase(r.status) && r.body.path == path
    ensures r.status == 400 <==> f.MethodArgumentNotValid? || f.ConstraintViolations? || f.IllegalArgument?
    ensures r.status == 404 <==> f.NotFound?
    ensures r.status == 500 <==> !(f.MethodArgumentNotValid? || f.ConstraintViolations? || f.IllegalArgument? || f.NotFound?)
    ensures f.MethodArgumentNotValid? ==>
              (r.body.message == ValidationFailed
               && forall k :: k in r.body.validationErrors <==> HasKey(f.fieldErrors, k))
    ensures f.ConstraintViolations? ==>
              (r.body.message == ConstraintViolation
               && forall k :: k in r.body.validationErrors <==> HasKey(f.violations, k))
    ensures !(f.MethodArgumentNotValid? || f.ConstraintViolations?) ==> r.body.validationErrors == map[]
    ensures r.status == 500 ==> r.body.message == UnexpectedError
  {
    match f
    case MethodArgumentNotValid(errors) =>
      Response(400, ValidationApiError(400, ValidationFailed, path, Collect(errors)))
    case ConstraintViolations(violations) =>
      Response(400, ValidationApiError(400, ConstraintViolation, path, Collect(violations)))
    case NotFound(message) => Response(404, Simple(404, message, path))
    case IllegalArgument(message) => Response(400, Simple(400, message, path))
    case _ => Response(500, Simple(500, UnexpectedError, path))
  }

  /** Every field in the older tree's map carries the message of its last
      error. */
  lemma LegacyLastMessage(errors: Entries, path: string, i: nat)
    requires i < |errors| && LastFor(errors, i)
    ensures var r := HandleLegacy(MethodArgumentNotValid(errors), path).body.validationErrors;
            errors[i].0 in r && r[errors[i].0] == errors[i].1
  {
    var m := Collect(errors);
    CollectKeepsLast(errors, i);
    var a :| 0 <= a < |m| && m[a] == errors[i];
    var r := ToMap(m);
    assert m[a].0 in r && r[m[a].0] == m[a].1;
    LegacyFieldErrors(errors, path);
  }

  lemma LegacyFieldErrors(errors: Entries, path: string)
    ensures HandleLegacy(MethodArgumentNotValid(errors), path).body.validationErrors == ToMap(Collect(errors))
  {
  }

  /** The two handlers agree on the status of every failure except the
      ones only the newer one recognises (authentication and data
      integrity), which the older one answers with 500. */
  lemma HandlersCompared(f: Failure, path: string)
    ensures !(IsAuthentication(f) || f.DataIntegrity?) ==>
              HandleServer(f).status == HandleLegacy(f, path).status
    ensures IsAuthentication(f) || f.DataIntegrity? ==>
              HandleLegacy(f, path).status == 500 && HandleServer(f).status != 500
    ensures f.NotFound? || f.IllegalArgument? ==>
              HandleServer(f).body.message == HandleLegacy(f, path).body.message
  {
  }
}

=== FILE: forms.dfy ===
/** The field rules of the older client's forms (src/components/StudentForm.tsx
    and src/components/ProjectForm.tsx) and how react-hook-form applies them:
    `required` first, then `minLength`, then `pattern`, reporting the first
    rule that fails. The rules never depend on the form's mode. */
module Forms {
  import opened Wrappers
  import opened Text

  /** The two regular expressions the forms use. */
  datatype Pattern = Digits | LettersOrSpace

  predicate Matches(p: Pattern, s: string) {
    match p
    case Digits => AllDigits(s)
    case LettersOrSpace => LettersAndSpaces(EcmaSpace, s)
  }

  /** The rules registered for one field, each with its message. */
  datatype Rules = Rules(
    required: Option<string>,
    minLength: Option<(nat, string)>,
    pattern: Option<(Pattern, string)>)

  const NoRules: Rules := Rules(None, None, None)

  /** A value satisfies the rules: it is non-empty if required, and, when
      non-empty, long enough (in UTF-16 units) and matching the pattern.
      An empty value is only ever rejected by `required`. */
  predicate Satisfies(rules: Rules, value: string) {
    (rules.required.Some? ==> value != "")
    && (value != "" && rules.minLength.Some? ==> Utf16Length(value) >= rules.minLength.value.0)
    && (value != "" && rules.pattern.Some? ==> Matches(rules.pattern.value.0, value))
  }

  /** The message react-hook-form shows for a field, or `None`. */
  function Validate(rules: Rules, value: string): (r: Option<string>)
    ensures r.None? <==> Satisfies(rules, value)
    ensures r.Some? && rules.required.Some? && value == "" ==> r == rules.required
    ensures r.Some? ==> (r == rules.required || (rules.minLength.Some? && r.value == rules.minLength.value.1)
                         || (rules.pattern.Some? && r.value == rules.pattern.value.1))
  {
    if rules.required.Some? && value == "" then rules.required
    else if value == "" then None
    else if rules.minLength.Some? && Utf16Length(value) < rules.minLength.value.0 then
      Some(rules.minLength.value.1)
    else if rules.pattern.Some? && !Matches(rules.pattern.value.0, value) then
      Some(rules.pattern.value.1)
    else None
  }

  const StudentIdRules: Rules :=
    Rules(Some("Student ID is required"), Some((5, "At least 5 characters")),
          Some((Digits, "Student ID must contain only numbers")))
  const FirstNameRules: Rules :=
    Rules(Some("First name is required"), None, Some((LettersOrSpace, "First name must contain only letters")))
  const LastNameRules: Rules :=
    Rules(Some("Last name is required"), None, Some((LettersOrSpace, "Last name must contain only letters")))
  const JobTitleRules: Rules :=
    Rules(Some("Job title is required"), None, Some((LettersOrSpace, "Job title must contain only letters")))

  /** The student form's values (the project is not a field of it). */
  datatype StudentInput = StudentInput(
    codeNumber: string,
    firstName: string,
    lastName: string,
    dateOfBirth: string,
    title: string,
    description: string)

  /** The error shown under each field. */
  datatype StudentErrors = StudentErrors(
    codeNumber: Option<string>,
    firstName: Option<string>,
    lastName: Option<string>,
    dateOfBirth: Option<string>,
    title: Option<string>,
    description: Option<string>)

  predicate NoErrors(e: StudentErrors) {
    e.codeNumber.None? && e.firstName.None? && e.lastName.None?
    && e.dateOfBirth.None? && e.title.None? && e.description.None?
  }

  /** The student form's validation; it is the same for creating and for
      editing, so it takes no mode. */
  function ValidateStudent(v: StudentInput): (e: StudentErrors)
    ensures e.dateOfBirth.None? && e.description.None?
    ensures e.codeNumber.None? <==> AllDigits(v.codeNumber) && |v.codeNumber| >= 5
    ensures e.firstName.None? <==> LettersAndSpaces(EcmaSpace, v.firstName)
    ensures e.lastName.None? <==> LettersAndSpaces(EcmaSpace, v.lastName)
    ensures e.title.None? <==> LettersAndSpaces(EcmaSpace, v.title)
  {
    Utf16LengthOfBmp(v.codeNumber);
    StudentErrors(Validate(StudentIdRules, v.codeNumber), Validate(FirstNameRules, v.firstName),
                  Validate(LastNameRules, v.lastName), None, Validate(JobTitleRules, v.title), None)
  }

  /** A short numeric id is reported as too short, not as non-numeric: the
      length rule is checked before the pattern. */
  lemma ShortIdMessage(s: string)
    requires AllDigits(s) && |s| < 5
    ensures Validate(StudentIdRules, s) == Some("At least 5 characters")
  {
    Utf16LengthOfBmp(s);
  }

  /** Whitespace alone satisfies a name rule: the pattern admits `\s` and
      `required` only rejects the empty string. */
  lemma BlankNamePasses(s: string)
    requires s != [] && AllSpace(EcmaSpace, s)
    ensures Validate(FirstNameRules, s).None?
  {
  }

  // ---------------------------------------------------------------------
  // The project form.

  const ProjectNameRules: Rules :=
    Rules(Some("Project name is required"), Some((3, "At least 3 characters")), None)

  /** The project form's name rule: present and at least three UTF-16 units,
      with no upper bound. */
  function ValidateProjectName(name: string): (r: Option<string>)
    ensures name == "" ==> r == Some("Project name is required")
    ensures name != "" && Utf16Length(name) < 3 ==> r == Some("At least 3 characters")
    ensures r.None? <==> Utf16Length(name) >= 3
  {
    Validate(ProjectNameRules, name)
  }

  /** No name is too long for the project form. */
  lemma NoMaximumName(name: string, extra: string)
    requires ValidateProjectName(name).None?
    ensures ValidateProjectName(name + extra).None?
  {
    Utf16LengthAppend(name, extra);
  }

  datatype FormMode = Create | Edit

  /** The project form's heading. */
  function ProjectHeading(mode: FormMode): (h: string)
    ensures mode.Create? <==> h == "Create Project"
    ensures mode.Edit? <==> h == "Edit Project"
  {
    if mode.Create? then "Create Project" else "Edit Project"
  }

  /** The submit button is disabled exactly while a submit is in flight, in
      both modes; in create mode its label shows the progress. */
  function ProjectSubmitButton(mode: FormMode, isSubmitting: bool): (b: (string, bool))
    ensures b.1 == isSubmitting
    ensures mode.Create? && isSubmitting ==> b.0 == "Saving..."
    ensures mode.Create? && !isSubmitting ==> b.0 == "CREATE PROJECT"
    ensures mode.Edit? ==> b.0 == "💾 Save"
  {
    if mode.Create? then (if isSubmitting then "Saving..." else "CREATE PROJECT", isSubmitting)
    else ("💾 Save", isSubmitting)
  }
}

=== FILE: home_pages.dfy ===
/** The sign-in pages of both clients: client/src/pages/HomePage.tsx (log in
    and register, with a confirm-password rule) and the older
    src/pages/HomePage.tsx (log in only). Each submit is modelled with the
    outcome of its HTTP call as an oracle input. */
module HomePages {
  import opened Wrappers
  import opened Text
  import opened ErrorMessage

  datatype Mode = LoginMode | RegisterMode

  /** `formTitle`. */
  function FormTitle(mode: Mode): (t: string)
    ensures mode.LoginMode? <==> t == "Log In"
    ensures mode.RegisterMode? <==> t == "Create Account"
  {
    if mode.LoginMode? then "Log In" else "Create Account"
  }

  /** The submit button's label: a progress label while submitting, the
      title otherwise. */
  function PrimaryActionLabel(mode: Mode, isSubmitting: bool): (t: string)
    ensures !isSubmitting ==> t == FormTitle(mode)
    ensures isSubmitting ==> t != FormTitle(mode) && |t| > 3 && t[|t| - 3..] == "..."
  {
    if isSubmitting then (if mode == LoginMode then "Logging in..." else "Creating account...")
    else FormTitle(mode)
  }

  /** The parts of the page state a mode switch touches. */
  datatype AuthUi = AuthUi(mode: Mode, serverError: string)

  /** `toggleMode(next)`: switching to the other mode also clears the
      server error; choosing the current mode changes nothing. */
  function ToggleMode(ui: AuthUi, next: Mode): (r: AuthUi)
    ensures next == ui.mode ==> r == ui
    ensures next != ui.mode ==> r == AuthUi(next, "")
  {
    if next != ui.mode then AuthUi(next, "") else ui
  }

  /** Toggling to a mode and back to where one started clears the error
      and restores the mode. */
  lemma ToggleThereAndBack(ui: AuthUi, other: Mode)
    requires other != ui.mode
    ensures ToggleMode(ToggleMode(ui, other), ui.mode) == AuthUi(ui.mode, "")
  {
  }

  /** The `required` rule of react-hook-form: only the empty string fails. */
  function Required(value: string, message: string): (r: Option<string>)
    ensures r.Some? <==> value == ""
    ensures r.Some? ==> r.value == message
  {
    if value == "" then Some(message) else None
  }

  function UsernameRule(value: string): Option<string> {
    Required(value, "Username is required")
  }

  function PasswordRule(value: string): Option<string> {
    Required(value, "Password is required")
  }

  /** The confirm-password rule (`None` is valid): always valid when
      logging in; when registering, it must be non-empty and equal to the
      password. */
  function ConfirmPasswordRule(mode: Mode, value: string, password: string): (r: Option<string>)
    ensures r.None? <==> mode == LoginMode || (value != "" && value == password)
    ensures mode == RegisterMode && value == "" ==> r == Some("Confirm your password")
    ensures mode == RegisterMode && value != "" && value != password
            ==> r == Some("Passwords do not match")
  {
    if mode == LoginMode then None
    else if value == "" then Some("Confirm your password")
    else if value == password then None
    else Some("Passwords do not match")
  }

  const CannotReach: string := "Cannot reach the server."
  const InvalidCredentials: string := "Invalid username or password."
  const UsernameTaken: string := "Username is already taken."
  const UsernameInUse: string := "Username already in use"
  const LoginFallback: string := "Login failed. Please try again."
  const RegisterFallback: string := "Registration failed. Please try again."
  const NoToken: string := "No token returned by the server."
  const InvalidOrExpired: string := "Invalid or expired token"

  /** What a failed submit displays: the server error and, for a taken
      username, an error on the username field. */
  datatype Shown = Shown(serverError: string, usernameError: Option<string>)

  function ResponseOf(e: Caught): Option<Response> {
    if e.Thrown? then e.response else None
  }

  function StatusOf(e: Caught): Option<int> {
    if ResponseOf(e).Some? then ResponseOf(e).value.status else None
  }

  /** The catch clause of `onSubmit`. The missing-response test comes
      before any status test. */
  function ClassifySubmitError(mode: Mode, e: Caught): (s: Shown)
    ensures ResponseOf(e).None? ==> s == Shown(CannotReach, None)
    ensures ResponseOf(e).Some? && mode == LoginMode && StatusOf(e) == Some(401)
            ==> s == Shown(InvalidCredentials, None)
    ensures ResponseOf(e).Some? && mode == RegisterMode && StatusOf(e) == Some(409)
            ==> s == Shown(UsernameTaken, Some(UsernameInUse))
    ensures ResponseOf(e).Some? && !(mode == LoginMode && StatusOf(e) == Some(401))
            && !(mode == RegisterMode && StatusOf(e) == Some(409))
            ==> s == Shown(GetErrorMessage(e, if mode == LoginMode then LoginFallback
                                               else RegisterFallback), None)
    ensures s.usernameError.Some? <==> ResponseOf(e).Some? && mode == RegisterMode
                                       && StatusOf(e) == Some(409)
  {
    if ResponseOf(e).None? then Shown(CannotReach, None)
    else if mode == LoginMode && StatusOf(e) == Some(401) then Shown(InvalidCredentials, None)
    else if mode == RegisterMode && StatusOf(e) == Some(409) then Shown(UsernameTaken, Some(UsernameInUse))
    else
      var fallback := if mode == LoginMode then LoginFallback else RegisterFallback;
      Shown(GetErrorMessage(e, fallback), None)
  }

  /** A request the page sends. */
  datatype AuthRequest = LoginRequest(username: string, password: string)
                       | RegisterRequest(username: string, password: string)

  /** How the login request settled: rejected, or resolved with the value
      of `response.data?.data?.token`. */
  datatype LoginReply = LoginRejected(error: Caught) | LoginResolved(token: Option<string>)

  /** The result of a submit: what is shown, the mode afterwards, the token
      handed to the session's `login`, whether the page navigated to the
      dashboard, and the requests sent. */
  datatype SubmitResult = SubmitResult(
    shown: Shown,
    mode: Mode,
    loggedInWith: Option<string>,
    navigated: bool,
    requests: seq<AuthRequest>)

  /** `onSubmit`, as written. `register` is how the registration request
      settled, `reply` how the login request settled, and `accepts` says
      whether the session's `login` accepts a token (it throws
      "Invalid or expired token" otherwise). */
  function Submit(mode: Mode, username: string, password: string,
                  register: Result<(), Caught>, reply: LoginReply, accepts: string -> bool)
    : (r: SubmitResult)
    // the username is trimmed, the password sent as typed
    ensures mode == LoginMode ==>
              r.requests == [LoginRequest(Trim(EcmaSpace, username), password)]
    ensures mode == RegisterMode ==>
              r.requests == [RegisterRequest(Trim(EcmaSpace, username), password)]
    // a registration that succeeds switches to logging in
    ensures mode == RegisterMode && register.Ok? ==> r.mode == LoginMode && r.shown == Shown("", None)
    ensures mode == RegisterMode && register.Err? ==>
              r.mode == RegisterMode && r.shown == ClassifySubmitError(RegisterMode, register.error)
    // a log-in that hands an accepted token to the session navigates
    ensures r.navigated <==> r.loggedInWith.Some? && r.shown == Shown("", None)
    ensures r.navigated ==> mode == LoginMode && reply.LoginResolved?
                            && reply.token == r.loggedInWith && accepts(r.loggedInWith.value)
    // and conversely: a non-empty token the session accepts navigates
    ensures mode == LoginMode && reply.LoginResolved? && reply.token.Some? && reply.token.value != ""
            && accepts(reply.token.value)
            ==> r.navigated && r.loggedInWith == reply.token && r.shown == Shown("", None)
    // a rejected log-in is classified, and the page stays in log-in mode
    ensures mode == LoginMode ==> r.mode == LoginMode
    ensures mode == LoginMode && reply.LoginRejected? ==>
              !r.navigated && r.loggedInWith.None? && r.shown == ClassifySubmitError(LoginMode, reply.error)
    // a reply without a usable token is classified as the error thrown for it
    ensures mode == LoginMode && reply.LoginResolved? && (reply.token.None? || reply.token.value == "") ==>
              !r.navigated && r.loggedInWith.None?
              && r.shown == ClassifySubmitError(LoginMode, NewError(NoToken))
    // a token the session refuses was handed to it, and its throw is classified
    ensures mode == LoginMode && reply.LoginResolved? && reply.token.Some? && reply.token.value != ""
            && !accepts(reply.token.value)
            ==> !r.navigated && r.loggedInWith == reply.token
                && r.shown == ClassifySubmitError(LoginMode, NewError(InvalidOrExpired))
  {
    var name := Trim(EcmaSpace, username);
    if mode == RegisterMode then
      match register
      case Ok(_) => SubmitResult(Shown("", None), LoginMode, None, false, [RegisterRequest(name, password)])
      case Err(e) => SubmitResult(ClassifySubmitError(mode, e), mode, None, false,
                                  [RegisterRequest(name, password)])
    else
      var sent := [LoginRequest(name, password)];
      match reply
      case LoginRejected(e) => SubmitResult(ClassifySubmitError(mode, e), mode, None, false, sent)
      case LoginResolved(token) =>
        if token.None? || token.value == "" then
          SubmitResult(ClassifySubmitError(mode, NewError(NoToken)), mode, None, false, sent)
        else if !accepts(token.value) then
          SubmitResult(ClassifySubmitError(mode, NewError(InvalidOrExpired)), mode, token, false, sent)
        else
          assert mode == LoginMode && accepts(token.value);
          SubmitResult(Shown("", None), mode, token, true, sent)
  }

  /** The page as written reports a log-in reply without a token as
      "Cannot reach the server.": the `Error` it throws for that case has
      no `response`, and the classifier tests for a missing response first.
      The message it throws is never displayed. */
  lemma MissingTokenReportedAsUnreachable(username: string, password: string, accepts: string -> bool)
    ensures Submit(LoginMode, username, password, Ok(()), LoginResolved(None), accepts).shown
            == Shown(CannotReach, None)
    ensures Submit(LoginMode, username, password, Ok(()), LoginResolved(None), accepts).shown.serverError
            != NoToken
  {
  }

  /** `onSubmit` with the evident intent for a reply that carries no
      usable token: it shows the message it throws, "No token returned by
      the server." (as the older page does), or the session's
      "Invalid or expired token"; every other case is as written. */
  function SubmitCorrected(mode: Mode, username: string, password: string,
                           register: Result<(), Caught>, reply: LoginReply, accepts: string -> bool)
    : (r: SubmitResult)
    ensures mode == LoginMode && reply.LoginResolved? && (reply.token.None? || reply.token == Some(""))
            ==> r.shown == Shown(NoToken, None) && !r.navigated && r.loggedInWith.None?
    ensures mode == LoginMode && reply.LoginResolved? && reply.token.Some? && reply.token != Some("")
            && !accepts(reply.token.value)
            ==> r.shown == Shown(InvalidOrExpired, None) && !r.navigated
    ensures reply.LoginRejected? || mode == RegisterMode
            ==> r == Submit(mode, username, password, register, reply, accepts)
    ensures r.navigated <==> Submit(mode, username, password, register, reply, accepts).navigated
  {
    var written := Submit(mode, username, password, register, reply, accepts);
    if mode == LoginMode && reply.LoginResolved? then
      var token := reply.token;
      if token.None? || token.value == "" then written.(shown := Shown(NoToken, None))
      else if !accepts(token.value) then written.(shown := Shown(InvalidOrExpired, None))
      else written
    else written
  }

  /** In the corrected page a failed log-in that did reach the server is
      never reported as unreachable. */
  lemma CorrectedNeverBlamesTheNetwork(username: string, password: string,
                                       token: Option<string>, accepts: string -> bool)
    ensures SubmitCorrected(LoginMode, username, password, Ok(()), LoginResolved(token), accepts)
              .shown.serverError != CannotReach
  {
  }

  // ---------------------------------------------------------------------
  // The older page: log in only.

  /** The older page's catch clause: here the 401 test comes first, then
      the missing response. */
  function LegacyClassify(e: Caught): (m: string)
    ensures StatusOf(e) == Some(401) ==> m == InvalidCredentials
    ensures StatusOf(e) != Some(401) && ResponseOf(e).None? ==> m == CannotReach
    ensures ResponseOf(e).Some? && StatusOf(e) != Some(401) ==> m == GetErrorMessage(e, LoginFallback)
  {
    if StatusOf(e) == Some(401) then InvalidCredentials
    else if ResponseOf(e).None? then CannotReach
    else GetErrorMessage(e, LoginFallback)
  }

  /** Both pages agree on every log-in failure: the two tests are
      exclusive, since a 401 status needs a response. */
  lemma ClassifiersAgreeOnLogin(e: Caught)
    ensures ClassifySubmitError(LoginMode, e).serverError == LegacyClassify(e)
  {
  }

  /** The older page's `onSubmit`: the token is handed to the session
      unchecked (that session never throws). */
  function LegacySubmit(username: string, password: string, reply: LoginReply): (r: SubmitResult)
    ensures r.requests == [LoginRequest(Trim(EcmaSpace, username), password)] && r.mode == LoginMode
    ensures reply.LoginResolved? && (reply.token.None? || reply.token == Some(""))
            ==> r.shown == Shown(NoToken, None) && r.loggedInWith.None? && !r.navigated
    ensures reply.LoginResolved? && reply.token.Some? && reply.token != Some("")
            ==> r.loggedInWith == reply.token && r.navigated
    ensures reply.LoginRejected? ==>
              r.shown == Shown(LegacyClassify(reply.error), None) && !r.navigated
  {
    var sent := [LoginRequest(Trim(EcmaSpace, username), password)];
    match reply
    case LoginRejected(e) => SubmitResult(Shown(LegacyClassify(e), None), LoginMode, None, false, sent)
    case LoginResolved(token) =>
      if token.None? || token.value == "" then SubmitResult(Shown(NoToken, None), LoginMode, None, false, sent)
      else SubmitResult(Shown("", None), LoginMode, token, true, sent)
  }

  /** The corrected client page agrees with the older page whenever the
      session accepts every token, as the older session does. */
  lemma CorrectedMatchesLegacy(username: string, password: string, reply: LoginReply)
    ensures SubmitCorrected(LoginMode, username, password, Ok(()), reply, _ => true).shown
            == LegacySubmit(username, password, reply).shown
  {
  }

  /** `wasRedirectedFromProtected`: the user was sent here from the
      dashboard or from a student page. */
  function WasRedirectedFromProtected(fromPathname: Option<string>): (b: bool)
    // no state, or no pathname in it, is not a redirect
    ensures fromPathname.None? ==> !b
    // the dashboard itself, not a page below it
    ensures fromPathname == Some("/dashboard") ==> b
    // any other path counts exactly when it starts with "/students/"; the
    // list of students ("/students", no slash) is not protected this way
    ensures fromPathname.Some? && fromPathname.value != "/dashboard" ==>
              (b <==> |fromPathname.value| >= 10 && fromPathname.value[..10] == "/students/")
  {
    fromPathname == Some("/dashboard") || (fromPathname.Some? && "/students/" <= fromPathname.value)
  }

  /** Which former locations count as protected ones. */
  lemma RedirectSources()
    ensures WasRedirectedFromProtected(Some("/students/7"))
    ensures WasRedirectedFromProtected(Some("/dashboard"))
    ensures !WasRedirectedFromProtected(Some("/students"))
    ensures !WasRedirectedFromProtected(Some("/dashboard/x"))
    ensures !WasRedirectedFromProtected(Some("/"))
    ensures !WasRedirectedFromProtected(None)
  {
    assert "/students/7"[..10] == "/students/";
    assert "/dashboard/x" != "/dashboard";
    assert "/dashboard/x"[..10] != "/students/" by { assert "/dashboard/x"[1] == 'd'; }
  }
}

=== FILE: legacy_session.dfy ===
/** The older authentication context (src/context/AuthContext.tsx): a bare
    token kept in React state and mirrored into local storage by an effect,
    with no decoding, expiry or timer. */
module LegacySession {
  import opened Wrappers
  import opened AuthToken

  datatype LegacySession = LegacySession(token: Option<string>, storage: Storage)

  /** The lazy initial state: whatever local storage holds under "token". */
  function Init(st: Storage): (s: LegacySession)
    ensures s.token == GetStoredToken(st) && s.storage == st
  {
    LegacySession(if TokenKey in st then Some(st[TokenKey]) else None, st)
  }

  /** `login(newToken)`: sets the token, without any validation. */
  function Login(s: LegacySession, newToken: string): (r: LegacySession)
    ensures r.token == Some(newToken) && r.storage == s.storage
  {
    s.(token := Some(newToken))
  }

  /** `logout()`: forgets the token. */
  function Logout(s: LegacySession): (r: LegacySession)
    ensures r.token.None? && r.storage == s.storage
  {
    s.(token := None)
  }

  /** `isAuthenticated`: `!!token`. */
  predicate IsAuthenticated(s: LegacySession) {
    s.token.Some? && s.token.value != ""
  }

  /** The synchronising effect: a truthy token is written to storage, a
      falsy one removes the key. */
  function Sync(s: LegacySession): (r: LegacySession)
    ensures r.token == s.token
    ensures IsAuthenticated(s) ==> GetStoredToken(r.storage) == s.token
    ensures !IsAuthenticated(s) ==> GetStoredToken(r.storage).None?
    ensures forall k :: k != TokenKey ==> (k in r.storage <==> k in s.storage)
    ensures forall k :: k in s.storage && k != TokenKey ==> r.storage[k] == s.storage[k]
  {
    if s.token.Some? && s.token.value != "" then s.(storage := PersistToken(s.storage, s.token.value))
    else s.(storage := ClearStoredToken(s.storage))
  }

  /** Logging out twice is logging out once. */
  lemma LogoutIdempotent(s: LegacySession)
    ensures Logout(Logout(s)) == Logout(s)
  {
  }

  /** `login("")` does not authenticate, and after the effect nothing is
      stored, so a reload starts logged out. */
  lemma EmptyLoginIsNotAuthenticated(s: LegacySession)
    ensures !IsAuthenticated(Login(s, ""))
    ensures Init(Sync(Login(s, "")).storage).token.None?
  {
  }

  /** A non-empty token survives a reload: logging in, letting the effect
      run and starting again from storage gives the same token. */
  lemma LoginSurvivesReload(s: LegacySession, t: string)
    requires t != ""
    ensures Init(Sync(Login(s, t)).storage).token == Some(t)
    ensures IsAuthenticated(Init(Sync(Login(s, t)).storage))
  {
  }

  /** Logging out and letting the effect run leaves nothing to reload. */
  lemma LogoutSurvivesReload(s: LegacySession)
    ensures !IsAuthenticated(Init(Sync(Logout(s)).storage))
  {
  }
}

=== FILE: project_service.dfy ===
/** The project services of both back ends: lookup, create, update and
    delete, with duplicate-name checks before the database's own unique
    constraint. Deleting a project removes what the entity cascades to:
    its students in the newer tree, its tasks in the older one. */
module ProjectService {
  import opened Wrappers
  import opened Domain
  import opened Validation

  const ProjectNotFound: string := "Project not found"
  const NameMustNotBeNull: string := "Project name must not be null"
  const DuplicateName: string := "Project with this name already exists"

  /** The database refuses a project exactly when its name is null or
      another row already holds it. */
  lemma ProjectSaveRefused(rows: seq<Row<Project>>, self: nat, p: Project)
    ensures (exists k :: 0 <= k < |ProjectConstraints| && Breaks(rows, self, p, ProjectConstraints[k]))
            <==> p.name.None? || exists i :: 0 <= i < |rows| && rows[i].id != self && rows[i].value.name == p.name
  {
    var key := ProjectConstraints[1].key;
    assert forall q: Project :: key(q) == [q.name];
    assert forall i :: 0 <= i < |rows| ==> (key(rows[i].value) == key(p) <==> rows[i].value.name == p.name);
    assert Breaks(rows, self, p, ProjectConstraints[0]) <==> p.name.None?;
  }

  /** Some project other than `self` is named `name`. */
  predicate NameHeldByOther(rows: seq<Row<Project>>, name: Option<string>, self: int) {
    exists i :: 0 <= i < |rows| && rows[i].id != self && rows[i].value.name == name
  }

  /** `getProjectById` (both trees) and the newer tree's `loadProject`. */
  function GetProject(db: Db, id: int): (r: Result<Row<Project>, Failure>)
    ensures r.Err? <==> !HasId(db.projects.rows, id)
    ensures r.Err? ==> r.error == NotFound(ProjectNotFound)
    ensures r.Ok? ==> r.value in db.projects.rows && r.value.id == id
  {
    match FindById(db.projects.rows, id)
    case None => Err(NotFound(ProjectNotFound))
    case Some(row) => Ok(row)
  }

  /** Stores a new project with the request's name and description. */
  function StoreNewProject(db: Db, req: ProjectRequest): (r: Result<(Db, Row<Project>), Failure>)
    ensures var p := Project(req.name, req.description, None, None);
            r.Err? <==> p.name.None? || NameHeldByOther(db.projects.rows, p.name, db.projects.nextId)
    ensures r.Ok? ==> r.value.1 == Row(db.projects.nextId, Project(req.name, req.description, None, None))
                      && r.value.0 == db.(projects := Insert(db.projects, r.value.1.value).0)
    ensures r.Ok? && DbConsistent(db) ==> DbConsistent(r.value.0)
  {
    var p := Project(req.name, req.description, None, None);
    ProjectSaveRefused(db.projects.rows, db.projects.nextId, p);
    match Save(db.projects, None, p, ProjectConstraints)
    case Err(e) => Err(e)
    case Ok(saved) => Ok((db.(projects := saved.0), saved.1))
  }

  /** The newer `createProject`: a null name throws before any lookup; a
      name held by any project is refused; otherwise one project is added
      with the request's name and description. */
  function CreateProject(db: Db, req: ProjectRequest): (r: Result<(Db, Row<Project>), Failure>)
    ensures req.name.None? ==> r == Err(NullPointer(NameMustNotBeNull))
    ensures req.name.Some? && (exists x :: x in db.projects.rows && x.value.name == req.name)
            ==> r == Err(IllegalArgument(DuplicateName))
    ensures req.name.Some? && (forall x :: x in db.projects.rows ==> x.value.name != req.name)
            ==> r.Ok?
    ensures r.Ok? ==> r.value.1 == Row(db.projects.nextId, Project(req.name, req.description, None, None))
                      && r.value.0.projects.rows == db.projects.rows + [r.value.1]
                      && r.value.0 == db.(projects := r.value.0.projects)
    ensures r.Ok? && DbConsistent(db) ==> DbConsistent(r.value.0)
  {
    if req.name.None? then Err(NullPointer(NameMustNotBeNull))
    else if ProjectByName(db.projects.rows, req.name).Some? then Err(IllegalArgument(DuplicateName))
    else
      assert !NameHeldByOther(db.projects.rows, req.name, db.projects.nextId) by {
        forall i | 0 <= i < |db.projects.rows|
          ensures db.projects.rows[i].value.name != req.name
        {
          assert db.projects.rows[i] in db.projects.rows;
        }
      }
      StoreNewProject(db, req)
  }

  /** The older `createProject`: the name is looked up as given (a null
      name finds nothing) and the project saved; a null name is refused
      by the database's NOT NULL constraint instead. */
  function LegacyCreateProject(db: Db, req: ProjectRequest): (r: Result<(Db, Row<Project>), Failure>)
    ensures (exists x :: x in db.projects.rows && x.value.name == req.name)
            ==> r == Err(IllegalArgument(DuplicateName))
    ensures req.name.None? && (forall x :: x in db.projects.rows ==> x.value.name.Some?)
            ==> r == Err(ConstraintError(ProjectConstraints[0]))
    ensures r.Ok? ==> r.value.1 == Row(db.projects.nextId, Project(req.name, req.description, None, None))
                      && r.value.0.projects.rows == db.projects.rows + [r.value.1]
                      && r.value.0 == db.(projects := r.value.0.projects)
    ensures r.Ok? && DbConsistent(db) ==> DbConsistent(r.value.0)
  {
    if ProjectByName(db.projects.rows, req.name).Some? then Err(IllegalArgument(DuplicateName))
    else
      var p := Project(req.name, req.description, None, None);
      match Save(db.projects, None, p, ProjectConstraints)
      case Err(e) => Err(e)
      case Ok(saved) => Ok((db.(projects := saved.0), saved.1))
  }

  /** For a request with a name the two trees create alike. */
  lemma CreateTreesAgree(db: Db, req: ProjectRequest)
    requires req.name.Some?
    ensures CreateProject(db, req) == LegacyCreateProject(db, req)
  {
    if ProjectByName(db.projects.rows, req.name).None? {
      assert !NameHeldByOther(db.projects.rows, req.name, db.projects.nextId) by {
        forall i | 0 <= i < |db.projects.rows|
          ensures db.projects.rows[i].value.name != req.name
        {
          assert db.projects.rows[i] in db.projects.rows;
        }
      }
      ProjectSaveRefused(db.projects.rows, db.projects.nextId, Project(req.name, req.description, None, None));
    }
  }

  /** A created project can be read back under its new identity. */
  lemma CreateThenGet(db: Db, req: ProjectRequest)
    requires DbConsistent(db)
    requires CreateProject(db, req).Ok?
    ensures var r := CreateProject(db, req).value;
            GetProject(r.0, r.1.id) == Ok(r.1)
  {
    var r := CreateProject(db, req).value;
    assert r.1 in r.0.projects.rows;
    FindByIdUnique(r.0.projects, r.1);
  }

  /** The project as updated: only the name and the description change. */
  function Applied(p: Project, req: ProjectRequest): Project {
    p.(name := req.name, description := req.description)
  }

  /** Overwrites a stored project with the request's name and
      description. */
  function StoreUpdate(db: Db, row: Row<Project>, req: ProjectRequest): (r: Result<(Db, Row<Project>), Failure>)
    requires row in db.projects.rows
    ensures r.Err? <==> req.name.None? || NameHeldByOther(db.projects.rows, req.name, row.id)
    ensures r.Ok? ==> r.value.1 == Row(row.id, Applied(row.value, req))
                      && r.value.0 == db.(projects := Table(Put(db.projects.rows, r.value.1), db.projects.nextId))
    ensures r.Ok? && DbConsistent(db) ==> DbConsistent(r.value.0)
  {
    var p := Applied(row.value, req);
    ProjectSaveRefused(db.projects.rows, row.id, p);
    var i :| 0 <= i < |db.projects.rows| && db.projects.rows[i] == row;
    match Save(db.projects, Some(row.id), p, ProjectConstraints)
    case Err(e) => Err(e)
    case Ok(saved) => Ok((db.(projects := saved.0), saved.1))
  }

  /** The newer `updateProject`: an unknown id is not found, then a null
      name throws; a new name is checked against the other projects (an
      unchanged name skips the check); only name and description change
      and the identity is kept. */
  function UpdateProject(db: Db, id: int, req: ProjectRequest): (r: Result<(Db, Row<Project>), Failure>)
    ensures !HasId(db.projects.rows, id) ==> r == Err(NotFound(ProjectNotFound))
    ensures HasId(db.projects.rows, id) && req.name.None? ==> r == Err(NullPointer(NameMustNotBeNull))
    ensures HasId(db.projects.rows, id) && req.name.Some?
            && FindById(db.projects.rows, id).value.value.name != req.name
            && (exists x :: x in db.projects.rows && x.value.name == req.name)
            ==> r == Err(IllegalArgument(DuplicateName))
    ensures r.Ok? ==> var prev := FindById(db.projects.rows, id).value;
                      r.value.1 == Row(prev.id, Applied(prev.value, req))
                      && r.value.0 == db.(projects := Table(Put(db.projects.rows, r.value.1), db.projects.nextId))
    ensures r.Ok? && DbConsistent(db) ==> DbConsistent(r.value.0)
  {
    match FindById(db.projects.rows, id)
    case None => Err(NotFound(ProjectNotFound))
    case Some(row) =>
      if req.name.None? then Err(NullPointer(NameMustNotBeNull))
      else if row.value.name != req.name && ProjectByName(db.projects.rows, req.name).Some? then
        Err(IllegalArgument(DuplicateName))
      else StoreUpdate(db, row, req)
  }

  /** Keeping a project's name always succeeds: the uniqueness lookup is
      skipped and the name is already the project's own. */
  lemma UpdateKeepingName(db: Db, id: int, req: ProjectRequest)
    requires DbConsistent(db) && HasId(db.projects.rows, id)
    requires req.name == FindById(db.projects.rows, id).value.value.name
    ensures UpdateProject(db, id, req).Ok?
  {
    var row := FindById(db.projects.rows, id).value;
    forall i | 0 <= i < |db.projects.rows| && db.projects.rows[i].id != row.id
      ensures db.projects.rows[i].value.name != req.name
    {
      ProjectNamesDistinct(db.projects, db.projects.rows[i], row);
    }
    assert Holds(db.projects.rows, ProjectConstraints[0]);
  }

  /** Renaming to a name no project holds always succeeds. */
  lemma UpdateToFreshName(db: Db, id: int, req: ProjectRequest)
    requires HasId(db.projects.rows, id) && req.name.Some?
    requires forall x :: x in db.projects.rows ==> x.value.name != req.name
    ensures UpdateProject(db, id, req).Ok?
  {
    forall i | 0 <= i < |db.projects.rows|
      ensures db.projects.rows[i].value.name != req.name
    {
      assert db.projects.rows[i] in db.projects.rows;
    }
  }

  /** The older `updateProject`: a changed name held by any project is
      refused; the name and description are then written. */
  function LegacyUpdateProject(db: Db, id: int, req: ProjectRequest): (r: Result<(Db, Row<Project>), Failure>)
    ensures !HasId(db.projects.rows, id) ==> r == Err(NotFound(ProjectNotFound))
    ensures HasId(db.projects.rows, id)
            && FindById(db.projects.rows, id).value.value.name != req.name
            && (exists x :: x in db.projects.rows && x.value.name == req.name)
            ==> r == Err(IllegalArgument(DuplicateName))
    ensures r.Ok? ==> var prev := FindById(db.projects.rows, id).value;
                      r.value.1 == Row(prev.id, Applied(prev.value, req))
                      && r.value.0 == db.(projects := Table(Put(db.projects.rows, r.value.1), db.projects.nextId))
    ensures r.Ok? && DbConsistent(db) ==> DbConsistent(r.value.0)
  {
    match FindById(db.projects.rows, id)
    case None => Err(NotFound(ProjectNotFound))
    case Some(row) =>
      if row.value.name != req.name && ProjectByName(db.projects.rows, req.name).Some? then
        Err(IllegalArgument(DuplicateName))
      else StoreUpdate(db, row, req)
  }

  /** For a request with a name the two trees update alike. */
  lemma UpdateTreesAgree(db: Db, id: int, req: ProjectRequest)
    requires req.name.Some?
    ensures UpdateProject(db, id, req) == LegacyUpdateProject(db, id, req)
  {
  }

  /** The newer `deleteProject`: an unknown id is not found; otherwise the
      project and, by the cascade, its students are removed and nothing
      else changes. */
  function DeleteProject(db: Db, id: int): (r: Result<Db, Failure>)
    ensures r.Err? <==> !HasId(db.projects.rows, id)
    ensures r.Err? ==> r.error == NotFound(ProjectNotFound)
    ensures r.Ok? ==> !HasId(r.value.projects.rows, id)
                      && (forall x :: x in r.value.projects.rows <==> x in db.projects.rows && x.id != id)
                      && (forall x :: x in r.value.students.rows
                                      <==> x in db.students.rows && !InProject(x.value.projectId, id))
                      && r.value.tasks == db.tasks && r.value.users == db.users
    ensures r.Ok? && DbConsistent(db) ==> DbConsistent(r.value)
    ensures r.Ok? && StudentsReferenced(db) ==> StudentsReferenced(r.value)
  {
    match FindById(db.projects.rows, id)
    case None => Err(NotFound(ProjectNotFound))
    case Some(row) =>
      var projects := Table(Remove(db.projects.rows, row.id), db.projects.nextId);
      var keep := (x: Row<Student>) => !InProject(x.value.projectId, row.id);
      var students := Table(Keep(db.students.rows, keep), db.students.nextId);
      var db' := db.(projects := projects, students := students);
      assert DbConsistent(db) ==> DbConsistent(db') by {
        if DbConsistent(db) {
          RemoveConsistent(db.projects, row.id, ProjectConstraints);
          KeepConsistent(db.students, keep, StudentConstraints);
        }
      }
      assert StudentsReferenced(db) ==> StudentsReferenced(db') by {
        if StudentsReferenced(db) {
          forall x | x in students.rows && x.value.projectId.Some?
            ensures HasId(projects.rows, x.value.projectId.value)
          {
            RemoveKeepsOthers(db.projects.rows, row.id, x.value.projectId.value);
          }
        }
      }
      Ok(db')
  }

  /** A deleted project is gone. */
  lemma DeleteThenGet(db: Db, id: int)
    requires DeleteProject(db, id).Ok?
    ensures GetProject(DeleteProject(db, id).value, id) == Err(NotFound(ProjectNotFound))
  {
  }

  /** The message of the database's refusal to delete a project that
      students still refer to. */
  const StudentsStillReferToProject: string :=
    "update or delete on table \"projects\" violates foreign key constraint on table \"students\""

  /** The older `deleteProject`: an unknown id is not found; a project that
      students still refer to is refused by the database (the entity
      cascades only to tasks); otherwise the project and its tasks are
      removed and nothing else changes. */
  function LegacyDeleteProject(db: Db, id: int): (r: Result<Db, Failure>)
    ensures !HasId(db.projects.rows, id) ==> r == Err(NotFound(ProjectNotFound))
    ensures HasId(db.projects.rows, id) ==>
              (r.Err? <==> exists x :: x in db.students.rows && InProject(x.value.projectId, id))
    ensures HasId(db.projects.rows, id) && r.Err? ==> r.error == DataIntegrity(Some(StudentsStillReferToProject))
    ensures r.Ok? ==> !HasId(r.value.projects.rows, id)
                      && (forall x :: x in r.value.projects.rows <==> x in db.projects.rows && x.id != id)
                      && (forall x :: x in r.value.tasks.rows
                                      <==> x in db.tasks.rows && !InProject(x.value.projectId, id))
                      && r.value.students == db.students && r.value.users == db.users
    ensures r.Ok? && DbConsistent(db) ==> DbConsistent(r.value)
    ensures r.Ok? && StudentsReferenced(db) && TasksReferenced(db)
            ==> StudentsReferenced(r.value) && TasksReferenced(r.value)
  {
    match FindById(db.projects.rows, id)
    case None => Err(NotFound(ProjectNotFound))
    case Some(row) =>
      if StudentsOfProject(db.students.rows, row.id) != [] then
        assert StudentsOfProject(db.students.rows, row.id)[0] in StudentsOfProject(db.students.rows, row.id);
        Err(DataIntegrity(Some(StudentsStillReferToProject)))
      else
        var projects := Table(Remove(db.projects.rows, row.id), db.projects.nextId);
        var keep := (x: Row<Task>) => !InProject(x.value.projectId, row.id);
        var tasks := Table(Keep(db.tasks.rows, keep), db.tasks.nextId);
        var db' := db.(projects := projects, tasks := tasks);
        assert DbConsistent(db) ==> DbConsistent(db') by {
          if DbConsistent(db) {
            RemoveConsistent(db.projects, row.id, ProjectConstraints);
            KeepConsistent(db.tasks, keep, TaskConstraints);
          }
        }
        assert StudentsReferenced(db) && TasksReferenced(db)
               ==> StudentsReferenced(db') && TasksReferenced(db') by {
          if StudentsReferenced(db) && TasksReferenced(db) {
            forall x | x in db'.students.rows && x.value.projectId.Some?
              ensures HasId(projects.rows, x.value.projectId.value)
            {
              assert x !in StudentsOfProject(db.students.rows, row.id);
              RemoveKeepsOthers(db.projects.rows, row.id, x.value.projectId.value);
            }
            forall x | x in tasks.rows && x.value.projectId.Some?
              ensures HasId(projects.rows, x.value.projectId.value)
            {
              RemoveKeepsOthers(db.projects.rows, row.id, x.value.projectId.value);
            }
          }
        }
        Ok(db')
  }
}

=== FILE: security.dfy ===
/** The newer tree's security layer: reading the bearer token from the
    Authorization header, the CORS and access rules, the JWT signing key
    and expiry, and the Redis blacklist of revoked tokens.

    JWT signing and parsing belong to a library and are parameters (a
    `JwtCodec`); the blacklist's Redis store is a map from key to the
    instant at which the key expires. */
module Security {
  import opened Wrappers
  import opened Text
  import opened Bytes

  // ---------------------------------------------------------------------
  // BearerTokenExtractor

  const BearerPrefix: string := "Bearer "

  /** `BearerTokenExtractor.extract`: a header with text that starts with
      the exact prefix gives the rest, trimmed; anything else gives
      nothing. */
  function ExtractBearer(header: Option<string>): (r: Option<string>)
    ensures r.Some? <==> header.Some? && BearerPrefix <= header.value
    ensures r.Some? ==> Unpadded(JavaTrimSpace, r.value) && |r.value| <= |header.value| - |BearerPrefix|
  {
    if header.Some? && BearerPrefix <= header.value then
      assert header.value[0] == 'B';
      assert HasText(header);
      Some(Trim(JavaTrimSpace, header.value[|BearerPrefix|..]))
    else None
  }

  /** A token with no surrounding white space comes back unchanged. */
  lemma BearerRoundTrip(token: string)
    requires Unpadded(JavaTrimSpace, token)
    ensures ExtractBearer(Some(BearerPrefix + token)) == Some(token)
  {
    assert (BearerPrefix + token)[|BearerPrefix|..] == token;
    TrimUnpadded(JavaTrimSpace, token);
  }

  /** White space between the prefix and the token, and after it, is
      dropped. */
  lemma BearerPaddingDropped(pre: string, token: string, post: string)
    requires AllSpace(JavaTrimSpace, pre) && AllSpace(JavaTrimSpace, post)
    requires Unpadded(JavaTrimSpace, token) && token != []
    ensures ExtractBearer(Some(BearerPrefix + pre + token + post)) == Some(token)
  {
    var h := BearerPrefix + pre + token + post;
    assert h[|BearerPrefix|..] == pre + token + post;
    TrimSurrounded(JavaTrimSpace, pre, token, post);
  }

  /** The prefix followed only by white space yields an empty token, not
      nothing. */
  lemma BearerOnlySpaces(ws: string)
    requires AllSpace(JavaTrimSpace, ws)
    ensures ExtractBearer(Some(BearerPrefix + ws)) == Some("")
  {
    assert (BearerPrefix + ws)[|BearerPrefix|..] == ws;
  }

  /** The prefix is matched case-sensitively. */
  lemma BearerCaseSensitive(token: string)
    ensures ExtractBearer(Some("bearer " + token)) == None
  {
    assert ("bearer " + token)[0] == 'b';
  }

  // ---------------------------------------------------------------------
  // SecurityConfig: allowed origins

  /** Each piece trimmed with `String.trim`. */
  function TrimAll(pieces: seq<string>): (r: seq<string>)
    ensures |r| == |pieces|
    ensures forall i :: 0 <= i < |r| ==> Unpadded(JavaTrimSpace, r[i]) && |r[i]| <= |pieces[i]|
    decreases |pieces|
  {
    if pieces == [] then []
    else TrimAll(pieces[..|pieces| - 1]) + [Trim(JavaTrimSpace, pieces[|pieces| - 1])]
  }

  /** The non-empty pieces, in order. */
  function DropEmpty(pieces: seq<string>): (r: seq<string>)
    ensures |r| <= |pieces|
    ensures forall i :: 0 <= i < |r| ==> r[i] != [] && r[i] in pieces
    decreases |pieces|
  {
    if pieces == [] then []
    else if pieces[|pieces| - 1] == [] then DropEmpty(pieces[..|pieces| - 1])
    else DropEmpty(pieces[..|pieces| - 1]) + [pieces[|pieces| - 1]]
  }

  /** The constructor of `SecurityConfig`: the property split on ",",
      each piece trimmed, the empty ones dropped. */
  function ParseOrigins(property: string): (r: seq<string>)
    ensures forall i :: 0 <= i < |r| ==> r[i] != [] && Unpadded(JavaTrimSpace, r[i]) && ',' !in r[i]
  {
    var pieces := JavaSplit(property, ',');
    assert forall i :: 0 <= i < |pieces| ==> ',' !in pieces[i];
    var trimmed := TrimAll(pieces);
    assert forall i :: 0 <= i < |trimmed| ==> ',' !in trimmed[i] by {
      TrimAllKeepsOut(pieces, ',');
    }
    DropEmpty(trimmed)
  }

  lemma {:induction false} TrimAllKeepsOut(pieces: seq<string>, c: char)
    requires forall i :: 0 <= i < |pieces| ==> c !in pieces[i]
    ensures forall i :: 0 <= i < |TrimAll(pieces)| ==> c !in TrimAll(pieces)[i]
    decreases |pieces|
  {
    if pieces != [] {
      TrimAllKeepsOut(pieces[..|pieces| - 1], c);
      var last := pieces[|pieces| - 1];
      var p := TrimBounds(JavaTrimSpace, last);
      assert Trim(JavaTrimSpace, last) == last[p.0..p.1];
      assert c !in last[p.0..p.1] by {
        forall m | 0 <= m < p.1 - p.0
          ensures last[p.0..p.1][m] != c
        {
          assert last[p.0..p.1][m] == last[p.0 + m];
        }
      }
    }
  }

  /** Trailing empty pieces, which `String.split` drops, would be dropped
      by the filter anyway. */
  lemma {:induction false} TrailingEmptyIrrelevant(pieces: seq<string>)
    ensures DropEmpty(TrimAll(DropTrailingEmpty(pieces))) == DropEmpty(TrimAll(pieces))
    decreases |pieces|
  {
    if pieces != [] && pieces[|pieces| - 1] == "" {
      var init := pieces[..|pieces| - 1];
      TrailingEmptyIrrelevant(init);
      assert TrimAll(pieces) == TrimAll(init) + [Trim(JavaTrimSpace, "")];
      assert TrimAll(pieces)[..|pieces| - 1] == TrimAll(init);
    }
  }

  /** The origins are exactly the comma-separated fields of the property,
      trimmed, without the empty ones, in their original order. */
  lemma ParseOriginsFieldwise(property: string)
    ensures ParseOrigins(property) == DropEmpty(TrimAll(SplitAll(property, ',')))
  {
    if ',' !in property {
      SplitPiece(property, [], ',');
      assert property + [] == property;
    } else {
      TrailingEmptyIrrelevant(SplitAll(property, ','));
    }
  }

  lemma {:induction false} TrimAllUnpadded(pieces: seq<string>)
    requires forall i :: 0 <= i < |pieces| ==> Unpadded(JavaTrimSpace, pieces[i])
    ensures TrimAll(pieces) == pieces
    decreases |pieces|
  {
    if pieces != [] {
      TrimAllUnpadded(pieces[..|pieces| - 1]);
      TrimUnpadded(JavaTrimSpace, pieces[|pieces| - 1]);
      assert pieces[..|pieces| - 1] + [pieces[|pieces| - 1]] == pieces;
    }
  }

  lemma {:induction false} DropEmptyNonEmpty(pieces: seq<string>)
    requires forall i :: 0 <= i < |pieces| ==> pieces[i] != []
    ensures DropEmpty(pieces) == pieces
    decreases |pieces|
  {
    if pieces != [] {
      DropEmptyNonEmpty(pieces[..|pieces| - 1]);
      assert pieces[..|pieces| - 1] + [pieces[|pieces| - 1]] == pieces;
    }
  }

  /** A list of well-formed origins written with commas (and no
      surrounding white space) parses back to the same list. */
  lemma OriginsRoundTrip(origins: seq<string>)
    requires |origins| >= 1
    requires forall i :: 0 <= i < |origins| ==>
               origins[i] != [] && Unpadded(JavaTrimSpace, origins[i]) && ',' !in origins[i]
    ensures ParseOrigins(Join(origins, ',')) == origins
  {
    SplitJoin(origins, ',');
    ParseOriginsFieldwise(Join(origins, ','));
    TrimAllUnpadded(origins);
    DropEmptyNonEmpty(origins);
  }

  // ---------------------------------------------------------------------
  // SecurityConfig: CORS

  const DefaultOrigins: seq<string> :=
    ["http://localhost:5176", "http://127.0.0.1:5176", "http://localhost", "http://127.0.0.1"]

  const AllowedMethods: seq<string> := ["GET", "POST", "PUT", "DELETE", "OPTIONS"]

  datatype CorsPolicy = CorsPolicy(
    origins: seq<string>,
    methods: seq<string>,
    headers: seq<string>,
    allowCredentials: bool)

  /** `corsConfigurationSource`: the parsed origins, or the four local
      defaults when none are configured; fixed methods, any header,
      credentials allowed. */
  function Cors(property: string): (r: CorsPolicy)
    ensures ParseOrigins(property) == [] ==> r.origins == DefaultOrigins
    ensures ParseOrigins(property) != [] ==> r.origins == ParseOrigins(property)
    ensures r.origins != []
    ensures forall i :: 0 <= i < |r.origins| ==> r.origins[i] != [] && Unpadded(JavaTrimSpace, r.origins[i])
    ensures r.methods == ["GET", "POST", "PUT", "DELETE", "OPTIONS"]
    ensures r.headers == ["*"] && r.allowCredentials
  {
    var parsed := ParseOrigins(property);
    CorsPolicy(if parsed == [] then DefaultOrigins else parsed, AllowedMethods, ["*"], true)
  }

  /** A property holding only commas and white space configures the
      defaults; a property listing origins configures exactly those. */
  lemma CorsOrigins(blank: string, origins: seq<string>)
    requires forall i :: 0 <= i < |blank| ==> blank[i] == ',' || IsSpace(JavaTrimSpace, blank[i])
    requires |origins| >= 1
    requires forall i :: 0 <= i < |origins| ==>
               origins[i] != [] && Unpadded(JavaTrimSpace, origins[i]) && ',' !in origins[i]
    ensures Cors(blank).origins == DefaultOrigins
    ensures Cors(Join(origins, ',')).origins == origins
  {
    OriginsRoundTrip(origins);
    var parsed := ParseOrigins(blank);
    if parsed != [] {
      ParseOriginsFieldwise(blank);
      var pieces := SplitAll(blank, ',');
      JoinSplit(blank, ',');
      BlankPiecesTrimEmpty(blank, pieces);
      DropEmptyOfEmpties(TrimAll(pieces));
    }
  }

  /** Every piece of a split of commas and white space is white space. */
  lemma {:induction false} BlankPiecesTrimEmpty(blank: string, pieces: seq<string>)
    requires forall i :: 0 <= i < |blank| ==> blank[i] == ',' || IsSpace(JavaTrimSpace, blank[i])
    requires pieces == SplitAll(blank, ',')
    ensures forall i :: 0 <= i < |TrimAll(pieces)| ==> TrimAll(pieces)[i] == []
    decreases |blank|
  {
    forall i | 0 <= i < |pieces|
      ensures AllSpace(JavaTrimSpace, pieces[i])
    {
      PieceIsBlank(blank, i);
    }
    TrimAllOfBlank(pieces);
  }

  lemma {:induction false} PieceIsBlank(blank: string, i: nat)
    requires forall m :: 0 <= m < |blank| ==> blank[m] == ',' || IsSpace(JavaTrimSpace, blank[m])
    requires i < |SplitAll(blank, ',')|
    ensures AllSpace(JavaTrimSpace, SplitAll(blank, ',')[i])
    decreases |blank|
  {
    if blank != [] {
      var rest := SplitAll(blank[1..], ',');
      if blank[0] == ',' {
        if i > 0 {
          PieceIsBlank(blank[1..], i - 1);
        }
      } else if i == 0 {
        PieceIsBlank(blank[1..], 0);
        assert SplitAll(blank, ',')[0] == [blank[0]] + rest[0];
      } else {
        PieceIsBlank(blank[1..], i);
      }
    }
  }

  lemma {:induction false} TrimAllOfBlank(pieces: seq<string>)
    requires forall i :: 0 <= i < |pieces| ==> AllSpace(JavaTrimSpace, pieces[i])
    ensures forall i :: 0 <= i < |TrimAll(pieces)| ==> TrimAll(pieces)[i] == []
    decreases |pieces|
  {
    if pieces != [] {
      TrimAllOfBlank(pieces[..|pieces| - 1]);
    }
  }

  lemma {:induction false} DropEmptyOfEmpties(pieces: seq<string>)
    requires forall i :: 0 <= i < |pieces| ==> pieces[i] == []
    ensures DropEmpty(pieces) == []
    decreases |pieces|
  {
    if pieces != [] {
      DropEmptyOfEmpties(pieces[..|pieces| - 1]);
    }
  }

  // ---------------------------------------------------------------------
  // SecurityConfig: access rules

  datatype Access = Allow | RequireAuthentication

  const AuthRoot: string := "/api/auth"

  /** The request path lies in the subtree of "/api/auth": it is the root
      itself or continues it with a further segment. */
  predicate InAuthSubtree(path: string) {
    path == AuthRoot || AuthRoot + "/" <= path
  }

  /** The filter chain's rule: the auth endpoints are open, every other
      request must be authenticated. */
  function Authorize(path: string, authenticated: bool): (r: Access)
    ensures r == Allow <==> authenticated || InAuthSubtree(path)
  {
    if InAuthSubtree(path) || authenticated then Allow else RequireAuthentication
  }

  /** The same subtree read segment by segment: the path's first three
      "/"-separated segments are "", "api" and "auth". */
  predicate AuthSegments(path: string) {
    var seg := SplitAll(path, '/');
    |seg| >= 3 && seg[0] == "" && seg[1] == "api" && seg[2] == "auth"
  }

  /** The prefix rule agrees with the segment reading, so "/api/authx" is
      not open while "/api/auth" and "/api/auth/login" are. */
  lemma AuthSubtreeBySegments(path: string)
    ensures InAuthSubtree(path) <==> AuthSegments(path)
  {
    if InAuthSubtree(path) {
      SubtreeHasSegments(path);
    }
    if AuthSegments(path) {
      SegmentsInSubtree(path);
    }
  }

  lemma SubtreeHasSegments(path: string)
    requires InAuthSubtree(path)
    ensures AuthSegments(path)
  {
    var t := path[|AuthRoot|..];
    assert path[..|AuthRoot|] == AuthRoot;
    assert t == [] || t[0] == '/';
    var a := "auth" + t;
    var c := "api" + "/" + a;
    assert path == "" + "/" + c;
    SplitPiece("auth", t, '/');
    SplitAfter("api", a, '/');
    SplitAfter("", c, '/');
  }

  /** A separator-free piece followed by the separator splits off as the
      first piece. */
  lemma SplitAfter(p: string, x: string, sep: char)
    requires sep !in p
    ensures SplitAll(p + [sep] + x, sep) == [p] + SplitAll(x, sep)
  {
    SplitPiece(p, [sep] + x, sep);
    assert ([sep] + x)[1..] == x;
    assert p + [sep] + x == p + ([sep] + x);
  }

  lemma SegmentsInSubtree(path: string)
    requires AuthSegments(path)
    ensures InAuthSubtree(path)
  {
    var seg := SplitAll(path, '/');
    JoinSplit(path, '/');
    var tail := seg[2..];
    assert seg[1..][1..] == tail;
    assert Join(seg, '/') == "" + "/" + Join(seg[1..], '/');
    assert Join(seg[1..], '/') == "api" + "/" + Join(tail, '/');
    if |seg| == 3 {
      assert Join(tail, '/') == "auth";
      assert path == AuthRoot;
    } else {
      assert tail[1..] == seg[3..];
      assert Join(tail, '/') == "auth" + "/" + Join(seg[3..], '/');
      assert path == AuthRoot + "/" + Join(seg[3..], '/');
    }
  }

  lemma AuthRuleExamples()
    ensures Authorize("/api/auth", false) == Allow
    ensures Authorize("/api/auth/login", false) == Allow
    ensures Authorize("/api/authx", false) == RequireAuthentication
    ensures Authorize("/api/projects", false) == RequireAuthentication
    ensures Authorize("/api/projects", true) == Allow
  {
    assert "/api/authx"[9] == 'x';
    assert "/api/projects"[5] == 'p';
  }

  // ---------------------------------------------------------------------
  // Java long arithmetic

  const LongMin: int := -0x8000_0000_0000_0000
  const LongMax: int := 0x7FFF_FFFF_FFFF_FFFF

  predicate IsLong(x: int) {
    LongMin <= x <= LongMax
  }

  /** Two's-complement wrap-around of a 64-bit `long`. */
  function Long(x: int): (r: int)
    ensures IsLong(r)
    ensures (r - x) % 0x1_0000_0000_0000_0000 == 0
    ensures IsLong(x) ==> r == x
  {
    (x - LongMin) % 0x1_0000_0000_0000_0000 + LongMin
  }

  // ---------------------------------------------------------------------
  // JwtTokenProvider

  const SecretRequired: string := "JWT secret must not be null"
  const NameRequired: string := "Authentication principal must have a username"
  const SubjectMissing: string := "JWT subject missing"
  const ExpirationMissing: string := "JWT expiration missing"
  const MinKeyLength: nat := 32

  function Zeros(n: nat): (r: seq<byte>)
    ensures |r| == n && forall i :: 0 <= i < n ==> r[i] == 0
  {
    if n == 0 then [] else [0 as byte] + Zeros(n - 1)
  }

  /** `getSigningKey`: the secret's UTF-8 bytes, padded with zero bytes
      (as `Arrays.copyOf` pads) to 32 bytes when shorter. */
  function SigningKey(secret: Option<string>): (r: Result<seq<byte>, TokenFailure>)
    ensures r.Err? <==> secret.None?
    ensures r.Err? ==> r.error == MissingValue(SecretRequired)
    ensures r.Ok? ==> var u := Utf8(secret.value);
              |r.value| == (if |u| < MinKeyLength then MinKeyLength else |u|)
              && u <= r.value
              && forall i :: |u| <= i < |r.value| ==> r.value[i] == 0
  {
    match secret
    case None => Err(MissingValue(SecretRequired))
    case Some(s) =>
      var u := Utf8(s);
      if |u| < MinKeyLength then Ok(u + Zeros(MinKeyLength - |u|)) else Ok(u)
  }

  /** No character other than U+0000 encodes to a zero byte. */
  lemma {:induction false} Utf8NoZeroByte(s: string)
    requires forall i :: 0 <= i < |s| ==> s[i] != 0 as char
    ensures forall i :: 0 <= i < |Utf8(s)| ==> Utf8(s)[i] != 0
    decreases |s|
  {
    if s != [] {
      Utf8NoZeroByte(s[1..]);
      var e := EncodeChar(s[0]);
      DecodeEncodeChar(s[0]);
      assert e[0] != 0;
      forall i | 0 <= i < |Utf8(s)|
        ensures Utf8(s)[i] != 0
      {
        if i < |e| {
          assert Utf8(s)[i] == e[i];
        } else {
          assert Utf8(s)[i] == Utf8(s[1..])[i - |e|];
        }
      }
    }
  }

  /** When two secrets share a key, the longer encoding continues with a
      padding byte where the shorter one ends. */
  lemma SharedKeyPadding(a: string, b: string)
    requires SigningKey(Some(a)) == SigningKey(Some(b))
    ensures |Utf8(a)| < |Utf8(b)| ==> Utf8(b)[|Utf8(a)|] == 0
  {
    var key := SigningKey(Some(a)).value;
    var ua, ub := Utf8(a), Utf8(b);
    if |ua| < |ub| {
      assert ub[|ua|] == key[|ua|];
    }
  }

  lemma ShorterKeyPrefix(a: string, b: string)
    requires forall i :: 0 <= i < |b| ==> b[i] != 0 as char
    requires SigningKey(Some(a)) == SigningKey(Some(b))
    requires |Utf8(a)| <= |Utf8(b)|
    ensures a == b
  {
    var key := SigningKey(Some(a)).value;
    var ua, ub := Utf8(a), Utf8(b);
    Utf8NoZeroByte(b);
    SharedKeyPadding(a, b);
    assert |ua| == |ub|;
    assert ua == key[..|ua|] == ub;
    Utf8Injective(a, b);
  }

  /** Secrets without NUL characters have different keys. */
  lemma SigningKeyInjective(a: string, b: string)
    requires forall i :: 0 <= i < |a| ==> a[i] != 0 as char
    requires forall i :: 0 <= i < |b| ==> b[i] != 0 as char
    requires SigningKey(Some(a)) == SigningKey(Some(b))
    ensures a == b
  {
    if |Utf8(a)| <= |Utf8(b)| {
      ShorterKeyPrefix(a, b);
    } else {
      ShorterKeyPrefix(b, a);
    }
  }

  /** The zero padding makes a short secret and the same secret followed
      by NUL characters sign alike. */
  lemma SigningKeyIgnoresTrailingNul(s: string)
    requires |Utf8(s)| < MinKeyLength
    ensures SigningKey(Some(s + [0 as char])) == SigningKey(Some(s))
  {
    var u := Utf8(s);
    var u2 := Utf8(s + [0 as char]);
    Utf8Append(s, [0 as char]);
    Utf8OfNul();
    assert u2 == u + [0 as byte];
    var n := MinKeyLength - |u|;
    PaddedKey(s);
    PaddedKey(s + [0 as char]);
    assert Zeros(n) == [0 as byte] + Zeros(n - 1);
    assert u + Zeros(n) == (u + [0 as byte]) + Zeros(n - 1);
  }

  /** A secret of at most 32 bytes is padded to exactly 32. */
  lemma PaddedKey(s: string)
    requires |Utf8(s)| <= MinKeyLength
    ensures SigningKey(Some(s)) == Ok(Utf8(s) + Zeros(MinKeyLength - |Utf8(s)|))
  {
    if |Utf8(s)| == MinKeyLength {
      assert Utf8(s) + Zeros(0) == Utf8(s);
    }
  }

  lemma Utf8OfNul()
    ensures Utf8([0 as char]) == [0 as byte]
  {
    assert EncodeChar(0 as char) == [0 as byte];
    assert [0 as char][1..] == [];
  }



  /** The claims a token carries; instants are milliseconds since the
      epoch. */
  datatype Claims = Claims(subject: Option<string>, issuedAt: int, expiration: Option<int>)

  /** The two exception classes `validateToken` and the blacklist catch. */
  datatype Rejection = JwtRejection | IllegalArgumentRejection

  /** What the provider's operations can end in: a parser rejection, or a
      `NullPointerException` from `Objects.requireNonNull`. */
  datatype TokenFailure = Rejected(why: Rejection) | MissingValue(message: string)

  /** The JWT library: `sign` builds a compact HS256 token under a key,
      `parse` checks a token's signature and expiry against a key at an
      instant. */
  datatype JwtCodec = JwtCodec(
    sign: (Claims, seq<byte>) -> string,
    parse: (string, seq<byte>, int) -> Result<Claims, Rejection>)

  /** JWT dates are whole seconds: `Date.getTime() / 1000` truncates
      toward zero. */
  function WholeSeconds(ms: int): (r: int)
    ensures r % 1000 == 0
    ensures 0 <= ms ==> 0 <= r <= ms < r + 1000
  {
    if ms >= 0 then ms / 1000 * 1000 else -((-ms) / 1000 * 1000)
  }

  /** What a signed token reads back as. */
  function ReadBack(c: Claims): Claims {
    Claims(c.subject, WholeSeconds(c.issuedAt),
           if c.expiration.Some? then Some(WholeSeconds(c.expiration.value)) else None)
  }

  /** The library reads a token it signed, under the same key and before
      the token expires, back as its claims. */
  ghost predicate Faithful(codec: JwtCodec) {
    forall c: Claims, key: seq<byte>, now: int ::
      c.expiration.Some? && now <= WholeSeconds(c.expiration.value) ==>
        codec.parse(codec.sign(c, key), key, now) == Ok(ReadBack(c))
  }

  /** `generateToken`: the subject is the authentication's name (a null
      name is refused before anything else), issued now, expiring
      `expiration` milliseconds later in `long` arithmetic. */
  function GenerateToken(codec: JwtCodec, secret: Option<string>, expiration: int, name: Option<string>, now: int)
    : (r: Result<string, TokenFailure>)
    requires IsLong(expiration) && IsLong(now)
    ensures name.None? ==> r == Err(MissingValue(NameRequired))
    ensures name.Some? && secret.None? ==> r == Err(MissingValue(SecretRequired))
    ensures r.Ok? <==> name.Some? && secret.Some?
    ensures r.Ok? ==> r.value == codec.sign(Claims(name, now, Some(Long(now + expiration))), SigningKey(secret).value)
  {
    if name.None? then Err(MissingValue(NameRequired))
    else match SigningKey(secret)
      case Err(e) => Err(e)
      case Ok(key) => Ok(codec.sign(Claims(name, now, Some(Long(now + expiration))), key))
  }

  /** The expiry instant of a token issued at `now`: the sum when it fits
      in a `long`. */
  lemma ExpiryIsSum(now: int, expiration: int)
    requires IsLong(now + expiration)
    ensures Long(now + expiration) == now + expiration
  {
  }

  /** An expiration so large that the sum overflows puts the expiry in the
      past. */
  lemma HugeExpirationWraps(now: int)
    requires 0 < now <= LongMax
    ensures Long(now + LongMax) < now
  {
    assert Long(now + LongMax) == now + LongMax - 0x1_0000_0000_0000_0000;
  }

  /** `parseClaims`. */
  function ParseClaims(codec: JwtCodec, secret: Option<string>, token: string, now: int)
    : (r: Result<Claims, TokenFailure>)
    ensures secret.None? ==> r == Err(MissingValue(SecretRequired))
    ensures secret.Some? && codec.parse(token, SigningKey(secret).value, now).Ok? ==>
              r == Ok(codec.parse(token, SigningKey(secret).value, now).value)
    ensures secret.Some? && codec.parse(token, SigningKey(secret).value, now).Err? ==>
              r == Err(Rejected(codec.parse(token, SigningKey(secret).value, now).error))
  {
    match SigningKey(secret)
    case Err(e) => Err(e)
    case Ok(key) =>
      match codec.parse(token, key, now)
      case Ok(c) => Ok(c)
      case Err(why) => Err(Rejected(why))
  }

  /** `getUsernameFromToken`. */
  function GetUsername(codec: JwtCodec, secret: Option<string>, token: string, now: int)
    : (r: Result<string, TokenFailure>)
    ensures r.Ok? <==> ParseClaims(codec, secret, token, now).Ok? && ParseClaims(codec, secret, token, now).value.subject.Some?
    ensures r.Ok? ==> Some(r.value) == ParseClaims(codec, secret, token, now).value.subject
    ensures ParseClaims(codec, secret, token, now).Ok? && r.Err? ==> r.error == MissingValue(SubjectMissing)
  {
    match ParseClaims(codec, secret, token, now)
    case Err(e) => Err(e)
    case Ok(c) => if c.subject.None? then Err(MissingValue(SubjectMissing)) else Ok(c.subject.value)
  }

  /** `getExpirationDate`. */
  function GetExpiration(codec: JwtCodec, secret: Option<string>, token: string, now: int)
    : (r: Result<int, TokenFailure>)
    ensures r.Ok? <==> ParseClaims(codec, secret, token, now).Ok? && ParseClaims(codec, secret, token, now).value.expiration.Some?
    ensures r.Ok? ==> Some(r.value) == ParseClaims(codec, secret, token, now).value.expiration
    ensures ParseClaims(codec, secret, token, now).Ok? && r.Err? ==> r.error == MissingValue(ExpirationMissing)
  {
    match ParseClaims(codec, secret, token, now)
    case Err(e) => Err(e)
    case Ok(c) => if c.expiration.None? then Err(MissingValue(ExpirationMissing)) else Ok(c.expiration.value)
  }

  /** `validateToken`: parser rejections become `false`; a missing secret
      still throws. */
  function ValidateToken(codec: JwtCodec, secret: Option<string>, token: string, now: int)
    : (r: Result<bool, TokenFailure>)
    ensures r.Err? <==> secret.None?
    ensures r == Ok(true) <==> ParseClaims(codec, secret, token, now).Ok?
  {
    match ParseClaims(codec, secret, token, now)
    case Ok(_) => Ok(true)
    case Err(Rejected(_)) => Ok(false)
    case Err(e) => Err(e)
  }

  /** A token the provider generated is valid until it expires and names
      the user it was generated for. */
  lemma GeneratedTokenReadsBack(codec: JwtCodec, secret: string, expiration: int, name: string, issued: int, now: int)
    requires Faithful(codec) && IsLong(expiration) && IsLong(issued)
    requires now <= WholeSeconds(Long(issued + expiration))
    ensures var token := GenerateToken(codec, Some(secret), expiration, Some(name), issued).value;
            ValidateToken(codec, Some(secret), token, now) == Ok(true)
            && GetUsername(codec, Some(secret), token, now) == Ok(name)
            && GetExpiration(codec, Some(secret), token, now) == Ok(WholeSeconds(Long(issued + expiration)))
  {
    var c := Claims(Some(name), issued, Some(Long(issued + expiration)));
    var key := SigningKey(Some(secret)).value;
    assert codec.parse(codec.sign(c, key), key, now) == Ok(ReadBack(c));
  }

  // ---------------------------------------------------------------------
  // TokenBlacklistService

  const BlacklistPrefix: string := "auth:blacklist:"

  /** The Redis keys that exist, each with the instant it expires at. */
  type Store = map<string, int>

  function BlacklistKey(token: string): (k: string)
    ensures BlacklistPrefix <= k && k[|BlacklistPrefix|..] == token
  {
    BlacklistPrefix + token
  }

  lemma BlacklistKeyInjective(a: string, b: string)
    requires BlacklistKey(a) == BlacklistKey(b)
    ensures a == b
  {
    assert a == BlacklistKey(a)[|BlacklistPrefix|..];
  }

  /** `getRemainingTtlMillis`: expiry minus now in `long` arithmetic; a
      token the parser rejects counts as 0. A token without an expiry
      throws. */
  function RemainingTtl(codec: JwtCodec, secret: Option<string>, token: string, now: int)
    : (r: Result<int, TokenFailure>)
    requires IsLong(now)
    ensures GetExpiration(codec, secret, token, now).Ok? ==>
              r == Ok(Long(GetExpiration(codec, secret, token, now).value - now))
    ensures GetExpiration(codec, secret, token, now).Err? && GetExpiration(codec, secret, token, now).error.Rejected? ==>
              r == Ok(0)
    ensures r.Err? <==> GetExpiration(codec, secret, token, now).Err? && GetExpiration(codec, secret, token, now).error.MissingValue?
  {
    match GetExpiration(codec, secret, token, now)
    case Ok(exp) => Ok(Long(exp - now))
    case Err(Rejected(_)) => Ok(0)
    case Err(e) => Err(e)
  }

  /** `blacklistToken`: a token with text and a positive remaining
      lifetime is stored under its key for that long; `written` says
      whether the store accepted the write (a failed write is logged and
      ignored). */
  function BlacklistToken(store: Store, codec: JwtCodec, secret: Option<string>, token: Option<string>, now: int, written: bool)
    : (r: Result<Store, TokenFailure>)
    requires IsLong(now)
    ensures !HasText(token) ==> r == Ok(store)
    ensures HasText(token) ==>
              (match RemainingTtl(codec, secret, token.value, now)
               case Err(e) => r == Err(e)
               case Ok(ttl) =>
                 if ttl <= 0 || !written then r == Ok(store)
                 else r == Ok(store[BlacklistKey(token.value) := now + ttl]))
  {
    if !HasText(token) then Ok(store)
    else match RemainingTtl(codec, secret, token.value, now)
      case Err(e) => Err(e)
      case Ok(ttl) =>
        if ttl <= 0 || !written then Ok(store)
        else Ok(store[BlacklistKey(token.value) := now + ttl])
  }

  /** `isBlacklisted`: the token has text and its key has not expired. */
  function IsBlacklisted(store: Store, token: Option<string>, now: int): (b: bool)
    // a missing or blank token is never blacklisted
    ensures !HasText(token) ==> !b
    // otherwise it is exactly when its prefixed key is still live
    ensures HasText(token) ==>
              (b <==> BlacklistKey(token.value) in store && now < store[BlacklistKey(token.value)])
  {
    HasText(token) && BlacklistKey(token.value) in store && now < store[BlacklistKey(token.value)]
  }

  /** Blank tokens are never blacklisted and never written. */
  lemma BlankTokenIgnored(store: Store, codec: JwtCodec, secret: Option<string>, token: Option<string>, now: int, written: bool)
    requires IsLong(now) && !HasText(token)
    ensures BlacklistToken(store, codec, secret, token, now, written) == Ok(store)
    ensures !IsBlacklisted(store, token, now)
  {
  }

  /** Logging out with a token the provider issued blacklists it from
      that moment until its expiry, and from then on no longer; other
      tokens are unaffected. */
  lemma LogoutBlacklistsUntilExpiry(
    store: Store, codec: JwtCodec, secret: string, expiration: int, name: string, issued: int,
    now: int, later: int, other: Option<string>)
    requires Faithful(codec) && IsLong(expiration) && IsLong(issued) && 0 <= now
    requires now < WholeSeconds(Long(issued + expiration))
    requires other.Some? ==> other.value != GenerateToken(codec, Some(secret), expiration, Some(name), issued).value
    ensures var token := GenerateToken(codec, Some(secret), expiration, Some(name), issued).value;
            var exp := WholeSeconds(Long(issued + expiration));
            var r := BlacklistToken(store, codec, Some(secret), Some(token), now, true);
            HasText(Some(token)) ==>
              r.Ok?
              && (IsBlacklisted(r.value, Some(token), later) <==> later < exp)
              && (IsBlacklisted(r.value, other, later) <==> IsBlacklisted(store, other, later))
  {
    var token := GenerateToken(codec, Some(secret), expiration, Some(name), issued).value;
    var exp := WholeSeconds(Long(issued + expiration));
    GeneratedTokenReadsBack(codec, secret, expiration, name, issued, now);
    assert IsLong(exp - now);
    assert RemainingTtl(codec, Some(secret), token, now) == Ok(exp - now);
    if other.Some? && BlacklistKey(other.value) == BlacklistKey(token) {
      BlacklistKeyInjective(other.value, token);
    }
  }

  /** A rejected token, or one whose lifetime is over, writes nothing. */
  lemma ExpiredOrInvalidNotStored(store: Store, codec: JwtCodec, secret: string, token: string, now: int, written: bool)
    requires IsLong(now) && HasText(Some(token))
    requires ParseClaims(codec, Some(secret), token, now).Err?
             || (GetExpiration(codec, Some(secret), token, now).Ok?
                 && IsLong(GetExpiration(codec, Some(secret), token, now).value - now)
                 && GetExpiration(codec, Some(secret), token, now).value <= now)
    ensures BlacklistToken(store, codec, Some(secret), Some(token), now, written) == Ok(store)
  {
  }
}

=== FILE: session.dfy ===
/** The client's authentication context (client/src/context/AuthContext.tsx)
    as a state machine.

    A `Session` joins the React state (`token`, `user`), the ref that holds
    the id of the auto-logout timer, and the parts of the browser it
    touches: local storage and the window's pending timeouts, each with the
    instant (milliseconds) at which it fires. The clock is the parameter
    `now`; the token decoder is an oracle (see `AuthToken`). */
module Session {
  import opened Wrappers
  import opened AuthToken

  datatype Session = Session(
    token: Option<string>,
    user: Option<string>,
    timerRef: Option<nat>,
    storage: Storage,
    pending: map<nat, int>,
    nextTimerId: nat)

  const InvalidTokenMessage: string := "Invalid or expired token"

  /** Timer ids are positive and fresh ids are above every issued one; the
      only timer the window may hold is the one the ref points at. This
      is the "at most one auto-logout timer" invariant. */
  predicate Valid(s: Session) {
    && s.nextTimerId >= 1
    && (forall id :: id in s.pending ==> 1 <= id < s.nextTimerId)
    && (s.timerRef.Some? ==> 1 <= s.timerRef.value < s.nextTimerId)
    && (forall id :: id in s.pending ==> s.timerRef == Some(id))
  }

  /** At most one timer is outstanding in a valid session. */
  lemma AtMostOneTimer(s: Session)
    requires Valid(s)
    ensures |s.pending| <= 1
  {
    if s.pending != map[] {
      var a :| a in s.pending;
      assert s.pending.Keys == {a};
    }
  }

  /** `isAuthenticated`: the token is truthy. */
  predicate IsAuthenticated(s: Session) {
    s.token.Some? && s.token.value != ""
  }

  /** `user` as derived from a username: `username ? {username} : null`. */
  function UserOf(name: string): (u: Option<string>)
    ensures u.Some? <==> name != ""
    ensures u.Some? ==> u.value == name
  {
    if name == "" then None else Some(name)
  }

  /** `buildInitialState`, run once when the provider mounts (before any
      timer exists): a missing, undecodable or expired stored token gives a
      logged-out state, and the last two also clear the storage. */
  function BuildInitialState(st: Storage, decode: Decoder, now: int): (s: Session)
    ensures Valid(s) && s.timerRef.None? && s.pending == map[]
    ensures GetStoredToken(st).None? || GetStoredToken(st) == Some("")
            ==> s.token.None? && s.user.None? && s.storage == st
    ensures GetStoredToken(st).Some? && GetStoredToken(st) != Some("")
            && (decode(st[TokenKey]).None? || IsTokenExpired(decode(st[TokenKey]), now))
            ==> s.token.None? && s.user.None? && s.storage == ClearStoredToken(st)
    ensures s.token.Some? ==> s.token == GetStoredToken(st) && s.storage == st
                              && s.token.value != ""
                              && decode(s.token.value).Some?
                              && !IsTokenExpired(decode(s.token.value), now)
                              && s.user == UserOf(UsernameFromPayload(decode(s.token.value)))
  {
    var stored := GetStoredToken(st);
    if stored.None? || stored.value == "" then
      Session(None, None, None, st, map[], 1)
    else
      var payload := decode(stored.value);
      if payload.None? || IsTokenExpired(payload, now) then
        Session(None, None, None, ClearStoredToken(st), map[], 1)
      else
        Session(stored, UserOf(UsernameFromPayload(payload)), None, st, map[], 1)
  }

  /** `clearLogoutTimer`: cancels the timer the ref points at. */
  function ClearLogoutTimer(s: Session): (r: Session)
    requires Valid(s)
    ensures Valid(r) && r.timerRef.None? && r.pending == map[]
    ensures r.token == s.token && r.user == s.user && r.storage == s.storage
  {
    if s.timerRef.Some? then
      s.(timerRef := None, pending := s.pending - {s.timerRef.value})
    else
      assert s.pending == map[] by {
        forall id | id in s.pending ensures false { }
      }
      s
  }

  /** `logout`: cancel the timer, clear the stored token, forget the
      token and the user. Other storage keys are untouched. */
  function Logout(s: Session): (r: Session)
    requires Valid(s)
    ensures Valid(r) && r.timerRef.None? && r.pending == map[]
    ensures r.token.None? && r.user.None? && r.storage == ClearStoredToken(s.storage)
    ensures !IsAuthenticated(r)
  {
    var c := ClearLogoutTimer(s);
    c.(token := None, user := None, storage := ClearStoredToken(c.storage))
  }

  /** Logging out twice is logging out once. */
  lemma LogoutIdempotent(s: Session)
    requires Valid(s)
    ensures Logout(Logout(s)) == Logout(s)
  {
    var l := Logout(s);
    assert ClearStoredToken(l.storage) == l.storage;
  }

  /** The delay a window timer really waits for a requested one. The HTML
      standard's timer initialisation steps take the delay as a Web IDL
      `long`, which wraps it modulo 2^32 and reads it as signed, and then
      treat a negative delay as 0. So a delay of 2^31 ms (about 24.8 days)
      or more does not wait that long. */
  function TimerDelay(timeout: int): (d: int)
    ensures 0 <= d < 0x8000_0000
    // a delay that fits is kept
    ensures 0 <= timeout < 0x8000_0000 ==> d == timeout
    // one that wraps to a negative value fires at once
    ensures 0x8000_0000 <= timeout < 0x1_0000_0000 ==> d == 0
    // a positive delay is never lengthened
    ensures timeout > 0 ==> d <= timeout
  {
    var w := timeout % 0x1_0000_0000;
    if w >= 0x8000_0000 then 0 else w
  }

  /** The instant the auto-logout timer armed at `now` for an expiry
      instant fires. */
  function LogoutDue(expiry: int, now: int): (due: int)
    ensures expiry > now ==> now <= due <= expiry
    ensures now < expiry < now + 0x8000_0000 ==> due == expiry
    ensures now + 0x8000_0000 <= expiry < now + 0x1_0000_0000 ==> due == now
  {
    now + TimerDelay(expiry - now)
  }

  /** Outcome of `scheduleLogout`: either it armed one timer, did nothing
      beyond cancelling, or logged out at once. */
  function ScheduleLogout(s: Session, expiration: Option<int>, now: int): (r: Session)
    requires Valid(s)
    ensures Valid(r)
    // the previous timer is always cancelled
    ensures s.timerRef.Some? ==> s.timerRef.value !in r.pending
    // no (truthy) expiration: no timer is armed and nothing else changes
    ensures expiration.None? || expiration.value == 0
            ==> r.pending == map[] && r.timerRef.None?
                && r.token == s.token && r.user == s.user && r.storage == s.storage
    // an expiration already reached logs out at once
    ensures expiration.Some? && expiration.value != 0 && expiration.value - now <= 0
            ==> r == Logout(s)
    // otherwise exactly one timer is armed, due no later than the
    // expiration, and due at it exactly when the delay fits a `long`
    ensures expiration.Some? && expiration.value != 0 && expiration.value - now > 0
            ==> r.timerRef.Some? && r.pending == map[r.timerRef.value := LogoutDue(expiration.value, now)]
                && r.token == s.token && r.user == s.user && r.storage == s.storage
    ensures expiration.Some? && expiration.value != 0 && 0 < expiration.value - now < 0x8000_0000
            ==> r.timerRef.Some? && r.pending == map[r.timerRef.value := expiration.value]
  {
    var c := ClearLogoutTimer(s);
    if expiration.None? || expiration.value == 0 then c
    else
      var timeout := expiration.value - now;
      if timeout <= 0 then Logout(c)
      else
        var id := c.nextTimerId;
        c.(timerRef := Some(id), pending := map[id := now + TimerDelay(timeout)], nextTimerId := id + 1)
  }

  /** Result of `login`: the next session and the message of the error it
      rethrows, if any. */
  datatype LoginOutcome = LoginOutcome(next: Session, thrown: Option<string>)

  /** `login(newToken)`. An undecodable or expired token throws
      "Invalid or expired token"; the catch clause clears the stored token
      and rethrows. Otherwise the token is persisted, the state is set and
      the logout is rescheduled from the `exp` claim. */
  function Login(s: Session, decode: Decoder, newToken: string, now: int): (o: LoginOutcome)
    requires Valid(s)
    ensures Valid(o.next)
    ensures o.thrown.Some? <==> decode(newToken).None? || IsTokenExpired(decode(newToken), now)
    // failure: only the stored token is affected
    ensures o.thrown.Some? ==>
              o.thrown.value == InvalidTokenMessage
              && o.next == s.(storage := ClearStoredToken(s.storage))
    // success: persisted, in state, and at most one timer, due when the
    // window fires it for the expiry
    ensures o.thrown.None? ==>
              && o.next.token == Some(newToken)
              && o.next.user == UserOf(UsernameFromPayload(decode(newToken)))
              && o.next.storage == PersistToken(s.storage, newToken)
              && (ExpirationMillis(decode(newToken)).None? ==> o.next.pending == map[])
              && (ExpirationMillis(decode(newToken)).Some? ==>
                    o.next.timerRef.Some?
                    && o.next.pending
                       == map[o.next.timerRef.value := LogoutDue(ExpirationMillis(decode(newToken)).value, now)])
  {
    var payload := decode(newToken);
    if payload.None? || IsTokenExpired(payload, now) then
      LoginOutcome(s.(storage := ClearStoredToken(s.storage)), Some(InvalidTokenMessage))
    else
      var armed := s.(token := Some(newToken),
                    user := UserOf(UsernameFromPayload(payload)),
                    storage := PersistToken(s.storage, newToken));
      LoginOutcome(ScheduleLogout(armed, ExpirationMillis(payload), now), None)
  }

  /** The effect that runs whenever `authState.token` changes (and once
      after mounting): no token cancels the timer; an undecodable or
      expired one logs out; otherwise the logout is rescheduled. */
  function TokenEffect(s: Session, decode: Decoder, now: int): (r: Session)
    requires Valid(s)
    ensures Valid(r)
    ensures !IsAuthenticated(s) ==> r == ClearLogoutTimer(s)
    ensures IsAuthenticated(s)
            && (decode(s.token.value).None? || IsTokenExpired(decode(s.token.value), now))
            ==> r == Logout(s)
    ensures IsAuthenticated(s) && r.token.Some? ==> r.token == s.token && r.user == s.user
    // a live token: the previous timer is cancelled and logout rescheduled
    // from its expiry, with token, user and storage kept
    ensures IsAuthenticated(s) && decode(s.token.value).Some? && !IsTokenExpired(decode(s.token.value), now)
            ==> r.token == s.token && r.user == s.user && r.storage == s.storage
                && (s.timerRef.Some? ==> s.timerRef.value !in r.pending)
                && (ExpirationMillis(decode(s.token.value)).None? ==> r.pending == map[] && r.timerRef.None?)
                && (ExpirationMillis(decode(s.token.value)).Some? ==>
                      r.timerRef.Some?
                      && r.pending == map[r.timerRef.value := LogoutDue(ExpirationMillis(decode(s.token.value)).value, now)])
  {
    if !IsAuthenticated(s) then ClearLogoutTimer(s)
    else
      var payload := decode(s.token.value);
      if payload.None? || IsTokenExpired(payload, now) then Logout(s)
      else ScheduleLogout(s, ExpirationMillis(payload), now)
  }

  /** The clock reaching `now`: if the pending auto-logout timer is due it
      fires and its callback logs out; otherwise nothing happens. */
  function Tick(s: Session, now: int): (r: Session)
    requires Valid(s)
    ensures Valid(r)
    ensures forall id :: id in s.pending && s.pending[id] <= now ==> r == Logout(s)
    ensures (forall id :: id in s.pending ==> s.pending[id] > now) ==> r == s
  {
    if s.timerRef.Some? && s.timerRef.value in s.pending
       && s.pending[s.timerRef.value] <= now then
      var fired := s.(pending := s.pending - {s.timerRef.value});
      Logout(fired)
    else s
  }

  /** A successful login followed by the token effect it triggers still
      leaves exactly one timer, due when the window fires it for the
      token's expiry (at the expiry itself when it is less than 2^31 ms
      away): rescheduling replaces the timer rather than adding a second
      one. */
  lemma {:induction false} LoginThenEffectKeepsOneTimer(s: Session, decode: Decoder, t: string, now: int)
    requires Valid(s) && t != ""
    requires Login(s, decode, t, now).thrown.None?
    requires ExpirationMillis(decode(t)).Some?
    ensures var r := TokenEffect(Login(s, decode, t, now).next, decode, now);
            r.token == Some(t) && r.timerRef.Some?
            && r.pending == map[r.timerRef.value := LogoutDue(ExpirationMillis(decode(t)).value, now)]
            && (ExpirationMillis(decode(t)).value - now < 0x8000_0000 ==>
                  r.pending == map[r.timerRef.value := ExpirationMillis(decode(t)).value])
  {
    var n := Login(s, decode, t, now).next;
    assert IsAuthenticated(n);
    var p := decode(t);
    assert !IsTokenExpired(p, now);
    assert ExpirationMillis(p).value - now > 0;
  }

  /** A session whose token is set was started or logged in with a token
      the decoder accepted; once its expiry instant is reached, the pending
      timer (armed by `Login`) logs it out. */
  lemma {:induction false} ExpiredLoginIsLoggedOut(s: Session, decode: Decoder, t: string, now: int, later: int)
    requires Valid(s)
    requires Login(s, decode, t, now).thrown.None?
    requires ExpirationMillis(decode(t)).Some? && ExpirationMillis(decode(t)).value <= later
    ensures !IsAuthenticated(Tick(Login(s, decode, t, now).next, later))
  {
    var n := Login(s, decode, t, now).next;
    assert n.timerRef.value in n.pending;
  }

  /** A token whose expiry lies between 2^31 and 2^32 ms ahead is logged
      out as soon as the clock next ticks: the wrapped delay is 0. */
  lemma {:induction false} LongLifetimeLogsOutAtOnce(s: Session, decode: Decoder, t: string, now: int)
    requires Valid(s) && t != ""
    requires Login(s, decode, t, now).thrown.None?
    requires ExpirationMillis(decode(t)).Some?
    requires now + 0x8000_0000 <= ExpirationMillis(decode(t)).value < now + 0x1_0000_0000
    ensures IsAuthenticated(Login(s, decode, t, now).next)
    ensures !IsAuthenticated(Tick(Login(s, decode, t, now).next, now))
  {
    var n := Login(s, decode, t, now).next;
    assert n.timerRef.value in n.pending;
  }
}

=== FILE: student_service.dfy ===
/** The student services of both back ends: lookup by id, by project, by
    exact code and by name, and create, update and delete. The two trees
    differ only in the name query and in what a missing project id does. */
module StudentService {
  import opened Wrappers
  import opened Text
  import opened Domain
  import opened Validation
  import ProjectService

  const StudentNotFound: string := "Student not found"
  const CodeCannotBeEmpty: string := "Code cannot be empty"
  const ProjectIdRequired: string := "Project ID is required"

  /** The database accepts a student exactly when its code, names, title
      and project are set and no other row holds its code or its
      (first name, last name) pair. */
  predicate StudentAcceptable(rows: seq<Row<Student>>, self: nat, s: Student) {
    s.codeNumber.Some? && s.firstName.Some? && s.lastName.Some? && s.title.Some? && s.projectId.Some?
    && (forall i :: 0 <= i < |rows| && rows[i].id != self ==> rows[i].value.codeNumber != s.codeNumber)
    && (forall i :: 0 <= i < |rows| && rows[i].id != self
                    ==> (rows[i].value.firstName, rows[i].value.lastName) != (s.firstName, s.lastName))
  }

  lemma StudentSaveRefused(rows: seq<Row<Student>>, self: nat, s: Student)
    ensures (exists k :: 0 <= k < |StudentConstraints| && Breaks(rows, self, s, StudentConstraints[k]))
            <==> !StudentAcceptable(rows, self, s)
  {
    var code := StudentConstraints[5].key;
    var name := StudentConstraints[6].key;
    assert forall q: Student :: code(q) == [q.codeNumber];
    assert forall q: Student :: name(q) == [q.firstName, q.lastName];
    assert forall q: Student :: name(q) == name(s) <==> (q.firstName, q.lastName) == (s.firstName, s.lastName) by {
      forall q: Student
        ensures name(q) == name(s) <==> (q.firstName, q.lastName) == (s.firstName, s.lastName)
      {
        if name(q) == name(s) {
          assert name(q)[0] == name(s)[0] && name(q)[1] == name(s)[1];
        }
      }
    }
    assert Breaks(rows, self, s, StudentConstraints[0]) <==> s.codeNumber.None?;
    assert Breaks(rows, self, s, StudentConstraints[1]) <==> s.firstName.None?;
    assert Breaks(rows, self, s, StudentConstraints[2]) <==> s.lastName.None?;
    assert Breaks(rows, self, s, StudentConstraints[3]) <==> s.title.None?;
    assert Breaks(rows, self, s, StudentConstraints[4]) <==> s.projectId.None?;
  }

  /** `getStudentById` (both trees). */
  function GetStudent(db: Db, id: int): (r: Result<Row<Student>, Failure>)
    ensures r.Err? <==> !HasId(db.students.rows, id)
    ensures r.Err? ==> r.error == NotFound(StudentNotFound)
    ensures r.Ok? ==> r.value in db.students.rows && r.value.id == id
  {
    match FindById(db.students.rows, id)
    case None => Err(NotFound(StudentNotFound))
    case Some(row) => Ok(row)
  }

  /** `searchByCode` (both trees): a null or blank code (after Java's
      trim) is refused before any lookup; otherwise the code is looked up
      exactly as given, without trimming. */
  function SearchByCode(db: Db, code: Option<string>): (r: Result<Row<Student>, Failure>)
    ensures code.None? || AllSpace(JavaTrimSpace, code.value) ==> r == Err(IllegalArgument(CodeCannotBeEmpty))
    ensures code.Some? && !AllSpace(JavaTrimSpace, code.value) ==>
              (r.Ok? <==> exists x :: x in db.students.rows && x.value.codeNumber == code)
    ensures r.Ok? ==> r.value in db.students.rows && r.value.value.codeNumber == code
    ensures r.Err? && code.Some? && !AllSpace(JavaTrimSpace, code.value) ==> r.error == NotFound(StudentNotFound)
  {
    if code.None? || Trim(JavaTrimSpace, code.value) == "" then Err(IllegalArgument(CodeCannotBeEmpty))
    else match StudentByCode(db.students.rows, code.value)
      case None => Err(NotFound(StudentNotFound))
      case Some(row) => Ok(row)
  }

  /** With unique codes, searching a stored student's code finds exactly
      that student. */
  lemma SearchByCodeFindsStored(db: Db, x: Row<Student>)
    requires DbConsistent(db) && x in db.students.rows
    requires x.value.codeNumber.Some? && !AllSpace(JavaTrimSpace, x.value.codeNumber.value)
    ensures SearchByCode(db, x.value.codeNumber) == Ok(x)
  {
    StudentByCodeUnique(db.students, x.value.codeNumber.value, x);
  }

  /** The code is not trimmed before the lookup: a padded code finds
      nothing when only the unpadded code is stored. */
  lemma PaddedCodeNotFound(db: Db, code: string)
    requires !AllSpace(JavaTrimSpace, code)
    requires forall x :: x in db.students.rows ==> x.value.codeNumber != Some(" " + code)
    ensures SearchByCode(db, Some(" " + code)) == Err(NotFound(StudentNotFound))
  {
    assert (" " + code)[1..] == code;
  }

  /** `getStudentsByProject` (both trees). */
  function StudentsByProject(db: Db, projectId: int): (r: seq<Row<Student>>)
    ensures forall x :: x in r <==> x in db.students.rows && InProject(x.value.projectId, projectId)
  {
    StudentsOfProject(db.students.rows, projectId)
  }

  /** The newer `searchByNameAndProject`: the name search's results whose
      project has the given id, in the same order. */
  function SearchByNameAndProject(db: Db, name: string, projectId: int): (r: seq<Row<Student>>)
    ensures forall x :: x in r <==> x in SearchByName(db.students.rows, name) && InProject(x.value.projectId, projectId)
  {
    Keep(SearchByName(db.students.rows, name), (x: Row<Student>) => InProject(x.value.projectId, projectId))
  }

  /** Filtering the name search by project is one pass over the table with
      both conditions. */
  lemma SearchByNameAndProjectOnePass(db: Db, name: string, projectId: int)
    ensures SearchByNameAndProject(db, name, projectId)
            == Keep(db.students.rows, (x: Row<Student>) => NameMatches(x.value, name) && InProject(x.value.projectId, projectId))
  {
    var p := (x: Row<Student>) => NameMatches(x.value, name);
    var q := (x: Row<Student>) => InProject(x.value.projectId, projectId);
    KeepKeep(db.students.rows, p, q,
             (x: Row<Student>) => NameMatches(x.value, name) && InProject(x.value.projectId, projectId));
  }

  /** The older `searchByNameAndProject`, over the older name search. */
  function LegacySearchByNameAndProject(db: Db, name: string, projectId: int): (r: seq<Row<Student>>)
    ensures forall x :: x in r <==> x in LegacySearchByName(db.students.rows, name) && InProject(x.value.projectId, projectId)
  {
    Keep(LegacySearchByName(db.students.rows, name), (x: Row<Student>) => InProject(x.value.projectId, projectId))
  }

  /** The student built from a request: the six fields as sent, the
      resolved project and the creation time. */
  function NewStudent(req: StudentRequest, projectId: nat, now: int): Student {
    Student(req.codeNumber, req.firstName, req.lastName, req.dateOfBirth, req.title, req.description,
            Some(projectId), Some(now))
  }

  /** The six request fields written over a stored student; its project and
      creation time stay. */
  function Overwritten(s: Student, req: StudentRequest): Student {
    s.(codeNumber := req.codeNumber, firstName := req.firstName, lastName := req.lastName,
       dateOfBirth := req.dateOfBirth, title := req.title, description := req.description)
  }

  /** Stores a new student in a stored project. */
  function StoreNewStudent(db: Db, project: Row<Project>, req: StudentRequest, now: int): (r: Result<(Db, Row<Student>), Failure>)
    requires project in db.projects.rows
    ensures r.Err? <==> !StudentAcceptable(db.students.rows, db.students.nextId, NewStudent(req, project.id, now))
    ensures r.Err? ==> r.error.DataIntegrity?
    ensures r.Ok? ==> r.value.1 == Row(db.students.nextId, NewStudent(req, project.id, now))
                      && r.value.0 == db.(students := Insert(db.students, r.value.1.value).0)
    ensures r.Ok? && DbConsistent(db) ==> DbConsistent(r.value.0)
    ensures r.Ok? && StudentsReferenced(db) ==> StudentsReferenced(r.value.0)
  {
    var s := NewStudent(req, project.id, now);
    StudentSaveRefused(db.students.rows, db.students.nextId, s);
    match Save(db.students, None, s, StudentConstraints)
    case Err(e) => Err(e)
    case Ok(saved) =>
      var db' := db.(students := saved.0);
      assert StudentsReferenced(db) ==> StudentsReferenced(db') by {
        var i :| 0 <= i < |db.projects.rows| && db.projects.rows[i] == project;
        assert forall x :: x in db'.students.rows ==> x in db.students.rows || x == saved.1;
      }
      Ok((db', saved.1))
  }

  /** The newer `createStudent`: a null project id throws, an unknown
      project is not found and nothing is stored; otherwise one student is
      added with the request's six fields and that project. The database
      may still refuse it. */
  function CreateStudent(db: Db, req: StudentRequest, now: int): (r: Result<(Db, Row<Student>), Failure>)
    ensures req.projectId.None? ==> r == Err(NullPointer(ProjectIdRequired))
    ensures req.projectId.Some? && !HasId(db.projects.rows, req.projectId.value)
            ==> r == Err(NotFound(ProjectService.ProjectNotFound))
    ensures req.projectId.Some? && HasId(db.projects.rows, req.projectId.value) ==>
              (r.Err? <==> !StudentAcceptable(db.students.rows, db.students.nextId,
                                              NewStudent(req, req.projectId.value as nat, now)))
    ensures r.Ok? ==> req.projectId.Some? && req.projectId.value >= 0
                      && r.value.1 == Row(db.students.nextId, NewStudent(req, req.projectId.value as nat, now))
                      && r.value.0 == db.(students := Insert(db.students, r.value.1.value).0)
    ensures r.Ok? && DbConsistent(db) ==> DbConsistent(r.value.0)
    ensures r.Ok? && StudentsReferenced(db) ==> StudentsReferenced(r.value.0)
  {
    if req.projectId.None? then Err(NullPointer(ProjectIdRequired))
    else match ProjectService.GetProject(db, req.projectId.value)
      case Err(e) => Err(e)
      case Ok(project) => StoreNewStudent(db, project, req, now)
  }

  /** The older `createStudent`: the same, except that a null project id
      reaches the repository, which refuses a null identity with an
      exception no handler maps. */
  function LegacyCreateStudent(db: Db, req: StudentRequest, now: int): (r: Result<(Db, Row<Student>), Failure>)
    ensures req.projectId.None? ==> r == Err(Other)
    ensures req.projectId.Some? ==> r == CreateStudent(db, req, now)
  {
    if req.projectId.None? then Err(Other)
    else match ProjectService.GetProject(db, req.projectId.value)
      case Err(e) => Err(e)
      case Ok(project) => StoreNewStudent(db, project, req, now)
  }

  /** A student whose fields are all set but whose code another student
      holds is refused with the code's constraint, even when the names
      clash too: that constraint is checked first. */
  lemma DuplicateCodeRefused(db: Db, req: StudentRequest, now: int, other: Row<Student>)
    requires req.projectId.Some? && HasId(db.projects.rows, req.projectId.value)
    requires req.codeNumber.Some? && req.firstName.Some? && req.lastName.Some? && req.title.Some?
    requires other in db.students.rows && other.value.codeNumber == req.codeNumber
    requires ValidTable(db.students)
    ensures CreateStudent(db, req, now) == Err(ConstraintError(StudentConstraints[5]))
  {
    var s := NewStudent(req, req.projectId.value as nat, now);
    var rows := db.students.rows;
    var i :| 0 <= i < |rows| && rows[i] == other;
    assert rows[i].id != db.students.nextId;
    assert StudentConstraints[5].key(s) == [s.codeNumber];
    assert StudentConstraints[5].key(rows[i].value) == [rows[i].value.codeNumber];
    assert Breaks(rows, db.students.nextId, s, StudentConstraints[5]);
    CodeClashRefused(db.students, s);
  }

  /** Saving a student with every required column set whose code clashes
      is refused with the code's key: the NOT NULL columns and that key
      come before the name key. */
  lemma CodeClashRefused(t: Table<Student>, s: Student)
    requires s.codeNumber.Some? && s.firstName.Some? && s.lastName.Some? && s.title.Some? && s.projectId.Some?
    requires Breaks(t.rows, t.nextId, s, StudentConstraints[5])
    ensures Save(t, None, s, StudentConstraints) == Err(ConstraintError(StudentConstraints[5]))
  {
    var rows := t.rows;
    assert !Breaks(rows, t.nextId, s, StudentConstraints[0]);
    assert !Breaks(rows, t.nextId, s, StudentConstraints[1]);
    assert !Breaks(rows, t.nextId, s, StudentConstraints[2]);
    assert !Breaks(rows, t.nextId, s, StudentConstraints[3]);
    assert !Breaks(rows, t.nextId, s, StudentConstraints[4]);
    SaveRefusedWith(t, s, StudentConstraints, 5);
  }

  /** A created student is found by its code. */
  lemma CreateThenSearchByCode(db: Db, req: StudentRequest, now: int)
    requires DbConsistent(db) && CreateStudent(db, req, now).Ok?
    requires !AllSpace(JavaTrimSpace, req.codeNumber.GetOr(""))
    ensures var r := CreateStudent(db, req, now).value;
            SearchByCode(r.0, req.codeNumber) == Ok(r.1)
  {
    var r := CreateStudent(db, req, now).value;
    assert r.1 in r.0.students.rows;
    assert Holds(r.0.students.rows, StudentConstraints[0]);
    SearchByCodeFindsStored(r.0, r.1);
  }

  /** `updateStudent` (both trees): an unknown id is not found; otherwise
      the six request fields are written and the project and creation
      time are kept, whatever project id the request carries. */
  function UpdateStudent(db: Db, id: int, req: StudentRequest): (r: Result<(Db, Row<Student>), Failure>)
    ensures !HasId(db.students.rows, id) ==> r == Err(NotFound(StudentNotFound))
    ensures HasId(db.students.rows, id) ==>
              var prev := FindById(db.students.rows, id).value;
              (r.Err? <==> !StudentAcceptable(db.students.rows, prev.id, Overwritten(prev.value, req)))
    ensures r.Ok? ==> var prev := FindById(db.students.rows, id).value;
                      r.value.1 == Row(prev.id, Overwritten(prev.value, req))
                      && r.value.1.value.projectId == prev.value.projectId
                      && r.value.0 == db.(students := Table(Put(db.students.rows, r.value.1), db.students.nextId))
    ensures r.Ok? && DbConsistent(db) ==> DbConsistent(r.value.0)
    ensures r.Ok? && StudentsReferenced(db) ==> StudentsReferenced(r.value.0)
  {
    match FindById(db.students.rows, id)
    case None => Err(NotFound(StudentNotFound))
    case Some(row) =>
      var s := Overwritten(row.value, req);
      StudentSaveRefused(db.students.rows, row.id, s);
      match Save(db.students, Some(row.id), s, StudentConstraints)
      case Err(e) => Err(e)
      case Ok(saved) =>
        var db' := db.(students := saved.0);
        assert StudentsReferenced(db) ==> StudentsReferenced(db') by {
          PutMembers(db.students.rows, saved.1);
        }
        Ok((db', saved.1))
  }

  /** `deleteStudent` (both trees): an unknown id is not found; otherwise
      exactly that student is removed. */
  function DeleteStudent(db: Db, id: int): (r: Result<Db, Failure>)
    ensures r.Err? <==> !HasId(db.students.rows, id)
    ensures r.Err? ==> r.error == NotFound(StudentNotFound)
    ensures r.Ok? ==> (forall x :: x in r.value.students.rows <==> x in db.students.rows && x.id != id)
                      && !HasId(r.value.students.rows, id)
                      && r.value == db.(students := r.value.students)
    ensures r.Ok? && DbConsistent(db) ==> DbConsistent(r.value)
    ensures r.Ok? && StudentsReferenced(db) ==> StudentsReferenced(r.value)
  {
    match FindById(db.students.rows, id)
    case None => Err(NotFound(StudentNotFound))
    case Some(row) =>
      var db' := db.(students := Table(Remove(db.students.rows, row.id), db.students.nextId));
      assert DbConsistent(db) ==> DbConsistent(db') by {
        if DbConsistent(db) {
          RemoveConsistent(db.students, row.id, StudentConstraints);
        }
      }
      Ok(db')
  }

  /** A deleted student is gone. */
  lemma DeleteThenGet(db: Db, id: int)
    requires DeleteStudent(db, id).Ok?
    ensures GetStudent(DeleteStudent(db, id).value, id) == Err(NotFound(StudentNotFound))
  {
  }
}

=== FILE: students_page.dfy ===
/** The student list page of the older client (src/pages/StudentsPage.tsx):
    the form defaults, the payload sent on add and update, the guards on
    update and delete, and the message shown after a search. */
module StudentsPage {
  import opened Wrappers
  import opened Text
  import opened CollectionHooks

  /** The student form's values. The type says every text field is a
      string, but the edit form is reset from a stored student, whose
      description may be `null`; `None` is that `null`. */
  datatype StudentFormValues = StudentFormValues(
    codeNumber: string,
    firstName: string,
    lastName: string,
    dateOfBirth: string,
    title: string,
    description: Option<string>,
    projectId: int)

  /** A partial set of form values; `None` is a property that is absent.
      A description that is present but `null` is `Some(None)`. */
  datatype Overrides = Overrides(
    codeNumber: Option<string>,
    firstName: Option<string>,
    lastName: Option<string>,
    dateOfBirth: Option<string>,
    title: Option<string>,
    description: Option<Option<string>>,
    projectId: Option<int>)

  const NoOverrides: Overrides := Overrides(None, None, None, None, None, None, None)

  /** Every property of `v` present, as when a whole student is spread. */
  function AllOf(v: StudentFormValues): (o: Overrides)
    ensures o.codeNumber.Some? && o.firstName.Some? && o.lastName.Some? && o.dateOfBirth.Some?
    ensures o.title.Some? && o.description.Some? && o.projectId.Some?
  {
    Overrides(Some(v.codeNumber), Some(v.firstName), Some(v.lastName), Some(v.dateOfBirth),
              Some(v.title), Some(v.description), Some(v.projectId))
  }

  /** `buildStudentDefaults(projectId, overrides)`: every text field empty
      and the given project, with each present override taking precedence,
      even a present `null`. */
  function BuildStudentDefaults(projectId: int, o: Overrides): (v: StudentFormValues)
    // a present property wins
    ensures o.codeNumber.Some? ==> v.codeNumber == o.codeNumber.value
    ensures o.firstName.Some? ==> v.firstName == o.firstName.value
    ensures o.lastName.Some? ==> v.lastName == o.lastName.value
    ensures o.dateOfBirth.Some? ==> v.dateOfBirth == o.dateOfBirth.value
    ensures o.title.Some? ==> v.title == o.title.value
    ensures o.description.Some? ==> v.description == o.description.value
    ensures o.projectId.Some? ==> v.projectId == o.projectId.value
    // an absent one leaves the default: empty text, the given project
    ensures o.codeNumber.None? ==> v.codeNumber == ""
    ensures o.firstName.None? ==> v.firstName == ""
    ensures o.lastName.None? ==> v.lastName == ""
    ensures o.dateOfBirth.None? ==> v.dateOfBirth == ""
    ensures o.title.None? ==> v.title == ""
    ensures o.description.None? ==> v.description == Some("")
    ensures o.projectId.None? ==> v.projectId == projectId
  {
    StudentFormValues(o.codeNumber.GetOr(""), o.firstName.GetOr(""), o.lastName.GetOr(""),
                      o.dateOfBirth.GetOr(""), o.title.GetOr(""), o.description.GetOr(Some("")),
                      o.projectId.GetOr(projectId))
  }

  /** Without overrides the six text fields are empty. */
  lemma PlainDefaults(projectId: int)
    ensures BuildStudentDefaults(projectId, NoOverrides)
            == StudentFormValues("", "", "", "", "", Some(""), projectId)
  {
  }

  /** Spreading a whole student over the defaults gives back that student,
      `null` description included, whatever project the route names: the
      edit form shows the stored record and not the route's project. */
  lemma EditDefaultsAreTheStudent(routeProjectId: int, stored: StudentFormValues)
    ensures BuildStudentDefaults(routeProjectId, AllOf(stored)) == stored
  {
  }

  /** `{ ...values, projectId: numericProjectId }`: the route's project
      replaces whatever the form holds; the other fields are sent as
      entered. */
  function Payload(values: StudentFormValues, routeProjectId: int): (p: StudentFormValues)
    ensures p.projectId == routeProjectId
    ensures p.(projectId := values.projectId) == values
  {
    values.(projectId := routeProjectId)
  }

  /** The id `onUpdateStudent` would update, or `None` when it returns at
      once: no student is being edited or its id is missing or zero. */
  function UpdateTarget(editing: Option<Option<int>>): (r: Option<int>)
    ensures r.Some? <==> editing.Some? && editing.value.Some? && editing.value.value != 0
    ensures r.Some? ==> r == editing.value
  {
    if editing.Some? && editing.value.Some? && editing.value.value != 0 then editing.value else None
  }

  /** The id `confirmDelete` would delete, or `None` when the dialog holds
      no id (or id 0); the dialog is closed in every case. */
  function DeleteTarget(studentId: Option<int>): (r: Option<int>)
    ensures r.Some? <==> studentId.Some? && studentId.value != 0
    ensures r.Some? ==> r == studentId
  {
    if studentId.Some? && studentId.value != 0 then studentId else None
  }

  const EnterSearchTerm: string := "Enter a search term"
  const SearchFailedMessage: string := "Search failed. Please try again."

  /** The message after a search that found `count` students for the
      trimmed query `q`. */
  function ResultMessage(q: string, count: nat): (m: string)
    ensures count == 0 && AllDigits(q) ==> m == "No student found with ID: " + q
    ensures count == 0 && !AllDigits(q) ==> m == "No students found matching: " + q
    ensures count == 1 ==> m == "Found 1 student"
    ensures count > 1 ==> m == "Found " + NatToString(count) + " students"
  {
    if count == 0 then
      if AllDigits(q) then "No student found with ID: " + q else "No students found matching: " + q
    else
      "Found " + NatToString(count) + " student" + (if count > 1 then "s" else "")
  }

  /** What the search area shows. */
  datatype SearchUi = SearchUi(message: string, active: bool)

  /** `onSearch`: the outcome of `handleSearchStudents(trimmed)` is an
      oracle input (`Ok` with the count, or `Err` when it rejected). */
  function OnSearch(ui: SearchUi, query: string, outcome: Result<SearchResult, string>): (r: SearchUi)
    ensures AllSpace(EcmaSpace, query) ==> r == ui.(message := EnterSearchTerm)
    ensures !AllSpace(EcmaSpace, query) && outcome.Ok? ==>
              r.active && r.message == ResultMessage(Trim(EcmaSpace, query), outcome.value.count)
    ensures !AllSpace(EcmaSpace, query) && outcome.Err? ==>
              r == ui.(message := SearchFailedMessage)
  {
    var trimmed := Trim(EcmaSpace, query);
    if trimmed == "" then ui.(message := EnterSearchTerm)
    else
      match outcome
      case Ok(res) => SearchUi(ResultMessage(trimmed, res.count), true)
      case Err(_) => ui.(message := SearchFailedMessage)
  }

  /** The page hands the hook a trimmed, non-blank query, so the hook always
      takes its search path, never its reload path, and the count the page
      reports is the number of students now listed. */
  lemma {:induction false} PageSearchUsesSearchPath<T>(s: HookState<T>, query: string,
                                                      search: Remote<Option<seq<T>>>,
                                                      reload: Remote<Option<seq<T>>>)
    requires !AllSpace(EcmaSpace, query)
    ensures var o := SearchStudents(s, Trim(EcmaSpace, query), search, reload);
            o.calls == [Search(Trim(EcmaSpace, query))]
            && (o.result.Ok? ==> o.result.value.count == |o.state.items|)
  {
    var t := Trim(EcmaSpace, query);
    assert t != [];
    TrimIdempotent(EcmaSpace, query);
    assert !AllSpace(EcmaSpace, t);
  }

  /** Number of leading decimal digits of `s`. */
  function DigitRun(s: string): (n: nat)
    ensures n <= |s|
    decreases |s|
  {
    if s == [] || !IsDigit(s[0]) then 0 else 1 + DigitRun(s[1..])
  }

  /** Digits followed by a non-digit: the run of digits is exactly them. */
  lemma {:induction false} DigitRunOfDigits(a: string, x: string)
    requires forall i :: 0 <= i < |a| ==> IsDigit(a[i])
    requires |x| > 0 && !IsDigit(x[0])
    ensures DigitRun(a + x) == |a|
    decreases |a|
  {
    if a == [] {
      assert a + x == x;
    } else {
      assert (a + x)[0] == a[0];
      assert (a + x)[1..] == a[1..] + x;
      DigitRunOfDigits(a[1..], x);
    }
  }

  /** Digits followed by a non-digit: the digits are determined. */
  lemma DigitPrefixUnique(a: string, x: string, b: string, y: string)
    requires forall i :: 0 <= i < |a| ==> IsDigit(a[i])
    requires forall i :: 0 <= i < |b| ==> IsDigit(b[i])
    requires |x| > 0 && !IsDigit(x[0]) && |y| > 0 && !IsDigit(y[0])
    requires a + x == b + y
    ensures a == b
  {
    DigitRunOfDigits(a, x);
    DigitRunOfDigits(b, y);
    assert a == (a + x)[..|a|];
    assert b == (b + y)[..|b|];
  }

  /** The "Found N student(s)" message determines N. */
  lemma {:induction false} FoundMessageDeterminesCount(q: string, n: nat, m: nat)
    requires n > 0 && m > 0
    requires ResultMessage(q, n) == ResultMessage(q, m)
    ensures n == m
  {
    var dn := NatToString(n);
    var dm := NatToString(m);
    var tn := " student" + (if n > 1 then "s" else "");
    var tm := " student" + (if m > 1 then "s" else "");
    assert ResultMessage(q, n) == "Found " + (dn + tn);
    assert ResultMessage(q, m) == "Found " + (dm + tm);
    assert dn + tn == ResultMessage(q, n)[6..];
    assert dm + tm == ResultMessage(q, m)[6..];
    DigitPrefixUnique(dn, tn, dm, tm);
    NatToStringRoundTrip(n);
    NatToStringRoundTrip(m);
  }
}

=== FILE: task_service.dfy ===
/** The task service of the older back end: lookup by id, by project and by
    code (or its alias `am`), create, update, and a delete that reports
    whether anything was removed. */
module TaskService {
  import opened Wrappers
  import opened Text
  import opened Domain
  import opened Validation
  import ProjectService

  const TaskNotFound: string := "Task not found"
  const ProvideCodeOrAm: string := "Provide ?code= or ?am="

  /** The database accepts a task exactly when its title, status and
      project are set and no other row holds its (present) code. */
  predicate TaskAcceptable(rows: seq<Row<Task>>, self: nat, t: Task) {
    t.title.Some? && t.status.Some? && t.projectId.Some?
    && (t.codeNumber.Some? ==> forall i :: 0 <= i < |rows| && rows[i].id != self ==> rows[i].value.codeNumber != t.codeNumber)
  }

  lemma TaskSaveRefused(rows: seq<Row<Task>>, self: nat, t: Task)
    ensures (exists k :: 0 <= k < |TaskConstraints| && Breaks(rows, self, t, TaskConstraints[k]))
            <==> !TaskAcceptable(rows, self, t)
  {
    var code := TaskConstraints[3].key;
    assert forall q: Task :: code(q) == [q.codeNumber];
    assert |code(t)| == 1 && code(t)[0] == t.codeNumber;
    assert Keyed(code(t)) <==> t.codeNumber.Some?;
    assert Breaks(rows, self, t, TaskConstraints[0]) <==> t.title.None?;
    assert Breaks(rows, self, t, TaskConstraints[1]) <==> t.status.None?;
    assert Breaks(rows, self, t, TaskConstraints[2]) <==> t.projectId.None?;
  }

  /** `getTaskById`. */
  function GetTask(db: Db, id: int): (r: Result<Row<Task>, Failure>)
    ensures r.Err? <==> !HasId(db.tasks.rows, id)
    ensures r.Err? ==> r.error == NotFound(TaskNotFound)
    ensures r.Ok? ==> r.value in db.tasks.rows && r.value.id == id
  {
    match FindById(db.tasks.rows, id)
    case None => Err(NotFound(TaskNotFound))
    case Some(row) => Ok(row)
  }

  /** `getTasksByProject`. */
  function TasksByProject(db: Db, projectId: int): (r: seq<Row<Task>>)
    ensures forall x :: x in r <==> x in db.tasks.rows && InProject(x.value.projectId, projectId)
  {
    TasksOfProject(db.tasks.rows, projectId)
  }

  /** The tasks whose code equals `code`; a null code is compared with
      `IS NULL`, as derived queries do. */
  function CodeMatches(rows: seq<Row<Task>>, code: Option<string>): (r: seq<Row<Task>>)
    ensures forall x :: x in r <==> x in rows && x.value.codeNumber == code
  {
    Keep(rows, (x: Row<Task>) => x.value.codeNumber == code)
  }

  /** `findByCodeNumber` returning an optional: no match is not found, one
      match is the result, and several matches make the repository throw. */
  function FindByCode(rows: seq<Row<Task>>, code: Option<string>): (r: Result<Row<Task>, Failure>)
    ensures r.Ok? <==> |CodeMatches(rows, code)| == 1
    ensures r.Ok? ==> r.value in rows && r.value.value.codeNumber == code
    ensures r == Err(NotFound(TaskNotFound)) <==> forall x :: x in rows ==> x.value.codeNumber != code
    ensures r.Err? && r.error != NotFound(TaskNotFound) ==> r.error == Other
  {
    var m := CodeMatches(rows, code);
    if |m| == 0 then Err(NotFound(TaskNotFound))
    else if |m| == 1 then (assert m[0] in m; Ok(m[0]))
    else (assert m[0] in m; Err(Other))
  }

  /** In a consistent table a present code matches at most one task. */
  lemma CodeMatchesAtMostOne(t: Table<Task>, code: string)
    requires Consistent(t, TaskConstraints)
    ensures |CodeMatches(t.rows, Some(code))| <= 1
  {
    var p := (x: Row<Task>) => x.value.codeNumber == Some(code);
    var m := CodeMatches(t.rows, Some(code));
    KeepKeepsValid(t, p);
    assert Holds(t.rows, TaskConstraints[3]);
    forall i, j | 0 <= i < |m| && 0 <= j < |m|
      ensures m[i].id == m[j].id
    {
      assert m[i] in m && m[j] in m;
      assert TaskConstraints[3].key(m[i].value) == [Some(code)] == TaskConstraints[3].key(m[j].value);
    }
    assert |m| > 0 ==> m[|m| - 1].id == m[0].id;
  }

  /** Looking up a stored task's present code finds that task. */
  lemma FindByCodeFindsStored(t: Table<Task>, x: Row<Task>)
    requires Consistent(t, TaskConstraints) && x in t.rows && x.value.codeNumber.Some?
    ensures FindByCode(t.rows, x.value.codeNumber) == Ok(x)
  {
    CodeMatchesAtMostOne(t, x.value.codeNumber.value);
    var m := CodeMatches(t.rows, x.value.codeNumber);
    assert x in m;
  }

  /** The query `searchByCodeOrAm` uses: `code` when it has a
      non-white-space character, else `am` when it does, else none. */
  function CodeOrAm(code: Option<string>, am: Option<string>): (q: Option<string>)
    ensures q.None? <==> !HasText(code) && !HasText(am)
    ensures HasText(code) ==> q == code
    ensures !HasText(code) && HasText(am) ==> q == am
  {
    if code.Some? && !IsBlank(code.value) then code
    else if am.Some? && !IsBlank(am.value) then am
    else None
  }

  /** `searchByCodeOrAm`: with neither parameter usable the request is
      refused; otherwise the chosen query is looked up exactly. */
  function SearchByCodeOrAm(db: Db, code: Option<string>, am: Option<string>): (r: Result<Row<Task>, Failure>)
    ensures !HasText(code) && !HasText(am) ==> r == Err(IllegalArgument(ProvideCodeOrAm))
    ensures HasText(code) ==> r == FindByCode(db.tasks.rows, code)
    ensures !HasText(code) && HasText(am) ==> r == FindByCode(db.tasks.rows, am)
  {
    match CodeOrAm(code, am)
    case None => Err(IllegalArgument(ProvideCodeOrAm))
    case Some(q) => FindByCode(db.tasks.rows, Some(q))
  }

  /** A blank `code` does not hide a usable `am`. */
  lemma BlankCodeFallsBackToAm(db: Db, code: string, x: Row<Task>)
    requires IsBlank(code) && Consistent(db.tasks, TaskConstraints)
    requires x in db.tasks.rows && HasText(x.value.codeNumber)
    ensures SearchByCodeOrAm(db, Some(code), x.value.codeNumber) == Ok(x)
  {
    FindByCodeFindsStored(db.tasks, x);
  }

  /** The compatibility `searchByCode`: the parameter is looked up as
      given, null included. */
  function SearchByCode(db: Db, code: Option<string>): (r: Result<Row<Task>, Failure>)
    // found exactly when one task carries the code, and then it is that task
    ensures r.Ok? <==> |CodeMatches(db.tasks.rows, code)| == 1
    ensures r.Ok? ==> r.value in db.tasks.rows && r.value.value.codeNumber == code
    // not found exactly when no task carries it; several make the lookup throw
    ensures r == Err(NotFound(TaskNotFound)) <==> forall x :: x in db.tasks.rows ==> x.value.codeNumber != code
    ensures r.Err? ==> r.error == NotFound(TaskNotFound) || r.error == Other
  {
    FindByCode(db.tasks.rows, code)
  }

  /** For a present code the two searches agree. */
  lemma SearchesAgree(db: Db, code: string)
    requires !IsBlank(code)
    ensures SearchByCodeOrAm(db, Some(code), None) == SearchByCode(db, Some(code))
  {
  }

  /** The task built from a request: seven fields as sent and the
      resolved project; priority and due date are never set. */
  function NewTask(req: TaskRequest, projectId: nat): Task {
    Task(req.codeNumber, req.firstName, req.lastName, req.dateOfBirth, req.title, req.description,
         req.status, None, None, Some(projectId))
  }

  /** The seven request fields written over a stored task. */
  function Overwritten(t: Task, req: TaskRequest): Task {
    t.(codeNumber := req.codeNumber, firstName := req.firstName, lastName := req.lastName,
       dateOfBirth := req.dateOfBirth, title := req.title, description := req.description,
       status := req.status)
  }

  /** `createTask`: a null project id reaches the repository, which
      refuses it; an unknown project is not found; otherwise one task is
      added, which the database may still refuse. */
  function CreateTask(db: Db, req: TaskRequest): (r: Result<(Db, Row<Task>), Failure>)
    ensures req.projectId.None? ==> r == Err(Other)
    ensures req.projectId.Some? && !HasId(db.projects.rows, req.projectId.value)
            ==> r == Err(NotFound(ProjectService.ProjectNotFound))
    ensures req.projectId.Some? && HasId(db.projects.rows, req.projectId.value) ==>
              (r.Err? <==> !TaskAcceptable(db.tasks.rows, db.tasks.nextId, NewTask(req, req.projectId.value as nat)))
    ensures r.Ok? ==> req.projectId.Some? && req.projectId.value >= 0
                      && r.value.1 == Row(db.tasks.nextId, NewTask(req, req.projectId.value as nat))
                      && r.value.1.value.priority.None? && r.value.1.value.dueDate.None?
                      && r.value.0 == db.(tasks := Insert(db.tasks, r.value.1.value).0)
    ensures r.Ok? && DbConsistent(db) ==> DbConsistent(r.value.0)
    ensures r.Ok? && TasksReferenced(db) ==> TasksReferenced(r.value.0)
  {
    if req.projectId.None? then Err(Other)
    else match ProjectService.GetProject(db, req.projectId.value)
      case Err(e) => Err(e)
      case Ok(project) =>
        var t := NewTask(req, project.id);
        TaskSaveRefused(db.tasks.rows, db.tasks.nextId, t);
        match Save(db.tasks, None, t, TaskConstraints)
        case Err(e) => Err(e)
        case Ok(saved) =>
          var db' := db.(tasks := saved.0);
          assert TasksReferenced(db) ==> TasksReferenced(db') by {
            var i :| 0 <= i < |db.projects.rows| && db.projects.rows[i] == project;
            assert forall x :: x in db'.tasks.rows ==> x in db.tasks.rows || x == saved.1;
          }
          Ok((db', saved.1))
  }

  /** A created task with a code is found by that code. */
  lemma CreateThenSearch(db: Db, req: TaskRequest)
    requires DbConsistent(db) && CreateTask(db, req).Ok? && HasText(req.codeNumber)
    ensures var r := CreateTask(db, req).value;
            SearchByCodeOrAm(r.0, req.codeNumber, None) == Ok(r.1)
  {
    var r := CreateTask(db, req).value;
    assert r.1 in r.0.tasks.rows;
    FindByCodeFindsStored(r.0.tasks, r.1);
  }

  /** `updateTask`: an unknown id is not found; otherwise the seven
      request fields are written and the project, priority and due date
      are kept. */
  function UpdateTask(db: Db, id: int, req: TaskRequest): (r: Result<(Db, Row<Task>), Failure>)
    ensures !HasId(db.tasks.rows, id) ==> r == Err(NotFound(TaskNotFound))
    ensures HasId(db.tasks.rows, id) ==>
              var prev := FindById(db.tasks.rows, id).value;
              (r.Err? <==> !TaskAcceptable(db.tasks.rows, prev.id, Overwritten(prev.value, req)))
    ensures r.Ok? ==> var prev := FindById(db.tasks.rows, id).value;
                      r.value.1 == Row(prev.id, Overwritten(prev.value, req))
                      && r.value.1.value.projectId == prev.value.projectId
                      && r.value.1.value.priority == prev.value.priority
                      && r.value.1.value.dueDate == prev.value.dueDate
                      && r.value.0 == db.(tasks := Table(Put(db.tasks.rows, r.value.1), db.tasks.nextId))
    ensures r.Ok? && DbConsistent(db) ==> DbConsistent(r.value.0)
    ensures r.Ok? && TasksReferenced(db) ==> TasksReferenced(r.value.0)
  {
    match FindById(db.tasks.rows, id)
    case None => Err(NotFound(TaskNotFound))
    case Some(row) =>
      var t := Overwritten(row.value, req);
      TaskSaveRefused(db.tasks.rows, row.id, t);
      match Save(db.tasks, Some(row.id), t, TaskConstraints)
      case Err(e) => Err(e)
      case Ok(saved) =>
        var db' := db.(tasks := saved.0);
        assert TasksReferenced(db) ==> TasksReferenced(db') by {
          PutMembers(db.tasks.rows, saved.1);
        }
        Ok((db', saved.1))
  }

  /** `deleteTask`: reports whether the id was stored; when it was, exactly
      that task is removed, and otherwise nothing changes. */
  function DeleteTask(db: Db, id: int): (r: (Db, bool))
    ensures r.1 <==> HasId(db.tasks.rows, id)
    ensures !r.1 ==> r.0 == db
    ensures r.1 ==> (forall x :: x in r.0.tasks.rows <==> x in db.tasks.rows && x.id != id)
                    && r.0 == db.(tasks := r.0.tasks)
    ensures !HasId(r.0.tasks.rows, id)
    ensures DbConsistent(db) ==> DbConsistent(r.0)
    ensures TasksReferenced(db) ==> TasksReferenced(r.0)
  {
    match FindById(db.tasks.rows, id)
    case None => (db, false)
    case Some(row) =>
      var db' := db.(tasks := Table(Remove(db.tasks.rows, row.id), db.tasks.nextId));
      assert DbConsistent(db) ==> DbConsistent(db') by {
        if DbConsistent(db) {
          RemoveConsistent(db.tasks, row.id, TaskConstraints);
        }
      }
      (db', true)
  }

  /** Deleting twice removes once: the second call reports false and
      changes nothing. */
  lemma DeleteTwice(db: Db, id: int)
    ensures var once := DeleteTask(db, id).0;
            DeleteTask(once, id) == (once, false)
  {
  }
}

=== FILE: tasks_page.dfy ===
/** The task list page of the older client (src/pages/TasksPage.tsx). Unlike
    the list hooks it edits its list locally after each successful call:
    appending a created task, replacing an updated one, filtering out a
    deleted one. */
module TasksPage {
  import opened Wrappers
  import opened Text
  import opened ErrorMessage
  import opened CollectionHooks

  /** A task as the page holds it, also used as the form's value. */
  datatype Task = Task(
    id: Option<int>,
    codeNumber: string,
    firstName: string,
    lastName: string,
    dateOfBirth: string,
    title: string,
    description: string,
    status: string,
    priority: string,
    dueDate: string,
    projectId: int)

  datatype Severity = Success | Error

  /** What the snackbar displays: normally text, but a failed create shows
      `error.response.data` as it is, which may be a JSON object. */
  datatype Shown = ShownText(text: string) | ShownObject(body: Body)

  datatype Notice = Notice(shown: Shown, severity: Severity)

  /** The page state; `projectId` is the route parameter as a number. */
  datatype Page = Page(
    tasks: seq<Task>,
    form: Task,
    editingId: Option<int>,
    notice: Option<Notice>,
    loading: bool,
    projectId: int)

  /** Remote calls the page makes. */
  datatype TaskCall =
    | ListTasks(projectId: int)
    | CreateTask(form: Task)
    | UpdateTask(id: int, form: Task)
    | DeleteTask(id: int)
    | ByCode(query: string)
    | ByName(query: string)

  datatype PageOutcome = PageOutcome(page: Page, calls: seq<TaskCall>)

  const MissingFields: string := "Συμπλήρωσε όλα τα υποχρεωτικά πεδία!"
  const Added: string := "Υπάλληλος προστέθηκε επιτυχώς!"
  const AddFailed: string := "Αποτυχία δημιουργίας υπαλλήλου"
  const Updated: string := "Υπάλληλος ενημερώθηκε επιτυχώς!"
  const UpdateFailed: string := "Αποτυχία ενημέρωσης υπαλλήλου"
  const Deleted: string := "Υπάλληλος διαγράφηκε επιτυχώς!"
  const DeleteFailed: string := "Αποτυχία διαγραφής υπαλλήλου"
  const LoadFailed: string := "Αποτυχία φόρτωσης υπαλλήλων"
  const NothingFound: string := "Δεν βρέθηκαν αποτελέσματα"

  /** The empty form: blank fields, status "ACTIVE", priority "MEDIUM" and
      the route's project. */
  function EmptyForm(projectId: int): (f: Task)
    ensures f.id.None? && f.status == "ACTIVE" && f.priority == "MEDIUM"
    ensures f.projectId == projectId
    ensures f.codeNumber == f.firstName == f.lastName == f.dateOfBirth == ""
    ensures f.title == f.description == f.dueDate == ""
  {
    Task(None, "", "", "", "", "", "", "ACTIVE", "MEDIUM", "", projectId)
  }

  function Show(p: Page, msg: string, sev: Severity): Page {
    p.(notice := Some(Notice(ShownText(msg), sev)))
  }

  /** `fetchTasks`: the project's tasks replace the list; on failure the
      list stays and an error is shown. */
  function FetchTasks(p: Page, r: Remote<seq<Task>>): (o: PageOutcome)
    ensures o.calls == [ListTasks(p.projectId)] && !o.page.loading
    ensures r.Resolved? ==> o.page.tasks == r.value
    ensures r.Rejected? ==> o.page.tasks == p.tasks
                            && o.page.notice == Some(Notice(ShownText(LoadFailed), Error))
  {
    match r
    case Resolved(data) => PageOutcome(p.(tasks := data, loading := false), [ListTasks(p.projectId)])
    case Rejected(_) => PageOutcome(Show(p, LoadFailed, Error).(loading := false), [ListTasks(p.projectId)])
  }

  /** The form lacks a required field: first name, last name or code is
      empty once trimmed. */
  predicate MissingRequired(f: Task) {
    AllSpace(EcmaSpace, f.firstName) || AllSpace(EcmaSpace, f.lastName)
    || AllSpace(EcmaSpace, f.codeNumber)
  }

  /** The create failure message: `error.response?.data || fallback`. */
  function AddFailureShown(e: Caught): (s: Shown)
    ensures BodyOf(e).TextBody? && BodyOf(e).text != "" ==> s == ShownText(BodyOf(e).text)
    ensures BodyOf(e).ObjectBody? ==> s == ShownObject(BodyOf(e))
    ensures BodyOf(e).NoBody? || BodyOf(e) == TextBody("") ==> s == ShownText(AddFailed)
  {
    match BodyOf(e)
    case TextBody(t) => if t != "" then ShownText(t) else ShownText(AddFailed)
    case ObjectBody(_, _) => ShownObject(BodyOf(e))
    case NoBody => ShownText(AddFailed)
  }

  /** `handleAdd`. */
  function HandleAdd(p: Page, r: Remote<Task>): (o: PageOutcome)
    // a missing field: no call, list unchanged
    ensures MissingRequired(p.form) ==>
              o.calls == [] && o.page.tasks == p.tasks
              && o.page.notice == Some(Notice(ShownText(MissingFields), Error))
    ensures !MissingRequired(p.form) ==> o.calls == [CreateTask(p.form)]
    // success: exactly the server's task is appended and the form is reset
    ensures !MissingRequired(p.form) && r.Resolved? ==>
              o.page.tasks == p.tasks + [r.value] && o.page.form == EmptyForm(p.projectId)
    // failure: list and form unchanged
    ensures !MissingRequired(p.form) && r.Rejected? ==>
              o.page.tasks == p.tasks && o.page.form == p.form
              && o.page.notice == Some(Notice(AddFailureShown(r.error), Error))
  {
    if Trim(EcmaSpace, p.form.firstName) == "" || Trim(EcmaSpace, p.form.lastName) == ""
       || Trim(EcmaSpace, p.form.codeNumber) == "" then
      PageOutcome(Show(p, MissingFields, Error), [])
    else
      match r
      case Resolved(newTask) =>
        PageOutcome(Show(p.(tasks := p.tasks + [newTask], form := EmptyForm(p.projectId)), Added, Success),
                    [CreateTask(p.form)])
      case Rejected(e) =>
        PageOutcome(p.(notice := Some(Notice(AddFailureShown(e), Error))), [CreateTask(p.form)])
  }

  /** `tasks.map(t => t.id === id ? updated : t)`. */
  function ReplaceById(ts: seq<Task>, id: int, u: Task): (r: seq<Task>)
    ensures |r| == |ts|
    ensures forall i :: 0 <= i < |ts| ==> r[i] == (if ts[i].id == Some(id) then u else ts[i])
  {
    if ts == [] then []
    else [if ts[0].id == Some(id) then u else ts[0]] + ReplaceById(ts[1..], id, u)
  }

  /** `tasks.filter(t => t.id !== id)`. */
  function RemoveById(ts: seq<Task>, id: int): (r: seq<Task>)
    ensures |r| <= |ts|
    ensures forall t :: t in r <==> t in ts && t.id != Some(id)
  {
    if ts == [] then []
    else if ts[0].id == Some(id) then RemoveById(ts[1..], id)
    else [ts[0]] + RemoveById(ts[1..], id)
  }

  /** The filter keeps the relative order of what it keeps: it works piece
      by piece. */
  lemma {:induction false} RemoveByIdAppend(a: seq<Task>, b: seq<Task>, id: int)
    ensures RemoveById(a + b, id) == RemoveById(a, id) + RemoveById(b, id)
    decreases |a|
  {
    if a == [] {
      assert a + b == b;
    } else {
      assert (a + b)[1..] == a[1..] + b;
      RemoveByIdAppend(a[1..], b, id);
    }
  }

  /** Updating an entry and then deleting it leaves what deleting it alone
      would: an update touches nothing but the entries with that id. */
  lemma {:induction false} ReplaceThenRemove(ts: seq<Task>, id: int, u: Task)
    requires u.id == Some(id)
    ensures RemoveById(ReplaceById(ts, id, u), id) == RemoveById(ts, id)
    decreases |ts|
  {
    if ts != [] {
      ReplaceThenRemove(ts[1..], id, u);
      assert ReplaceById(ts, id, u)[1..] == ReplaceById(ts[1..], id, u);
    }
  }

  /** `handleUpdate(id)`. */
  function HandleUpdate(p: Page, id: int, r: Remote<Task>): (o: PageOutcome)
    ensures o.calls == [UpdateTask(id, p.form)]
    ensures r.Resolved? ==>
              o.page.tasks == ReplaceById(p.tasks, id, r.value)
              && o.page.editingId.None? && o.page.form == EmptyForm(p.projectId)
    ensures r.Rejected? ==>
              o.page.tasks == p.tasks && o.page.form == p.form && o.page.editingId == p.editingId
              && o.page.notice == Some(Notice(ShownText(UpdateFailed), Error))
  {
    match r
    case Resolved(updated) =>
      var next := p.(tasks := ReplaceById(p.tasks, id, updated), editingId := None,
                     form := EmptyForm(p.projectId));
      PageOutcome(Show(next, Updated, Success), [UpdateTask(id, p.form)])
    case Rejected(_) => PageOutcome(Show(p, UpdateFailed, Error), [UpdateTask(id, p.form)])
  }

  /** `handleDelete(id)`; `confirmed` is the user's answer to the
      confirmation dialog. */
  function HandleDelete(p: Page, id: int, confirmed: bool, r: Remote<()>): (o: PageOutcome)
    ensures !confirmed ==> o.page == p && o.calls == []
    ensures confirmed ==> o.calls == [DeleteTask(id)]
    ensures confirmed && r.Resolved? ==> o.page.tasks == RemoveById(p.tasks, id)
    ensures confirmed && r.Rejected? ==>
              o.page.tasks == p.tasks && o.page.notice == Some(Notice(ShownText(DeleteFailed), Error))
  {
    if !confirmed then PageOutcome(p, [])
    else
      match r
      case Resolved(_) => PageOutcome(Show(p.(tasks := RemoveById(p.tasks, id)), Deleted, Success),
                                      [DeleteTask(id)])
      case Rejected(_) => PageOutcome(Show(p, DeleteFailed, Error), [DeleteTask(id)])
  }

  /** `handleSearch` with the query as typed: a blank query reloads the
      project's tasks; otherwise a code lookup, then a name search if that
      fails, and a notice if both fail. */
  function HandleSearch(p: Page, query: string, byCode: Remote<Task>, byName: Remote<seq<Task>>,
                        reload: Remote<seq<Task>>): (o: PageOutcome)
    ensures AllSpace(EcmaSpace, query) ==> o == FetchTasks(p, reload)
    ensures !AllSpace(EcmaSpace, query) && byCode.Resolved? ==>
              o.calls == [ByCode(query)] && o.page.tasks == [byCode.value]
    ensures !AllSpace(EcmaSpace, query) && byCode.Rejected? ==>
              o.calls == [ByCode(query), ByName(query)]
              && (byName.Resolved? ==> o.page.tasks == byName.value)
              && (byName.Rejected? ==>
                    o.page.tasks == p.tasks
                    && o.page.notice == Some(Notice(ShownText(NothingFound), Error)))
  {
    if Trim(EcmaSpace, query) == "" then FetchTasks(p, reload)
    else
      match byCode
      case Resolved(t) => PageOutcome(p.(tasks := [t]), [ByCode(query)])
      case Rejected(_) =>
        match byName
        case Resolved(ts) => PageOutcome(p.(tasks := ts), [ByCode(query), ByName(query)])
        case Rejected(_) => PageOutcome(Show(p, NothingFound, Error), [ByCode(query), ByName(query)])
  }
}

=== FILE: text.dfy ===
/** String helpers shared by the client and the server models.

    The application relies on four different notions of "white space",
    and they disagree on characters such as U+00A0 or U+001C, so each
    operation names the one it uses:
    - `EcmaSpace`: what JavaScript's `String.prototype.trim` strips and what
      `\s` matches in a JavaScript regular expression (WhiteSpace and
      LineTerminator of the ECMAScript grammar);
    - `JavaTrimSpace`: what `java.lang.String.trim` strips (every code point
      up to U+0020);
    - `JavaWhitespace`: `Character.isWhitespace`, used by `String.isBlank`
      and Spring's `StringUtils.hasText`;
    - `JavaRegexSpace`: `\s` in `java.util.regex` without the
      UNICODE_CHARACTER_CLASS flag. */
module Text {
  import opened Wrappers

  datatype Space = EcmaSpace | JavaTrimSpace | JavaWhitespace | JavaRegexSpace

  predicate IsSpace(k: Space, c: char) {
    var n := c as int;
    match k
    case EcmaSpace =>
      (0x09 <= n <= 0x0D) || n == 0x20 || n == 0xA0 || n == 0x1680
      || (0x2000 <= n <= 0x200A) || n == 0x2028 || n == 0x2029
      || n == 0x202F || n == 0x205F || n == 0x3000 || n == 0xFEFF
    case JavaTrimSpace =>
      n <= 0x20
    case JavaWhitespace =>
      (0x09 <= n <= 0x0D) || (0x1C <= n <= 0x20) || n == 0x1680
      || (0x2000 <= n <= 0x2006) || (0x2008 <= n <= 0x200A)
      || n == 0x2028 || n == 0x2029 || n == 0x205F || n == 0x3000
    case JavaRegexSpace =>
      (0x09 <= n <= 0x0D) || n == 0x20
  }

  /** Every character of `s` is white space of kind `k` (true of ""). */
  predicate AllSpace(k: Space, s: string) {
    forall i :: 0 <= i < |s| ==> IsSpace(k, s[i])
  }

  /** `s` neither starts nor ends with white space of kind `k`. */
  predicate Unpadded(k: Space, s: string) {
    s == [] || (!IsSpace(k, s[0]) && !IsSpace(k, s[|s| - 1]))
  }

  /** First index at or after `i` that is not white space. */
  function SkipForward(k: Space, s: string, i: nat): (j: nat)
    requires i <= |s|
    ensures i <= j <= |s|
    ensures forall m :: i <= m < j ==> IsSpace(k, s[m])
    ensures j < |s| ==> !IsSpace(k, s[j])
    decreases |s| - i
  {
    if i == |s| || !IsSpace(k, s[i]) then i else SkipForward(k, s, i + 1)
  }

  /** Smallest `e` in `lo..j` such that `s[e..j]` is all white space. */
  function SkipBackward(k: Space, s: string, lo: nat, j: nat): (e: nat)
    requires lo <= j <= |s|
    ensures lo <= e <= j
    ensures forall m :: e <= m < j ==> IsSpace(k, s[m])
    ensures e > lo ==> !IsSpace(k, s[e - 1])
    decreases j
  {
    if j == lo || !IsSpace(k, s[j - 1]) then j else SkipBackward(k, s, lo, j - 1)
  }

  /** The bounds `(b, e)` of the trimmed part of `s`: everything outside
      `s[b..e]` is white space and `s[b..e]` has none at either end. */
  function TrimBounds(k: Space, s: string): (p: (nat, nat))
    ensures p.0 <= p.1 <= |s|
    ensures forall m :: 0 <= m < p.0 ==> IsSpace(k, s[m])
    ensures forall m :: p.1 <= m < |s| ==> IsSpace(k, s[m])
    ensures p.0 < p.1 ==> !IsSpace(k, s[p.0]) && !IsSpace(k, s[p.1 - 1])
  {
    var b := SkipForward(k, s, 0);
    (b, SkipBackward(k, s, b, |s|))
  }

  /** `r` is `s` with nothing but white space of kind `k` cut off its two
      ends. */
  predicate CutFromEnds(k: Space, s: string, r: string) {
    exists i, j :: 0 <= i <= j <= |s| && r == s[i..j] && AllSpace(k, s[..i]) && AllSpace(k, s[j..])
  }

  /** `s` without leading and trailing white space of kind `k`. */
  function Trim(k: Space, s: string): (r: string)
    ensures |r| <= |s|
    ensures Unpadded(k, r)
    ensures r == [] <==> AllSpace(k, s)
    // the result is `s` with white space cut off both ends only
  {
    var p := TrimBounds(k, s);
    if p.0 == p.1 then assert AllSpace(k, s); s[p.0..p.1]
    else assert !IsSpace(k, s[p.0]); s[p.0..p.1]
  }

  /** Trimming only cuts white space off the two ends: the result is a
      slice of the input with nothing else before or after it. */
  lemma TrimCutsEnds(k: Space, s: string)
    ensures CutFromEnds(k, s, Trim(k, s))
  {
    var p := TrimBounds(k, s);
    assert AllSpace(k, s[..p.0]) && AllSpace(k, s[p.1..]);
    assert Trim(k, s) == s[p.0..p.1];
  }

  /** Trimming a string that has no surrounding white space returns it. */
  lemma TrimUnpadded(k: Space, s: string)
    requires Unpadded(k, s)
    ensures Trim(k, s) == s
  {
    var p := TrimBounds(k, s);
    if s != [] {
      assert p.0 == 0;
      assert p.1 == |s|;
    }
  }

  /** Trimming twice is trimming once. */
  lemma TrimIdempotent(k: Space, s: string)
    ensures Trim(k, Trim(k, s)) == Trim(k, s)
  {
    TrimUnpadded(k, Trim(k, s));
  }

  /** Trimming removes exactly the white space around an unpadded core. */
  lemma TrimSurrounded(k: Space, pre: string, t: string, post: string)
    requires AllSpace(k, pre) && AllSpace(k, post) && Unpadded(k, t) && t != []
    ensures Trim(k, pre + t + post) == t
  {
    var s := pre + t + post;
    var p := TrimBounds(k, s);
    assert s[|pre|] == t[0] && !IsSpace(k, s[|pre|]);
    assert s[|pre| + |t| - 1] == t[|t| - 1] && !IsSpace(k, s[|pre| + |t| - 1]);
    assert forall m :: 0 <= m < |pre| ==> s[m] == pre[m];
    assert forall m :: |pre| + |t| <= m < |s| ==> s[m] == post[m - |pre| - |t|];
    assert p.0 == |pre|;
    assert p.1 == |pre| + |t|;
    assert s[p.0..p.1] == t;
  }

  /** Java's `String.isBlank`: empty or only `Character.isWhitespace`. */
  predicate IsBlank(s: string) {
    AllSpace(JavaWhitespace, s)
  }

  /** Spring's `StringUtils.hasText`: non-null with a non-white-space character. */
  predicate HasText(s: Option<string>) {
    s.Some? && !IsBlank(s.value)
  }

  /** Java `String.contains` / JavaScript `String.prototype.includes`. */
  predicate Contains(s: string, t: string)
    decreases |s|
  {
    t <= s || (|s| > 0 && Contains(s[1..], t))
  }

  /** `t` occurring at position `i` of `s` makes `s` contain `t`. */
  lemma {:induction false} ContainsAt(s: string, t: string, i: nat)
    requires i + |t| <= |s| && s[i..i + |t|] == t
    ensures Contains(s, t)
    decreases i
  {
    if i == 0 {
      assert t <= s;
    } else {
      assert s[1..][i - 1..i - 1 + |t|] == s[i..i + |t|];
      ContainsAt(s[1..], t, i - 1);
    }
  }

  /** A string contains each of its prefixes, in particular itself. */
  lemma ContainsPrefix(s: string, t: string)
    requires t <= s
    ensures Contains(s, t)
  {
  }

  /** A string contains whatever a part of it contains. */
  lemma {:induction false} ContainsInConcat(a: string, b: string, t: string)
    requires Contains(b, t)
    ensures Contains(a + b, t)
    decreases |a|
  {
    if a == [] {
      assert a + b == b;
    } else {
      assert (a + b)[1..] == a[1..] + b;
      ContainsInConcat(a[1..], b, t);
    }
  }

  /** No character of `s` is `c`. */
  predicate Lacks(s: string, c: char) {
    forall i :: 0 <= i < |s| ==> s[i] != c
  }

  lemma LacksConcat(a: string, b: string, c: char)
    requires Lacks(a, c) && Lacks(b, c)
    ensures Lacks(a + b, c)
  {
    forall i | 0 <= i < |a + b|
      ensures (a + b)[i] != c
    {
      if i < |a| {
        assert (a + b)[i] == a[i];
      } else {
        assert (a + b)[i] == b[i - |a|];
      }
    }
  }

  /** A string containing `t` contains each character of `t`. */
  lemma {:induction false} ContainedChar(s: string, t: string, i: nat)
    requires Contains(s, t) && i < |t|
    ensures !Lacks(s, t[i])
    decreases |s|
  {
    if t <= s {
      assert s[i] == t[i];
    } else {
      ContainedChar(s[1..], t, i);
      var j :| 0 <= j < |s[1..]| && s[1..][j] == t[i];
      assert s[j + 1] == t[i];
    }
  }

  lemma ContainedCharOrNot(s: string, t: string, i: nat)
    requires i < |t|
    ensures Lacks(s, t[i]) ==> !Contains(s, t)
  {
    if Contains(s, t) {
      ContainedChar(s, t, i);
    }
  }

  function AsciiLowerChar(c: char): (d: char)
    ensures 'A' <= c <= 'Z' ==> d as int == c as int + 32
    ensures !('A' <= c <= 'Z') ==> d == c
  {
    if 'A' <= c <= 'Z' then (c as int + 32) as char else c
  }

  /** ASCII case folding, the model of SQL `LOWER` and of `IgnoreCase`. */
  function AsciiLower(s: string): (r: string)
    ensures |r| == |s|
    ensures forall i :: 0 <= i < |s| ==> r[i] == AsciiLowerChar(s[i])
  {
    if s == [] then [] else [AsciiLowerChar(s[0])] + AsciiLower(s[1..])
  }

  predicate EqualsIgnoreCase(a: string, b: string) {
    AsciiLower(a) == AsciiLower(b)
  }

  predicate ContainsIgnoreCase(s: string, t: string) {
    Contains(AsciiLower(s), AsciiLower(t))
  }

  predicate IsDigit(c: char) {
    '0' <= c <= '9'
  }

  predicate IsAsciiLetter(c: char) {
    ('A' <= c <= 'Z') || ('a' <= c <= 'z')
  }

  /** The regular expression `^[0-9]+$`. */
  predicate AllDigits(s: string) {
    |s| > 0 && forall i :: 0 <= i < |s| ==> IsDigit(s[i])
  }

  /** The regular expression `^[A-Za-z\s]+$`, with `\s` of kind `k`. */
  predicate LettersAndSpaces(k: Space, s: string) {
    |s| > 0 && forall i :: 0 <= i < |s| ==> IsAsciiLetter(s[i]) || IsSpace(k, s[i])
  }

  /** Number of UTF-16 code units of `c`: what Java's `String.length` and
      JavaScript's `.length` count. */
  function Utf16Units(c: char): (n: nat)
    ensures 1 <= n <= 2
  {
    if c as int < 0x10000 then 1 else 2
  }

  /** Length of `s` as Java and JavaScript count it. */
  function Utf16Length(s: string): (n: nat)
    ensures |s| <= n <= 2 * |s|
    ensures s == [] <==> n == 0
  {
    if s == [] then 0 else Utf16Units(s[0]) + Utf16Length(s[1..])
  }

  /** Characters of the Basic Multilingual Plane take one UTF-16 unit each. */
  lemma {:induction false} Utf16LengthOfBmp(s: string)
    ensures (forall i :: 0 <= i < |s| ==> s[i] as int < 0x10000) ==> Utf16Length(s) == |s|
    decreases |s|
  {
    if |s| > 1 {
      Utf16LengthOfBmp(s[1..]);
    }
  }

  lemma {:induction false} Utf16LengthAppend(a: string, b: string)
    ensures Utf16Length(a + b) == Utf16Length(a) + Utf16Length(b)
    decreases |a|
  {
    if a == [] {
      assert a + b == b;
    } else {
      assert (a + b)[1..] == a[1..] + b;
      Utf16LengthAppend(a[1..], b);
    }
  }

  /** Decimal digits of a natural number, as JavaScript prints it. */
  function NatToString(n: nat): (r: string)
    ensures AllDigits(r)
    ensures |r| > 1 ==> r[0] != '0'
    decreases n
  {
    if n < 10 then [DigitChar(n)] else NatToString(n / 10) + [DigitChar(n % 10)]
  }

  function DigitChar(d: nat): (c: char)
    requires d < 10
    ensures IsDigit(c) && c as int - '0' as int == d
  {
    ('0' as int + d) as char
  }

  function DigitValue(c: char): (d: nat)
    requires IsDigit(c)
    ensures d < 10 && DigitChar(d) == c
  {
    c as int - '0' as int
  }

  /** Value of a string of decimal digits. */
  function ParseNat(s: string): (n: nat)
    requires forall i :: 0 <= i < |s| ==> IsDigit(s[i])
    decreases |s|
  {
    if s == [] then 0 else ParseNat(s[..|s| - 1]) * 10 + DigitValue(s[|s| - 1])
  }

  /** Printing a number and reading it back gives the number. */
  lemma {:induction false} NatToStringRoundTrip(n: nat)
    ensures ParseNat(NatToString(n)) == n
    decreases n
  {
    var r := NatToString(n);
    if n >= 10 {
      NatToStringRoundTrip(n / 10);
      assert r[..|r| - 1] == NatToString(n / 10);
    }
  }

  /** Splits `s` on every occurrence of `sep`, keeping empty pieces. */
  function SplitAll(s: string, sep: char): (r: seq<string>)
    ensures |r| >= 1
    ensures forall i :: 0 <= i < |r| ==> sep !in r[i]
    decreases |s|
  {
    if s == [] then [""]
    else
      var rest := SplitAll(s[1..], sep);
      if s[0] == sep then [""] + rest
      else [[s[0]] + rest[0]] + rest[1..]
  }

  /** Joins pieces with `sep` between consecutive pieces. */
  function Join(pieces: seq<string>, sep: char): string
    decreases |pieces|
  {
    if pieces == [] then ""
    else if |pieces| == 1 then pieces[0]
    else pieces[0] + [sep] + Join(pieces[1..], sep)
  }

  /** Splitting undoes joining pieces that do not contain the separator. */
  lemma {:induction false} SplitJoin(pieces: seq<string>, sep: char)
    requires |pieces| >= 1
    requires forall i :: 0 <= i < |pieces| ==> sep !in pieces[i]
    ensures SplitAll(Join(pieces, sep), sep) == pieces
    decreases |pieces|
  {
    if |pieces| == 1 {
      SplitPiece(pieces[0], [], sep);
      assert pieces[0] + [] == pieces[0];
    } else {
      SplitJoin(pieces[1..], sep);
      SplitPiece(pieces[0], [sep] + Join(pieces[1..], sep), sep);
      assert pieces[0] + [sep] + Join(pieces[1..], sep)
          == pieces[0] + ([sep] + Join(pieces[1..], sep));
      assert ([sep] + Join(pieces[1..], sep))[1..] == Join(pieces[1..], sep);
      assert [pieces[0]] + pieces[1..] == pieces;
    }
  }

  /** Joining the pieces of a split gives back the string. */
  lemma {:induction false} JoinSplit(s: string, sep: char)
    ensures Join(SplitAll(s, sep), sep) == s
    decreases |s|
  {
    if s != [] {
      var rest := SplitAll(s[1..], sep);
      JoinSplit(s[1..], sep);
      if s[0] == sep {
        var pieces := [""] + rest;
        assert pieces[1..] == rest;
        assert Join(pieces, sep) == "" + [sep] + Join(rest, sep);
      } else {
        var pieces := [[s[0]] + rest[0]] + rest[1..];
        if |rest| == 1 {
          assert Join(pieces, sep) == [s[0]] + rest[0];
        } else {
          assert pieces[1..] == rest[1..];
          assert Join(rest, sep) == rest[0] + [sep] + Join(rest[1..], sep);
          assert Join(pieces, sep) == [s[0]] + rest[0] + [sep] + Join(rest[1..], sep);
        }
      }
      assert [s[0]] + s[1..] == s;
    }
  }

  /** Splitting `p + t`, where `p` holds no separator and `t` is empty or
      starts with one, glues `p` onto the first piece of `t`. */
  lemma {:induction false} SplitPiece(p: string, t: string, sep: char)
    requires sep !in p
    requires t == [] || t[0] == sep
    ensures t == [] ==> SplitAll(p + t, sep) == [p]
    ensures t != [] ==> SplitAll(p + t, sep) == [p] + SplitAll(t[1..], sep)
    decreases |p|
  {
    if p == [] {
      assert p + t == t;
    } else {
      SplitPiece(p[1..], t, sep);
      assert (p + t)[1..] == p[1..] + t;
      assert [p[0]] + p[1..] == p;
    }
  }

  /** Java's `String.split(",")`: a string without the separator gives
      itself; otherwise the pieces, less any trailing empty ones. */
  function JavaSplit(s: string, sep: char): (r: seq<string>)
  {
    if sep !in s then [s] else DropTrailingEmpty(SplitAll(s, sep))
  }

  function DropTrailingEmpty(pieces: seq<string>): (r: seq<string>)
    ensures r <= pieces
    ensures forall i :: |r| <= i < |pieces| ==> pieces[i] == ""
    ensures r == [] || r[|r| - 1] != ""
    decreases |pieces|
  {
    if pieces == [] || pieces[|pieces| - 1] != "" then pieces
    else DropTrailingEmpty(pieces[..|pieces| - 1])
  }
}

=== FILE: user_service.dfy ===
/** Users: self-registration and deletion (newer tree), loading a user for
    authentication in both trees, and the older tree's default-admin
    seeding with its SHA-256 password form. The password encoder and the
    digest are parameters: they are library code. */
module UserService {
  import opened Wrappers
  import opened Text
  import opened Bytes
  import opened Domain
  import opened Validation

  const RegisterRequestRequired: string := "Register request must not be null"
  const UsernameRequired: string := "Username is required"
  const UsernameTaken: string := "Username is already taken"
  const PasswordRequired: string := "Password is required"
  const UserNotFound: string := "User not found"
  const LoadUsernameRequired: string := "username is required"
  const NotFoundWithUsername: string := "User not found with username: "

  /** Some stored user has this name. */
  predicate Taken(rows: seq<Row<User>>, name: string) {
    exists i :: 0 <= i < |rows| && rows[i].value.username == name
  }

  function FindUser(rows: seq<Row<User>>, name: string): (r: Option<Row<User>>)
    ensures r.None? <==> !Taken(rows, name)
    ensures r.Some? ==> r.value in rows && r.value.value.username == name
  {
    var r := UserByName(rows, name);
    assert r.Some? ==> Taken(rows, name) by {
      if r.Some? {
        var i :| 0 <= i < |rows| && rows[i] == r.value;
      }
    }
    r
  }

  lemma RoleKept(u: User)
    requires u.role == Some(DefaultRole) || u.role == Some("ADMIN")
    ensures EnsureRole(u) == u
  {
    assert !IsSpace(JavaWhitespace, u.role.value[0]);
  }

  // ---------------------------------------------------------------------
  // Registration and deletion (newer tree)

  /** `registerUser`: the request and the username must be present; the
      username is trimmed and must then be non-empty and free; only then
      must the password be present. One user is added with the trimmed
      name, the encoded password and the role "USER". */
  function RegisterUser(users: Table<User>, req: Option<Credentials>, encode: string -> string)
    : (r: Result<(Table<User>, Row<User>), Failure>)
    ensures req.None? ==> r == Err(NullPointer(RegisterRequestRequired))
    ensures req.Some? && req.value.username.None? ==> r == Err(NullPointer(UsernameRequired))
    ensures req.Some? && req.value.username.Some? ==>
              var name := Trim(JavaTrimSpace, req.value.username.value);
              (name == [] ==> r == Err(IllegalArgument(UsernameRequired)))
              && (name != [] && Taken(users.rows, name) ==> r == Err(IllegalArgument(UsernameTaken)))
              && (name != [] && !Taken(users.rows, name) && req.value.password.None?
                  ==> r == Err(NullPointer(PasswordRequired)))
              && (name != [] && !Taken(users.rows, name) && req.value.password.Some?
                  ==> r.Ok? && r.value.1 == Row(users.nextId, User(name, encode(req.value.password.value), Some(DefaultRole))))
    ensures r.Ok? ==> r.value.0 == Insert(users, r.value.1.value).0
    ensures r.Ok? ==> r.value.1.value.username != [] && Unpadded(JavaTrimSpace, r.value.1.value.username)
    ensures r.Ok? && Consistent(users, UserConstraints) ==> Consistent(r.value.0, UserConstraints)
  {
    if req.None? then Err(NullPointer(RegisterRequestRequired))
    else if req.value.username.None? then Err(NullPointer(UsernameRequired))
    else
      var name := Trim(JavaTrimSpace, req.value.username.value);
      if name == [] then Err(IllegalArgument(UsernameRequired))
      else if FindUser(users.rows, name).Some? then Err(IllegalArgument(UsernameTaken))
      else if req.value.password.None? then Err(NullPointer(PasswordRequired))
      else
        var u := User(name, encode(req.value.password.value), Some(DefaultRole));
        RoleKept(u);
        SaveUser(users, None, u)
  }

  /** A name registered once cannot be registered again, however it is
      padded. */
  lemma RegisterTwiceRefused(users: Table<User>, req: Credentials, again: Credentials, encode: string -> string)
    requires RegisterUser(users, Some(req), encode).Ok?
    requires again.username.Some?
    requires Trim(JavaTrimSpace, again.username.value) == Trim(JavaTrimSpace, req.username.value)
    ensures RegisterUser(RegisterUser(users, Some(req), encode).value.0, Some(again), encode)
            == Err(IllegalArgument(UsernameTaken))
  {
    var r := RegisterUser(users, Some(req), encode).value;
    assert r.0.rows[|r.0.rows| - 1] == r.1;
  }

  /** `deleteUserByUsername`: the name must be present and non-empty after
      trimming, and a user must hold it; that user is removed. */
  function DeleteUserByUsername(users: Table<User>, username: Option<string>): (r: Result<Table<User>, Failure>)
    ensures username.None? ==> r == Err(NullPointer(UsernameRequired))
    ensures username.Some? ==>
              var name := Trim(JavaTrimSpace, username.value);
              (name == [] ==> r == Err(IllegalArgument(UsernameRequired)))
              && (name != [] && !Taken(users.rows, name) ==> r == Err(NotFound(UserNotFound)))
              && (name != [] && Taken(users.rows, name) ==> r.Ok?)
    ensures r.Ok? ==> r.value.nextId == users.nextId && |r.value.rows| < |users.rows|
                      && forall x :: x in r.value.rows ==> x in users.rows
    ensures r.Ok? && Consistent(users, UserConstraints) ==>
              var name := Trim(JavaTrimSpace, username.value);
              Consistent(r.value, UserConstraints)
              && (forall x :: x in r.value.rows <==> x in users.rows && x.value.username != name)
  {
    if username.None? then Err(NullPointer(UsernameRequired))
    else
      var name := Trim(JavaTrimSpace, username.value);
      if name == [] then Err(IllegalArgument(UsernameRequired))
      else match FindUser(users.rows, name)
        case None => Err(NotFound(UserNotFound))
        case Some(found) =>
          var rows := Remove(users.rows, found.id);
          var p := (x: Row<User>) => x.id != found.id;
          assert |rows| < |users.rows| by {
            KeepSmaller(users.rows, p, found);
          }
          assert Consistent(users, UserConstraints) ==>
                   Consistent(Table(rows, users.nextId), UserConstraints)
                   && (forall x :: x in rows <==> x in users.rows && x.value.username != name) by {
            if Consistent(users, UserConstraints) {
              KeepKeepsValid(users, p);
              KeepHolds(users.rows, p, UserConstraints);
              forall x | x in users.rows
                ensures (x.id != found.id) <==> (x.value.username != name)
              {
                FindByIdUnique(users, x);
                FindByIdUnique(users, found);
                if x.id != found.id {
                  UsernamesDistinct(users, x, found);
                }
              }
            }
          }
          Ok(Table(rows, users.nextId))
  }

  /** A filter that drops a present row shortens the sequence. */
  lemma {:induction false} KeepSmaller(rows: seq<Row<User>>, p: Row<User> -> bool, x: Row<User>)
    requires x in rows && !p(x)
    ensures |Keep(rows, p)| < |rows|
    decreases |rows|
  {
    if rows[0] != x {
      KeepSmaller(rows[1..], p, x);
    }
  }

  /** A name nobody held is found on the row just appended. */
  lemma FindAppended(rows: seq<Row<User>>, row: Row<User>)
    requires !Taken(rows, row.value.username)
    ensures FindUser(rows + [row], row.value.username) == Some(row)
  {
    var found := FindUser(rows + [row], row.value.username).value;
    forall i | 0 <= i < |rows|
      ensures rows[i] != found
    {
      assert rows[i].value.username != row.value.username;
    }
  }

  /** Removing the row just appended gives back the rows before it. */
  lemma RemoveAppended(t: Table<User>, row: Row<User>)
    requires ValidTable(t) && row.id == t.nextId
    ensures Remove(t.rows + [row], row.id) == t.rows
  {
    var p := (x: Row<User>) => x.id != row.id;
    KeepAppend(t.rows, [row], p);
    KeepAll(t.rows, p);
  }

  /** Deleting a freshly registered user gives back the users that were
      there before. */
  lemma RegisterThenDelete(users: Table<User>, name: string, password: string, encode: string -> string)
    requires Consistent(users, UserConstraints)
    requires RegisterUser(users, Some(Credentials(Some(name), Some(password))), encode).Ok?
    ensures var r := RegisterUser(users, Some(Credentials(Some(name), Some(password))), encode).value;
            DeleteUserByUsername(r.0, Some(name)) == Ok(Table(users.rows, users.nextId + 1))
  {
    var r := RegisterUser(users, Some(Credentials(Some(name), Some(password))), encode).value;
    Registered(users, name, password, encode);
    FindAppended(users.rows, r.1);
    RemoveAppended(users, r.1);
    DeleteFound(r.0, name, r.1);
  }

  /** A successful registration appends one row under the trimmed name,
      which nobody held before. */
  lemma Registered(users: Table<User>, name: string, password: string, encode: string -> string)
    requires RegisterUser(users, Some(Credentials(Some(name), Some(password))), encode).Ok?
    ensures var r := RegisterUser(users, Some(Credentials(Some(name), Some(password))), encode).value;
            var trimmed := Trim(JavaTrimSpace, name);
            trimmed != [] && !Taken(users.rows, trimmed)
            && r.1 == Row(users.nextId, r.1.value) && r.1.value.username == trimmed
            && r.0 == Table(users.rows + [r.1], users.nextId + 1)
  {
  }

  /** Deleting under a name that finds a row removes that row. */
  lemma DeleteFound(users: Table<User>, username: string, found: Row<User>)
    requires Trim(JavaTrimSpace, username) != []
    requires FindUser(users.rows, Trim(JavaTrimSpace, username)) == Some(found)
    ensures DeleteUserByUsername(users, Some(username)) == Ok(Table(Remove(users.rows, found.id), users.nextId))
  {
  }

  // ---------------------------------------------------------------------
  // Loading a user for authentication

  /** What Spring Security receives: the stored name and password and the
      authorities granted. */
  datatype UserDetails = UserDetails(username: string, password: string, authorities: seq<string>)

  function DetailsOf(u: User): UserDetails {
    UserDetails(u.username, u.password, [])
  }

  lemma MessageNamesUser(name: string)
    ensures Contains(NotFoundWithUsername + name, name)
  {
    ContainsPrefix(name, name);
    ContainsInConcat(NotFoundWithUsername, name, name);
  }

  /** The newer `loadUserByUsername`: a null name throws; an unknown name
      is reported with the name in the message; a stored user yields its
      name and password and no authorities. */
  function LoadUserByUsername(users: Table<User>, username: Option<string>): (r: Result<UserDetails, Failure>)
    ensures username.None? ==> r == Err(NullPointer(LoadUsernameRequired))
    ensures username.Some? ==> (r.Err? <==> !Taken(users.rows, username.value))
    ensures username.Some? && r.Err? ==> r.error.UsernameNotFound? && Contains(r.error.message, username.value)
    ensures r.Ok? ==> exists x :: x in users.rows && x.value.username == r.value.username == username.value
                                  && x.value.password == r.value.password
    ensures r.Ok? ==> r.value.authorities == []
  {
    if username.None? then Err(NullPointer(LoadUsernameRequired))
    else match FindUser(users.rows, username.value)
      case None =>
        MessageNamesUser(username.value);
        Err(UsernameNotFound(NotFoundWithUsername + username.value))
      case Some(row) => Ok(DetailsOf(row.value))
  }

  /** A registered user can be loaded, with the encoded password. */
  lemma RegisterThenLoad(users: Table<User>, req: Credentials, encode: string -> string)
    requires Consistent(users, UserConstraints)
    requires RegisterUser(users, Some(req), encode).Ok?
    ensures var r := RegisterUser(users, Some(req), encode).value;
            LoadUserByUsername(r.0, Some(r.1.value.username)) == Ok(DetailsOf(r.1.value))
  {
    var r := RegisterUser(users, Some(req), encode).value;
    var x := FindUser(r.0.rows, r.1.value.username).value;
    assert r.1 in r.0.rows;
    if x.id != r.1.id {
      UsernamesDistinct(r.0, x, r.1);
    }
    FindByIdUnique(r.0, x);
    FindByIdUnique(r.0, r.1);
  }

  // ---------------------------------------------------------------------
  // The older tree's default admin

  /** `app.auth.*`: whether passwords are kept as SHA-256 hex, and the
      default admin's credentials. */
  datatype AuthSettings = AuthSettings(
    useSha256Passwords: bool,
    defaultAdminUsername: Option<string>,
    defaultAdminPassword: Option<string>)

  const DefaultAuthSettings: AuthSettings := AuthSettings(true, Some("admin"), Some("123456"))
  const FallbackAdminPassword: string := "123456"
  const AdminRole: string := "ADMIN"

  /** The configured admin name, trimmed; absent when unset or blank. */
  function ConfiguredAdminName(s: AuthSettings): (r: Option<string>)
    ensures r.None? <==> s.defaultAdminUsername.None? || IsBlank(Trim(JavaTrimSpace, s.defaultAdminUsername.value))
    ensures r.Some? ==> r.value == Trim(JavaTrimSpace, s.defaultAdminUsername.value) && r.value != []
  {
    match s.defaultAdminUsername
    case None => None
    case Some(name) =>
      var t := Trim(JavaTrimSpace, name);
      if IsBlank(t) then None else Some(t)
  }

  /** The seed password: the configured one unless unset or blank (it is
      not trimmed). */
  function SeedPassword(s: AuthSettings): (p: string)
    ensures s.defaultAdminPassword.Some? && !IsBlank(s.defaultAdminPassword.value) ==> p == s.defaultAdminPassword.value
    ensures s.defaultAdminPassword.None? || IsBlank(s.defaultAdminPassword.value) ==> p == FallbackAdminPassword
  {
    if s.defaultAdminPassword.Some? && !IsBlank(s.defaultAdminPassword.value) then s.defaultAdminPassword.value
    else FallbackAdminPassword
  }

  /** `hashPassword`: the SHA-256 digest of the UTF-8 bytes, written as two
      lowercase hexadecimal digits per byte. The digest is a parameter. */
  function HashPassword(raw: string, sha256: seq<byte> -> seq<byte>): (h: string)
    ensures |h| == 2 * |sha256(Utf8(raw))|
    ensures HexDecode(h) == Some(sha256(Utf8(raw)))
  {
    HexRoundTrip(sha256(Utf8(raw)));
    Hex(sha256(Utf8(raw)))
  }

  /** The password stored for the seeded admin. */
  function AdminPassword(s: AuthSettings, sha256: seq<byte> -> seq<byte>): (p: string)
    ensures s.useSha256Passwords ==> p == HashPassword(SeedPassword(s), sha256)
    ensures !s.useSha256Passwords ==> p == SeedPassword(s)
  {
    if s.useSha256Passwords then HashPassword(SeedPassword(s), sha256) else SeedPassword(s)
  }

  /** `ensureDefaultAdmin`: when a name is configured and no user holds it,
      one "ADMIN" user with that name and the seed password is added;
      otherwise nothing changes. */
  function EnsureDefaultAdmin(users: Table<User>, s: AuthSettings, sha256: seq<byte> -> seq<byte>): (r: Table<User>)
    ensures ConfiguredAdminName(s).None? ==> r == users
    ensures ConfiguredAdminName(s).Some? && Taken(users.rows, ConfiguredAdminName(s).value) ==> r == users
    ensures ConfiguredAdminName(s).Some? && !Taken(users.rows, ConfiguredAdminName(s).value) ==>
              r == Insert(users, User(ConfiguredAdminName(s).value, AdminPassword(s, sha256), Some(AdminRole))).0
    ensures ConfiguredAdminName(s).Some? ==> Taken(r.rows, ConfiguredAdminName(s).value)
    ensures Consistent(users, UserConstraints) ==> Consistent(r, UserConstraints)
  {
    match ConfiguredAdminName(s)
    case None => users
    case Some(name) =>
      if FindUser(users.rows, name).Some? then users
      else
        var admin := User(name, AdminPassword(s, sha256), Some(AdminRole));
        RoleKept(admin);
        match SaveUser(users, None, admin)
        case Err(_) => users
        case Ok(saved) =>
          assert saved.0.rows[|saved.0.rows| - 1].value.username == name;
          saved.0
  }

  /** A second call adds nothing. */
  lemma EnsureDefaultAdminIdempotent(users: Table<User>, s: AuthSettings, sha256: seq<byte> -> seq<byte>)
    ensures EnsureDefaultAdmin(EnsureDefaultAdmin(users, s, sha256), s, sha256) == EnsureDefaultAdmin(users, s, sha256)
  {
  }

  /** The older `loadUserByUsername`: the default admin is ensured first
      (and stays, whatever the lookup gives); then the name is looked up.
      A null name matches no user and is printed as "null". */
  function LegacyLoadUserByUsername(users: Table<User>, username: Option<string>, s: AuthSettings,
                                    sha256: seq<byte> -> seq<byte>): (r: (Table<User>, Result<UserDetails, Failure>))
    ensures r.0 == EnsureDefaultAdmin(users, s, sha256)
    ensures username.None? ==> r.1 == Err(UsernameNotFound(NotFoundWithUsername + "null"))
    ensures username.Some? ==> (r.1.Err? <==> !Taken(r.0.rows, username.value))
    ensures username.Some? && r.1.Err? ==> r.1.error.UsernameNotFound? && Contains(r.1.error.message, username.value)
    ensures r.1.Ok? ==> exists x :: x in r.0.rows && x.value.username == r.1.value.username
                                    && x.value.password == r.1.value.password
    ensures r.1.Ok? ==> r.1.value.authorities == []
  {
    var users' := EnsureDefaultAdmin(users, s, sha256);
    match username
    case None => (users', Err(UsernameNotFound(NotFoundWithUsername + "null")))
    case Some(name) => (users', LoadUserByUsername(users', Some(name)))
  }

  /** With the default settings the admin can sign in on an empty
      database, and its stored password is the hex digest of "123456". */
  lemma DefaultAdminOnEmptyDatabase(nextId: nat, sha256: seq<byte> -> seq<byte>)
    ensures var r := LegacyLoadUserByUsername(Table([], nextId), Some("admin"), DefaultAuthSettings, sha256);
            r.1 == Ok(UserDetails("admin", HashPassword("123456", sha256), []))
  {
    DefaultSettingsResolve(sha256);
    var users := EnsureDefaultAdmin(Table([], nextId), DefaultAuthSettings, sha256);
    assert users.rows == [Row(nextId, User("admin", HashPassword("123456", sha256), Some(AdminRole)))];
  }

  /** The default settings name "admin" and store the digest of "123456". */
  lemma DefaultSettingsResolve(sha256: seq<byte> -> seq<byte>)
    ensures ConfiguredAdminName(DefaultAuthSettings) == Some("admin")
    ensures AdminPassword(DefaultAuthSettings, sha256) == HashPassword("123456", sha256)
  {
    assert Unpadded(JavaTrimSpace, "admin");
    TrimUnpadded(JavaTrimSpace, "admin");
    assert !IsSpace(JavaWhitespace, "admin"[0]);
    assert !IsSpace(JavaWhitespace, "123456"[0]);
  }
}

=== FILE: validation.dfy ===
/** The bean-validation constraints on the request bodies, as the sets of
    violations Hibernate Validator reports. Every constraint is checked on
    its own, so one field can break several at once; `null` (`None`) only
    breaks `@NotBlank` and `@NotNull`. Dates are day numbers and `today` is
    a parameter. */
module Validation {
  import opened Wrappers
  import opened Text

  /** The fields the constraints sit on. */
  datatype Field =
    | CodeNumber | FirstName | LastName | DateOfBirth | Title | Description
    | Status | ProjectId | Name | StartDate | Username | Password

  /** The constraint annotations in use. */
  datatype Rule = NotBlankRule | SizeRule | PatternRule | PastRule | NotNullRule

  /** A broken constraint on a field, with the message it declares. */
  datatype Violation = Violation(field: Field, rule: Rule, message: string)

  /** `@NotBlank`: present, and something is left after `String.trim`. */
  predicate NotBlank(s: Option<string>) {
    s.Some? && Trim(JavaTrimSpace, s.value) != ""
  }

  /** `@Size(min, max)` on a string; the length counts UTF-16 units. */
  predicate SizeWithin(s: Option<string>, min: nat, max: Option<nat>) {
    s.None? || (min <= Utf16Length(s.value) && (max.None? || Utf16Length(s.value) <= max.value))
  }

  /** `@Pattern("^[0-9]+$")` and `@Pattern("^[A-Za-z\\s]+$")`. */
  predicate DigitsPattern(s: Option<string>) {
    s.None? || AllDigits(s.value)
  }

  predicate LettersPattern(s: Option<string>) {
    s.None? || LettersAndSpaces(JavaRegexSpace, s.value)
  }

  /** `@Past` and `@PastOrPresent` on a date. */
  predicate Past(d: Option<int>, today: int) {
    d.None? || d.value < today
  }

  predicate PastOrPresent(d: Option<int>, today: int) {
    d.None? || d.value <= today
  }

  /** The violation reported when a constraint does not hold. */
  function Check(holds: bool, v: Violation): (vs: set<Violation>)
    ensures holds <==> vs == {}
    ensures !holds ==> vs == {v}
  {
    if holds then {} else {v}
  }

  /** The violations of one text field: `@NotBlank`, `@Size(max)`, and,
      when a pattern message is given, the letters pattern. */
  function TextViolations(v: Option<string>, f: Field, required: string, max: nat, tooLong: string,
                          letters: Option<string>): (vs: set<Violation>)
    ensures forall x :: x in vs ==> x.field == f
    ensures Violation(f, NotBlankRule, required) in vs <==> !NotBlank(v)
    ensures Violation(f, SizeRule, tooLong) in vs <==> !SizeWithin(v, 0, Some(max))
    ensures letters.Some? ==> (Violation(f, PatternRule, letters.value) in vs <==> !LettersPattern(v))
    ensures letters.None? ==> (vs == {} <==> NotBlank(v) && Utf16Length(v.value) <= max)
  {
    Check(NotBlank(v), Violation(f, NotBlankRule, required))
    + Check(SizeWithin(v, 0, Some(max)), Violation(f, SizeRule, tooLong))
    + (if letters.Some? then Check(LettersPattern(v), Violation(f, PatternRule, letters.value)) else {})
  }

  // ---------------------------------------------------------------------
  // StudentRequest

  datatype StudentRequest = StudentRequest(
    codeNumber: Option<string>,
    firstName: Option<string>,
    lastName: Option<string>,
    dateOfBirth: Option<int>,
    title: Option<string>,
    description: Option<string>,
    projectId: Option<int>)


  /** The violations of a student's code: `@NotBlank`, `@Size(max = 20)`
      and the digits pattern. */
  function StudentCodeViolations(v: Option<string>): (vs: set<Violation>)
    ensures forall x :: x in vs ==> x.field == CodeNumber
    ensures Violation(CodeNumber, NotBlankRule, "codeNumber is required") in vs <==> !NotBlank(v)
    ensures Violation(CodeNumber, SizeRule, "codeNumber must be at most 20 characters") in vs
            <==> !SizeWithin(v, 0, Some(20))
    ensures Violation(CodeNumber, PatternRule, "Student ID must contain only numbers") in vs
            <==> !DigitsPattern(v)
  {
    Check(NotBlank(v), Violation(CodeNumber, NotBlankRule, "codeNumber is required"))
    + Check(SizeWithin(v, 0, Some(20)), Violation(CodeNumber, SizeRule, "codeNumber must be at most 20 characters"))
    + Check(DigitsPattern(v), Violation(CodeNumber, PatternRule, "Student ID must contain only numbers"))
  }

  /** A name field in plain terms: ASCII letters and ASCII white space
      only, at least one letter, and at most `max` characters. */
  predicate PlainName(v: Option<string>, max: nat) {
    v.Some? && LettersAndSpaces(JavaRegexSpace, v.value) && |v.value| <= max
    && exists i :: 0 <= i < |v.value| && IsAsciiLetter(v.value[i])
  }

  /** A student request that passes validation, in plain terms. */
  predicate ValidStudentRequest(r: StudentRequest, today: int) {
    r.codeNumber.Some? && AllDigits(r.codeNumber.value) && |r.codeNumber.value| <= 20
    && PlainName(r.firstName, 100) && PlainName(r.lastName, 100) && PlainName(r.title, 200)
    && Past(r.dateOfBirth, today)
    && SizeWithin(r.description, 0, Some(1000))
    && r.projectId.Some?
  }

  /** A letters-pattern field passes `@NotBlank` and `@Size(max)` exactly
      when it is a plain name. */
  lemma PlainNameExactly(v: Option<string>, max: nat)
    ensures NotBlank(v) && SizeWithin(v, 0, Some(max)) && LettersPattern(v) <==> PlainName(v, max)
  {
    if v.Some? {
      var s := v.value;
      if LettersAndSpaces(JavaRegexSpace, s) {
        assert forall i :: 0 <= i < |s| ==> s[i] as int < 0x10000;
        Utf16LengthOfBmp(s);
        if !AllSpace(JavaTrimSpace, s) {
          var i :| 0 <= i < |s| && !IsSpace(JavaTrimSpace, s[i]);
          assert IsAsciiLetter(s[i]);
        }
      }
    }
  }

  /** The code passes its three constraints exactly when it is 1 to 20
      digits. */
  lemma CodeExactly(v: Option<string>)
    ensures (NotBlank(v) && SizeWithin(v, 0, Some(20)) && DigitsPattern(v))
            <==> (v.Some? && AllDigits(v.value) && |v.value| <= 20)
  {
    if v.Some? && AllDigits(v.value) {
      Utf16LengthOfBmp(v.value);
      assert !IsSpace(JavaTrimSpace, v.value[0]);
    }
  }

  /** The violations of the three letter-only fields of a student
      request; none exactly when each is a plain name of its length. */
  function StudentNameViolations(r: StudentRequest): (vs: set<Violation>)
    ensures vs == {} <==> PlainName(r.firstName, 100) && PlainName(r.lastName, 100) && PlainName(r.title, 200)
  {
    PlainNameExactly(r.firstName, 100);
    PlainNameExactly(r.lastName, 100);
    PlainNameExactly(r.title, 200);
    TextViolations(r.firstName, FirstName, "firstName is required", 100,
                   "firstName must be at most 100 characters", Some("First name must contain only letters"))
    + TextViolations(r.lastName, LastName, "lastName is required", 100,
                     "lastName must be at most 100 characters", Some("Last name must contain only letters"))
    + TextViolations(r.title, Title, "title is required", 200,
                     "title must be at most 200 characters", Some("Job title must contain only letters"))
  }

  /** The violations of a student request; it has none exactly when the
      request is valid in the plain terms above. */
  function StudentRequestViolations(r: StudentRequest, today: int): (vs: set<Violation>)
    ensures vs == {} <==> ValidStudentRequest(r, today)
  {
    CodeExactly(r.codeNumber);
    StudentCodeViolations(r.codeNumber)
    + StudentNameViolations(r)
    + Check(Past(r.dateOfBirth, today), Violation(DateOfBirth, PastRule, "dateOfBirth must be in the past"))
    + Check(SizeWithin(r.description, 0, Some(1000)),
            Violation(Description, SizeRule, "description must be at most 1000 characters"))
    + Check(r.projectId.Some?, Violation(ProjectId, NotNullRule, "projectId is required"))
  }

  /** White space alone matches the letters pattern but is blank, so it is
      rejected, and only as missing. */
  lemma BlankNameFailsOnlyNotBlank(s: string)
    requires s != [] && AllSpace(JavaRegexSpace, s)
    ensures LettersPattern(Some(s)) && !NotBlank(Some(s))
  {
    assert AllSpace(JavaTrimSpace, s);
  }

  // ---------------------------------------------------------------------
  // TaskRequest

  datatype TaskRequest = TaskRequest(
    codeNumber: Option<string>,
    firstName: Option<string>,
    lastName: Option<string>,
    dateOfBirth: Option<int>,
    title: Option<string>,
    description: Option<string>,
    status: Option<string>,
    projectId: Option<int>)

  function TaskRequestViolations(r: TaskRequest, today: int): (vs: set<Violation>)
    ensures vs == {} <==>
              NotBlank(r.codeNumber) && Utf16Length(r.codeNumber.value) <= 20
              && NotBlank(r.firstName) && Utf16Length(r.firstName.value) <= 100
              && NotBlank(r.lastName) && Utf16Length(r.lastName.value) <= 100
              && Past(r.dateOfBirth, today)
              && NotBlank(r.title) && Utf16Length(r.title.value) <= 200
              && NotBlank(r.status) && Utf16Length(r.status.value) <= 50
              && r.projectId.Some?
  {
    TextViolations(r.codeNumber, CodeNumber, "codeNumber is required", 20,
                   "codeNumber must be at most 20 characters", None)
    + TextViolations(r.firstName, FirstName, "firstName is required", 100,
                     "firstName must be at most 100 characters", None)
    + TextViolations(r.lastName, LastName, "lastName is required", 100,
                     "lastName must be at most 100 characters", None)
    + Check(Past(r.dateOfBirth, today), Violation(DateOfBirth, PastRule, "dateOfBirth must be in the past"))
    + TextViolations(r.title, Title, "title is required", 200, "title must be at most 200 characters", None)
    + TextViolations(r.status, Status, "status is required", 50, "status must be at most 50 characters", None)
    + Check(r.projectId.Some?, Violation(ProjectId, NotNullRule, "projectId is required"))
  }

  /** The description of a task is never checked. */
  lemma TaskDescriptionIgnored(r: TaskRequest, today: int, d: Option<string>)
    ensures TaskRequestViolations(r.(description := d), today) == TaskRequestViolations(r, today)
  {
  }

  /** A task's code may hold any characters, where a student's must be
      digits: "A-1" passes as a task code and fails as a student code. */
  lemma TaskCodeIsFreeText()
    ensures TextViolations(Some("A-1"), CodeNumber, "codeNumber is required", 20,
                           "codeNumber must be at most 20 characters", None) == {}
    ensures Violation(CodeNumber, PatternRule, "Student ID must contain only numbers")
              in StudentCodeViolations(Some("A-1"))
  {
    assert !IsSpace(JavaTrimSpace, "A-1"[0]);
    assert !IsDigit("A-1"[0]);
    Utf16LengthOfBmp("A-1");
  }

  // ---------------------------------------------------------------------
  // ProjectRequest

  datatype ProjectRequest = ProjectRequest(name: Option<string>, description: Option<string>,
                                           startDate: Option<int>)

  function ProjectRequestViolations(r: ProjectRequest, today: int): (vs: set<Violation>)
    ensures vs == {} <==>
              NotBlank(r.name) && 3 <= Utf16Length(r.name.value) <= 100
              && SizeWithin(r.description, 0, Some(500))
              && r.startDate.Some? && r.startDate.value <= today
    ensures Violation(Name, NotBlankRule, "Project name is required") in vs <==> !NotBlank(r.name)
    ensures Violation(Name, SizeRule, "Project name must be between 3 and 100 characters") in vs
            <==> !SizeWithin(r.name, 3, Some(100))
  {
    Check(NotBlank(r.name), Violation(Name, NotBlankRule, "Project name is required"))
    + Check(SizeWithin(r.name, 3, Some(100)),
            Violation(Name, SizeRule, "Project name must be between 3 and 100 characters"))
    + Check(SizeWithin(r.description, 0, Some(500)),
            Violation(Description, SizeRule, "Description must be at most 500 characters"))
    + Check(r.startDate.Some?, Violation(StartDate, NotNullRule, "Start date is required"))
    + Check(PastOrPresent(r.startDate, today), Violation(StartDate, PastRule, "Start date cannot be in the future"))
  }

  /** A name of white space has a valid length but is still rejected. */
  lemma BlankProjectNameRejected(r: ProjectRequest, today: int)
    requires r.name == Some("   ")
    ensures Violation(Name, NotBlankRule, "Project name is required") in ProjectRequestViolations(r, today)
    ensures Violation(Name, SizeRule, "Project name must be between 3 and 100 characters")
            !in ProjectRequestViolations(r, today)
  {
    assert AllSpace(JavaTrimSpace, "   ");
    Utf16LengthOfBmp("   ");
  }

  // ---------------------------------------------------------------------
  // The login and registration requests

  datatype Credentials = Credentials(username: Option<string>, password: Option<string>)

  /** The two-argument constructor of the older `LoginRequest`: both
      values are kept as given. */
  function NewLoginRequest(username: Option<string>, password: Option<string>): (c: Credentials)
    ensures c.username == username && c.password == password
  {
    Credentials(username, password)
  }

  /** `RegisterRequest`: a username of at most 50 units and a password of
      8 to 128. */
  function RegisterRequestViolations(r: Credentials): (vs: set<Violation>)
    ensures vs == {} <==>
              NotBlank(r.username) && Utf16Length(r.username.value) <= 50
              && NotBlank(r.password) && 8 <= Utf16Length(r.password.value) <= 128
  {
    TextViolations(r.username, Username, "username is required", 50,
                   "username must be at most 50 characters", None)
    + Check(NotBlank(r.password), Violation(Password, NotBlankRule, "password is required"))
    + Check(SizeWithin(r.password, 8, Some(128)),
            Violation(Password, SizeRule, "password must be between 8 and 128 characters"))
  }

  /** Both `LoginRequest` classes: a username of at most 50 units and a
      password of at least 4, with no upper bound. */
  function LoginRequestViolations(r: Credentials): (vs: set<Violation>)
    ensures vs == {} <==>
              NotBlank(r.username) && Utf16Length(r.username.value) <= 50
              && NotBlank(r.password) && 4 <= Utf16Length(r.password.value)
  {
    TextViolations(r.username, Username, "username is required", 50,
                   "username must be at most 50 characters", None)
    + Check(NotBlank(r.password), Violation(Password, NotBlankRule, "password is required"))
    + Check(SizeWithin(r.password, 4, None), Violation(Password, SizeRule, "password must be at least 4 characters"))
  }

  /** Whatever registration accepts, logging in accepts too. */
  lemma RegisteredCredentialsCanLogIn(r: Credentials)
    requires RegisterRequestViolations(r) == {}
    ensures LoginRequestViolations(r) == {}
  {
  }

  /** No password is too long to log in with. */
  lemma NoMaximumLoginPassword(u: string, p: string, extra: string)
    requires LoginRequestViolations(Credentials(Some(u), Some(p))) == {}
    ensures LoginRequestViolations(Credentials(Some(u), Some(p + extra))) == {}
  {
    Utf16LengthAppend(p, extra);
    var t := p + extra;
    assert !AllSpace(JavaTrimSpace, p);
    var i :| 0 <= i < |p| && !IsSpace(JavaTrimSpace, p[i]);
    assert t[i] == p[i];
  }
}

=== FILE: wrappers.dfy ===
/** Optional values and success-or-failure results shared by every module.
    `Option` stands for a nullable reference (Java `null`, JavaScript
    `null`/`undefined`); `Result` stands for a call that either returns or
    throws / rejects. */
module Wrappers {

  datatype Option<+T> = None | Some(value: T) {

    /** The wrapped value, or `default` when there is none. */
    function GetOr(default: T): T {
      match this
      case Some(v) => v
      case None => default
    }
  }

  datatype Result<+T, +E> = Ok(value: T) | Err(error: E) {

    /** Converts a result into an option, forgetting the error. */
    function ToOption(): Option<T> {
      match this
      case Ok(v) => Some(v)
      case Err(_) => None
    }
  }
}
